=== FILE: README.md ===
# datacollective: a Dafny model of the client's core

This project models the core of the Mozilla Data Collective Python client
(`datacollective`) in Dafny 4.11 and proves properties of the model.

**Multipart upload** (`upload.dfy`, `upload_records.dfy`)
- The resumable upload of a dataset archive.
  - Argument guards.
  - The choice between resuming a persisted state and starting a fresh session.
  - The part loop that reads and hashes every chunk but sends only parts not yet recorded, saving the state after each one.
  - The byte-count and part-count checks.
  - The sorted part list sent on completion.
- The persisted state's dictionary form and its load rule.

**Download** (`api.dfy`, `download.dfy`, `download_errors.dfy`)
- The request layer: the API URL and key, header merge, the status-to-failure mapping and `Repr-Digest` extraction.
- The resume decision for a `.part` file.
- The download plan, and the streamed download that appends to the `.part` file.
- The structured `DownloadError` and its message.

**Submissions** (`models.py` and `submissions.py`, modelled in `models.dfy`, `submissions.dfy`)
- The trim-and-reject-blank validation of the submission payloads.
- The `UploadPart` schema.
- The draft → upload → submit sequence and its `fileUploadId` reconciliation.

**Slugs and loaders** (`slugs.dfy`, `registry.dfy`)
- `slugify` and the slug map built from dataset cards.
- Slug-or-id resolution.
- The routing of a dataset name to its Common Voice loader.

`base.dfy` holds the shared vocabulary: `Option`, `Result`, decoded JSON values, failure kinds, paths and the uninterpreted codecs. `text.dfy` holds the Python `str` rules the code relies on: `strip`, `lower`, `split`, `in`, `str(int)` and `int(str)`.

**Design choices**
- Every remote endpoint is a function parameter. Examples: the HTTP transport `send`, the presigned `PUT`, and `Server`/`Service` records of endpoint functions.
- The environment is an explicit `Env` value. The filesystem is a map from `Path` to bytes.
- The upload and the submission sequence return a trace of their observable effects (`Effect`, `Step`). Their ordering promises are stated over that trace: "saved before any part is sent", "a recorded part is never sent again", "saved after every accepted part", the last also when the upload fails.
- SHA-256, base64 and hex are the uninterpreted functions of `Base.Codecs`. NFKD normalisation is a parameter `nfkd` of `Slugify`.

**Where the source files disagree with each other**
- `upload.py` and `submissions.py` import `send_api_request`, but `api_utils.py` defines only `api_request`. The model routes every JSON call through `Api.CallJson`. That is `api_request` with the default headers and timeout, known errors raised, and the body read as an object.
- `submissions.py` imports `datacollective.uploads`. The model takes it to be `upload.py`.

## Model

| member | source | states |
|---|---|---|
| Api.ApiUrl | src/datacollective/api_utils.py:55-56 | the base URL never ends in `/`, and it is the configured or default URL minus only trailing slashes |
| Api.ApiKey | src/datacollective/api_utils.py:59-65 | a key is returned exactly when MDC_API_KEY is set and non-empty; otherwise the failure names MDC_API_KEY |
| Api.MergeHeaders | src/datacollective/api_utils.py:32 | caller headers are kept as given and win on collision; Authorization is always present and carries the bearer token unless the caller set it |
| Api.BuildRequest | src/datacollective/api_utils.py:32-39 | a request is built exactly when a key exists; the verb is upper-cased, URL and body are kept, the timeout defaults to (10, 60) |
| Api.CheckStatus | src/datacollective/api_utils.py:41-50 | with known errors raised: 404 not found, 403 permission denied, 429 rate limited, any other 400..599 a generic HTTP error, anything else passes unchanged; without it nothing fails |
| Api.RaiseForStatus | src/datacollective/api_utils.py:50 | fails exactly on a 4xx/5xx status and carries that status |
| Api.ApiRequest | src/datacollective/api_utils.py:19-52 | a missing key fails before sending; a success is the transport's answer to the built request and never has an error status when known errors are raised |
| Api.CallJson | src/datacollective/submissions.py:25-26 | a JSON call succeeds only with a key and a response body that is an object, which it returns |
| Api.ExtractChecksumAsWritten | src/datacollective/api_utils.py:72-79 | an absent or empty header gives None; a header that does not split into three pieces on `=:` fails |
| Api.ExtractAsWrittenLosesPadding | src/datacollective/api_utils.py:78-79 | for any well-formed `algo=:b64:` whose base64 ends in `=`, the code as written decodes the base64 text without its last `=` |
| Api.ExtractAsWrittenExample | src/datacollective/api_utils.py:78-79 | `sha-256=:YQ==:` is decoded as `YQ=` instead of `YQ==` |
| Api.ExtractAsWrittenRejectsUnpadded | src/datacollective/api_utils.py:78 | a well-formed header whose base64 has no padding makes the code as written raise |
| Api.ExtractChecksum | src/datacollective/api_utils.py:72-79 | corrected extraction: None for an absent or empty header, failure when there is no `=:` |
| Api.ExtractChecksumDecodesValue | src/datacollective/api_utils.py:78-79 | corrected extraction decodes exactly the base64 text of every well-formed header `algo=:b64:` |
| Api.PrepareDownloadHeaders | src/datacollective/api_utils.py:82-94 | no `.part`: offset 0, nothing touched; `.part` and a truthy checksum: Range from its size, file kept; `.part` without checksum: file deleted, offset 0 |
| Api.PrepareKeepsOffsetInvariant | src/datacollective/api_utils.py:86-94 | the `.part` survives exactly when resumed; the offset is then its size and is the number the Range header parses to; no Range otherwise; no other file changes |
| DownloadErrors.Message | src/datacollective/errors.py:14-17 | the fixed non-resumable text exactly when the checksum is None or empty |
| DownloadErrors.MessageIgnoresBytesWithoutChecksum | src/datacollective/errors.py:17 | without a checksum the message does not depend on the byte count |
| DownloadErrors.ResumableMessageDeterminesError | src/datacollective/errors.py:16 | two resumable messages are equal only if byte counts and checksums are, so the message reports both faithfully |
| Download.SelectDownloadBase | src/datacollective/download.py:153-156 | a non-blank argument wins, then MDC_DOWNLOAD_PATH when set, then `~/.mozdata/datasets` |
| Download.ExpandUser | src/datacollective/download.py:157 | a path not starting with `~` is unchanged, and an expanded one is non-empty |
| Download.DefaultUnderHome | src/datacollective/download.py:156-157 | the default directory expands to the home directory followed by `/.mozdata/datasets` |
| Download.ResolveDownloadDir | src/datacollective/download.py:142-161 | the expanded choice is returned exactly when writable, else permission is denied |
| Download.TmpPath | src/datacollective/download.py:73 | the temporary path is in the same directory, is distinct from the target, and is the target's full name followed by `.part` |
| Download.PlanFrom | src/datacollective/download.py:63-82 | a falsy downloadUrl, filename or sizeBytes is a format error, so size 0 is rejected; the plan keeps the payload's fields, and its target and `.part` records pair the base directory with the file name and the file name plus `.part` |
| Download.GetDownloadPlan | src/datacollective/download.py:31-82 | a blank id is rejected, an unwritable directory is denied, and a plan comes only from a successful session call, with its path records naming the writable directory |
| Download.PlanGuardsPrecedeRequest | src/datacollective/download.py:53-56 | when the id is blank or the directory unusable, the result fails whatever the server would answer |
| Download.ConcatNonEmpty | src/datacollective/download.py:128-131 | skipping empty chunks does not change the bytes written |
| Download.AppendChunks | src/datacollective/download.py:127-132 | the file grows by the chunks in arrival order; the bytes counter ends as the last non-empty chunk's length, or the offset if there was none |
| Download.StreamToPartFile | src/datacollective/download.py:100-132 | a failed request, or a checksum the chosen digest reading rejects or cannot read, writes nothing; otherwise the `.part` becomes its prior content plus the body's chunks; no other file changes |
| Download.AsWrittenRejectsUnpaddedDigest | src/datacollective/download.py:109-113 | as written, a download with a checksum is rejected for every well-formed `Repr-Digest` whose base64 has no padding, whatever digest it carries |
| Download.CorrectedAcceptsMatchingDigest | src/datacollective/download.py:109-113 | with the corrected reading, a well-formed `Repr-Digest` is accepted exactly when its decoded digest is the plan's checksum |
| Download.Finish | src/datacollective/download.py:138-139 | the download succeeds exactly when streaming ran uninterrupted; any failure carries the given byte count and the plan's checksum |
| Download.ExecuteDownloadPlanAsWritten | src/datacollective/download.py:85-139 | as written, with the as-written `Repr-Digest` split: a header it cannot read or a mismatching checksum fails before writing, reporting the resume offset; otherwise chunks are appended, and a failure reports only the last chunk's length |
| Download.ExecuteDownloadPlan | src/datacollective/download.py:100-139 | corrected in both findings: the digest is read with the corrected extraction, and a failure reports the bytes actually in the `.part`, which is the offset the next resume will use |
| Download.ReportedBytesUndercount | src/datacollective/download.py:132 | after chunks of 3 and 2 bytes the code as written reports 2 while 5 bytes were written |
| Models.NonEmptyStrings | src/datacollective/models.py:15-23 | a string is rejected exactly when blank and otherwise stored stripped; None and non-strings pass unchanged |
| Models.ValidateField | src/datacollective/models.py:13-23 | a supplied value is validated and must have the declared type; an absent one takes the default, and without a default fails |
| Models.ValidateFieldsOk | src/datacollective/models.py:26-60 | a schema accepts exactly when every declared field does |
| Models.ValidateModel | src/datacollective/models.py:8-23 | a payload is accepted exactly when it has no undeclared key and every declared field validates; an accepted payload holds every declared field's validated value and nothing else |
| Models.ValidateModelTrimsStrings | src/datacollective/models.py:18-22 | a blank supplied string rejects the payload, and an accepted one stores the stripped string |
| Models.ValidatorPassesNonStrings | src/datacollective/models.py:16-17 | a supplied non-string value is stored unchanged |
| Models.ValidateDraftInput | src/datacollective/models.py:26-30 | a draft is accepted exactly when it has no key but `name` and `longDescription` and both validate, and it then holds exactly those two |
| Models.ValidateSubmitInput | src/datacollective/models.py:33-60 | a submit payload is accepted exactly when it has no undeclared key and every one of the 25 declared fields validates; it then holds exactly those fields, each with its validated value |
| Models.LiteralFieldFixed | src/datacollective/models.py:60 | a literal field defaulting to its literal always holds that literal when accepted, and any other supplied value is rejected |
| Models.SubmitStatusIsSubmitted | src/datacollective/models.py:60 | `status` is always "submitted" in an accepted payload, and a different status is rejected |
| Models.ParseUploadPart | src/datacollective/models.py:109-115 | an accepted part has number at least 1, and dumping it gives back the input object |
| Models.UploadPartRoundTrip | src/datacollective/models.py:109-115 | dump then validate gives the part back exactly when its number is at least 1 |
| Submissions.DraftValidation | src/datacollective/submissions.py:21-23 | a blank name or description is rejected, name first; otherwise both are stored stripped |
| Submissions.CreateSubmissionDraft | src/datacollective/submissions.py:13-26 | validation failures come before any request; otherwise it posts the stripped draft |
| Submissions.ModelValidate | src/datacollective/submissions.py:42 | an instance passes as it is, a dictionary is validated |
| Submissions.SubmitSubmission | src/datacollective/submissions.py:29-45 | a blank id is rejected, then a validation failure; otherwise the validated payload is posted to the submission's submit URL |
| Submissions.SubmitGuardsPrecedeRequest | src/datacollective/submissions.py:39-42 | a blank id or invalid payload fails whatever the server would answer |
| Submissions.SubmitValidatedDict | src/datacollective/submissions.py:97-99 | submitting the validated instance of a dictionary is the same as submitting the dictionary |
| Submissions.SubmittedUploadId | src/datacollective/submissions.py:95-98 | after the merge, an accepted payload carries the upload's id (stripped); a blank upload id makes validation fail |
| Submissions.SetDefault | src/datacollective/submissions.py:100 | an existing key keeps its value, and an absent key gets the default |
| Submissions.UploadForSubmission | src/datacollective/submissions.py:76-83 | the upload runs for the given submission id, and a success carries the file's checksum |
| Submissions.SubmitForUpload | src/datacollective/submissions.py:85-100 | a conflicting non-empty fileUploadId is rejected; otherwise the payload with the upload's id is validated and submitted, and the response gains the upload's id only if absent |
| Submissions.CreateSubmissionWithUpload | src/datacollective/submissions.py:48-101 | draft, then upload, then submit, each only after the previous succeeded; the upload uses the draft's submissionId, and the submit uses it and the upload's id |
| UploadRecords.DumpParts | src/datacollective/upload.py:49 | the dumped list has one object per part, in order |
| UploadRecords.ParseParts | src/datacollective/upload.py:63-65 | the list parses exactly when every item does, item by item and in order |
| UploadRecords.ParsePartsOfDump | src/datacollective/upload.py:49-65 | dumping and parsing parts gives them back exactly when every part number is at least 1 |
| UploadRecords.FromDict | src/datacollective/upload.py:53-67 | a document that is not an object is rejected; the checksum is kept as whatever value the document holds (null when absent); a missing `parts`, `fileSize` or `fileUploadId` takes its default |
| UploadRecords.FromDictOfFields | src/datacollective/upload.py:53-67 | a dictionary whose fields hold a state's values reads back as that state exactly when every part number is at least 1 |
| UploadRecords.FromDictToDict | src/datacollective/upload.py:40-67 | `from_dict(to_dict(s))` is `s` (every field, part order and ETags) exactly when every part number is at least 1 |
| UploadRecords.LoadUploadState | src/datacollective/upload.py:288-301 | no file gives None, unreadable JSON fails, and a loaded state is always usable and is the file's content |
| UploadRecords.LoadAfterSave | src/datacollective/upload.py:288-306 | loading a saved usable state gives it back |
| UploadRecords.LoadIgnoresUnusable | src/datacollective/upload.py:297-300 | a saved state with empty ids or non-positive sizes loads as None |
| UploadRecords.ExpectedParts | src/datacollective/upload.py:313-316 | 0 when a size is not positive, else the least n with n·partSize ≥ fileSize |
| UploadRecords.ExpectedPartsIsCeiling | src/datacollective/upload.py:316 | the ceiling is unique: any n bracketing fileSize that way is the part count |
| UploadRecords.NormalizeParts | src/datacollective/upload.py:319-325 | the map holds only numbers ≥ 1 and every part with a number ≥ 1 |
| UploadRecords.NormalizePartsFrom | src/datacollective/upload.py:319-325 | every entry of the map comes from some listed part |
| UploadRecords.NormalizeLastWins | src/datacollective/upload.py:324 | for a repeated number the last ETag wins |
| UploadRecords.NormalizeAppend | src/datacollective/upload.py:321-324 | appending a part updates only its number, and only if that number is positive |
| UploadRecords.SortedParts | src/datacollective/upload.py:278-281 | the completion list is strictly increasing by number and agrees with the map |
| UploadRecords.SortedPartsComplete | src/datacollective/upload.py:271-281 | when parts 1..n are all recorded, the list is exactly parts 1..n in order |
| UploadRecords.NormalizeSorted | src/datacollective/upload.py:278-282 | normalising the sorted list gives the map back, so the re-saved state reloads the same parts |
| Upload.RequireNonEmpty | src/datacollective/upload.py:343-345 | fails exactly on a blank value, naming the field |
| Upload.SessionFrom | src/datacollective/upload.py:103-113 | missing fields take the code's defaults (partNumber 1, partSize 0) |
| Upload.InitiateUpload | src/datacollective/upload.py:77-113 | submission id, filename, mime type and a positive size are checked in that order |
| Upload.PresignedFrom | src/datacollective/upload.py:134-139 | a missing partNumber defaults to chunk index + 1 |
| Upload.GetPresignedPartUrl | src/datacollective/upload.py:116-139 | a blank id, then a negative chunk index, is rejected |
| Upload.CompleteUpload | src/datacollective/upload.py:142-162 | blank ids, a blank checksum and an empty part list are rejected in order; otherwise the dumped parts and checksum are posted |
| Upload.GuardsPrecedeRequests | src/datacollective/upload.py:77-162 | every argument guard of the three endpoints fails the same way whatever the server would answer |
| Upload.PutPart | src/datacollective/upload.py:328-333 | an empty URL is rejected; the PUT fails exactly on a 4xx/5xx status |
| Upload.ExtractEtag | src/datacollective/upload.py:336-340 | a missing or empty ETag fails; a result never starts or ends with `"` |
| Upload.ExtractEtagUnquotes | src/datacollective/upload.py:340 | a quoted tag with surrounding whitespace yields the bare tag |
| Upload.SendPart | src/datacollective/upload.py:259-260 | a recorded ETag comes from a successful PUT of that chunk |
| Upload.PartUrl | src/datacollective/upload.py:250-257 | the session's URL is used only for its own part number and when non-empty; otherwise one is fetched for the chunk index |
| Upload.FetchPartUrl | src/datacollective/upload.py:250-257 | the URL used is the one the rule above selects; fetching adds no PUT |
| Upload.SendNewPart | src/datacollective/upload.py:250-263 | a new part is PUT once, recorded under its number with the returned ETag, and the state is saved right after; on failure every accepted PUT is still followed by its save, and only a rejected PUT may end the trace |
| Upload.ReadNextPart | src/datacollective/upload.py:240-263 | one iteration keeps the loop invariant: bytes read, hash prefix, recorded map and trace; a failing iteration leaves every accepted PUT saved |
| Upload.SendParts | src/datacollective/upload.py:239-263 | the loop ends having read every part or the whole file; only unrecorded parts are sent, each saved after, on the failure path too |
| Upload.PartLoop | src/datacollective/upload.py:236-263 | recorded parts are never PUT, PUTs go in increasing part order with the right chunk and URL; on success and on failure every accepted PUT is followed by a save holding its ETag, and only a rejected PUT may be last |
| Upload.SavedAfterOfPutsSaved | src/datacollective/upload.py:250-263 | a trace built PUT-then-save never ends in a PUT, and each PUT in it is followed by a save that ends with that part and its ETag |
| Upload.SavedAfterRejected | src/datacollective/upload.py:259-263 | a PUT whose answer is rejected may close a trace whose earlier PUTs were all saved |
| Upload.LiftSaved | src/datacollective/upload.py:230-285 | the save after each PUT survives when effects without PUTs come before and after the loop's trace |
| Upload.LiftUrls | src/datacollective/upload.py:230-285 | each PUT keeps the URL fetched for its part when effects without PUTs come before and after the loop's trace |
| Upload.ResumeChoice | src/datacollective/upload.py:200-210 | a loaded state is reused only with resume on and equal size, filename and submission id |
| Upload.ResumeState | src/datacollective/upload.py:200-210 | a reused state is usable, matches the file and is the file's content |
| Upload.ResumeAfterSave | src/datacollective/upload.py:200-210 | a saved matching usable state is resumed as it is |
| Upload.ResumeRejectsOther | src/datacollective/upload.py:202-208 | a saved state for another file or submission is not resumed |
| Upload.StartState | src/datacollective/upload.py:200-228 | either the matching loaded state is used with no call, or a session is initiated, checked and saved fresh with no parts or checksum before anything else |
| Upload.ReadComplete | src/datacollective/upload.py:265-281 | with the byte and part counts met, the hash covers the whole file and the sorted list is parts 1..n, each loaded or sent |
| Upload.FinishUpload | src/datacollective/upload.py:265-285 | a byte-count or part-count mismatch aborts; otherwise the checksum is the file's hash, the parts are 1..n, and the state is saved then completed |
| Upload.CheckUploadArguments | src/datacollective/upload.py:185-187 | file path, submission id and mime type are checked in that order |
| Upload.RunUpload | src/datacollective/upload.py:230-285 | from a start state: parts are PUT at most once in increasing order, never one recorded at the start, each to the URL fetched for it and each followed by its save (whether the run succeeds or fails), and the final save and complete come last |
| Upload.UploadDatasetFile | src/datacollective/upload.py:165-285 | whole upload: guards with no effects, then resume or a fresh saved session; every accepted PUT is saved after and went to the URL fetched for its part, success or not; success means the whole file was hashed and parts 1..n are complete, each loaded or uploaded here |
| Text.TrimIsInfix | src/datacollective/models.py:19 | stripping keeps an infix and removes only stripped characters around it |
| Text.TrimIdempotent | src/datacollective/models.py:19 | stripping twice is stripping once |
| Text.LowerStripCommute | scripts/generate_slugs.py:19 | lower-casing and stripping commute |
| Text.Split | src/datacollective/api_utils.py:78 | joining the pieces with the separator gives the input back, and no piece contains the separator |
| Text.PyStr | src/datacollective/upload.py:56-58 | `str()` of a decoded value: strings unchanged, integers as text that reads back as the same integer, containers rejected |
| Text.PyInt | src/datacollective/upload.py:59-60 | `int()` of a decoded value: integers unchanged, booleans 0/1, numeric text parsed, others rejected |
| Text.PyIntOfPyStr | src/datacollective/upload.py:56-60 | `int(str(i))` is `i` |
| Slugs.AsciiOnly | scripts/generate_slugs.py:18 | only ASCII characters of the input remain |
| Slugs.Collapse | scripts/generate_slugs.py:20 | empty exactly when the input is, and starts with `-` exactly when the input starts with a separator |
| Slugs.CollapseOnlyHyphens | scripts/generate_slugs.py:20 | the only separator left is `-` |
| Slugs.CollapseNoDoubleHyphen | scripts/generate_slugs.py:20 | no two `-` are adjacent after collapsing |
| Slugs.CollapseFromInput | scripts/generate_slugs.py:20 | every character is `-` or comes from the input |
| Slugs.CollapseIsDedupedMarks | scripts/generate_slugs.py:20 | collapsing is the same as turning every separator into `-` and then merging adjacent `-`, so every maximal run becomes one `-` |
| Slugs.RemoveUnkept | scripts/generate_slugs.py:21 | only word characters and `-` from the input remain |
| Slugs.SlugAlphabet | scripts/generate_slugs.py:12-22 | every slug uses only `a`-`z`, `0`-`9` and `-` |
| Slugs.SlugIgnoresCase | scripts/generate_slugs.py:19 | lower-casing first does not change the slug |
| Slugs.SlugIgnoresPadding | scripts/generate_slugs.py:19 | stripping first does not change the slug |
| Slugs.SlugifyAscii | scripts/generate_slugs.py:18 | on ASCII text that normalisation fixes, slugify is the slug rule alone |
| Slugs.SlugLeavesDoubleHyphen | scripts/generate_slugs.py:20-21 | removal after collapsing can leave `--`: `a-!-b` gives `a--b` |
| Slugs.SlugOfCollapsesAgain | scripts/generate_slugs.py:20-21 | a second pass changes `a--b` to `a-b`, so slugify is not idempotent |
| Slugs.SlugKeySplits | scripts/generate_slugs.py:68 | a key of two slugs splits on `/` into exactly those two slugs |
| Slugs.DatasetIdIsLastSegment | scripts/generate_slugs.py:52 | the id is a `/`-free suffix of the href, preceded by `/` unless it is the whole href |
| Slugs.Entry | scripts/generate_slugs.py:48-71 | a card yields an entry exactly when it has a truthy href, a name, an organisation and non-empty slugs and id; the key is `org/name` |
| Slugs.SlugsComeFromCards | scripts/generate_slugs.py:48-71 | every key of the map, with its id, comes from some card's entry |
| Slugs.LastCardWins | scripts/generate_slugs.py:69 | a key maps to the id of the last card producing it |
| Slugs.SlugKeysWellFormed | scripts/generate_slugs.py:67-69 | every key is two non-empty slugs joined by exactly one `/`, and every id is non-empty |
| Slugs.GenerateSlugs | scripts/generate_slugs.py:25-81 | nothing is written without the HTML or when no card yields an entry; otherwise the map of all cards is written |
| Slugs.LoadSlugs | src/datacollective/slug_utils.py:9-14 | a missing file gives the empty map, otherwise its content |
| Slugs.ResolveSlugOrId | src/datacollective/slug_utils.py:17-22 | a key resolves to its id, and anything else, including every input when the file is missing, resolves to itself |
| Slugs.ResolveGeneratedSlug | src/datacollective/slug_utils.py:22 | a key the generator wrote resolves to the id of the last card carrying it |
| Slugs.ResolveIdUnchanged | src/datacollective/slug_utils.py:22 | a plain id (no `/`) is never captured by a generated key and resolves to itself |
| Registry.LoaderFor | src/datacollective/dataset_loading_scripts/registry.py:10-20 | a loader is chosen exactly when the name contains `scripted` or `spontaneous` (case-sensitive); spontaneous only without `scripted`; otherwise an invalid dataset name |
| Registry.LoadDatasetFromName | src/datacollective/dataset_loading_scripts/registry.py:10-20 | the selected loader runs on the extraction directory unchanged, and an unsupported name fails |
| Registry.LoaderStableUnderExtension | src/datacollective/dataset_loading_scripts/registry.py:13-16 | embedding a name in longer text keeps a scripted choice scripted and a supported name supported |
| Registry.TagsSelectLoaders | src/datacollective/dataset_loading_scripts/registry.py:13-16 | each tag selects its own loader, and a name with both tags is scripted |
| Registry.UpperCaseRejected | src/datacollective/dataset_loading_scripts/registry.py:13-20 | `SCRIPTED` is not recognised |

## Left out

- HTTP, streaming, the network, progress bars and printing are left out. Remote endpoints and the transport are function parameters. Printed messages are dropped.
- Filesystem effects are reduced to a map from path to bytes.
  - `mkdir` is omitted.
  - `os.access` is the `writable` parameter.
  - `expanduser` takes a `homeOf` parameter for the home directory.
- The state file is a `StateFile` value. JSON text, indentation and key order are not modelled.
- Environment variables are an explicit `Env` value.
- SHA-256, base64 and hex are uninterpreted functions (`Codecs`).
  - The incremental hasher is modelled as hashing the concatenated chunks.
- Unicode NFKD is a parameter. The ASCII filter drops non-ASCII characters after it.
  - `\w` in the removal step is modelled on ASCII only, which is all that reaches it.
  - `str.lower` and `str.upper` are modelled on ASCII letters only. They are applied only to ASCII text: slug input after the filter, and HTTP verbs.
- HTML parsing in `generate_slugs` is left out. Cards arrive as `Card` values holding the `href`, the already-stripped `h3` text, and the organisation `div` text.
  - The `^/datasets/` href filter belongs to the parser and is not modelled.
  - Writing `slugs.json` is the returned map.
- The `_load_scripted` and `_load_spontaneous` loaders are parameters. They are pandas and CSV code.
- Exception messages are failure kinds.
  - Which field a `ValueError` names is kept.
  - The free text is not, except in `DownloadError.__str__`, which is modelled exactly.
- UploadRecords.ExpectedParts: models `math.ceil(file_size / part_size)` as exact integer ceiling division. The float division agrees only for sizes below 2^53.
- Models.ParseUploadPart: pydantic's lax `int` coercion of `partNumber` is not modelled. Numeric text such as `"2"`, a boolean, or a float with no fraction is accepted by pydantic and rejected here. Only a JSON integer is accepted.
- UploadRecords.FromDict: inherits that gap. A state file whose part carries such a `partNumber` fails to parse here.
- UploadRecords.LoadUploadState: loads such a state file as None, so the upload restarts. The source resumes it and skips the recorded parts.
- Submissions.CreateSubmissionWithUpload: a truthy `submissionId` in the draft response that is not a string fails as malformed. The source passes it on, and its string form passes the non-empty guard, so the upload and the submit run with it.
- Slugs.LoadSlugs: the slugs file arrives as a decoded map of strings, or None when it does not exist. In the source a file that is not JSON, or whose JSON is not an object, raises. The parameter type can express neither, nor an object holding values that are not strings.
- Models.ValidateModel: pydantic's type coercion is not modelled. A declared `str` field accepts only a string, `bool` only a boolean, and `str | None` a string or None.
- Text.PyStr: `str()` of a list or dict is rejected instead of rendered. The code only meets scalars there.
- Text.PyInt: `int()` is modelled on integers, booleans and ASCII decimal text. `int("1_000")` and text with non-ASCII digits are rejected here but accepted by Python. The decoded JSON value has no floats, so `int(5.0)` cannot arise in the model.
- Upload.SessionFrom: a float `partSize` or `partNumber` in the initiate response (which `int()` truncates) is not representable, because the JSON value has no floats.
- UploadRecords.FromDict: a float `fileSize` or `partSize` in the state file is not representable, for the same reason.
- Download.PlanFrom: a float `sizeBytes` is not representable, for the same reason.
- Download.PlanFrom: a `checksum` that is neither a string nor null is rejected as malformed. The source keeps it: a falsy one (0, false) skips the digest check, and a truthy one never equals the server's digest, so that download always fails.
- Download.PlanFrom: a truthy `downloadUrl` that is not a string fails the plan as malformed. The source builds the plan with it. The streaming GET then fails inside the `try`, so the caller gets a `DownloadError` carrying the resume offset and the checksum. By then the resume decision may already have deleted the `.part` file.
- Download.GetDownloadPlan: inherits the `Download.PlanFrom` gaps above.
- Download.PlanFrom: paths are `Path(directory, name)` records, not normalised paths. `base_dir / filename` with an absolute file name, or one holding `/` or `..`, names a file outside the base directory. Two different records can also name the same file, so `Download.OthersUnchanged` is a statement about records.
- Upload.GetPresignedPartUrl: `fileUploadId` and `chunkIndex` travel as URL query parameters in the source (`params=`). The model carries them in the request's JSON body field. URL encoding of the query string is not modelled.
- `DatasetSubmission` (the all-optional response schema in `models.py`) is not modelled. No operation of the core uses it.
- `raise_for_status` is taken to raise on 400..599, following the `requests` library.
- Response header lookup is case-sensitive in the model. `requests` looks headers up case-insensitively.
- `determine_resume_state` and `_get_checksum_filepath`, which tests/test_download.py imports from `datacollective.download`, are not defined in `download.py`; they are not modelled.
- Concurrency, timeouts and partial writes inside one chunk are not modelled.

## Findings

| source | as written | input that shows it | evidently intended | confidence | as-written member | corrected member |
|---|---|---|---|---|---|---|
| src/datacollective/api_utils.py:78-79 | the header is split on every `=:`, so a base64 value ending in `=` padding loses that `=` (it is read as part of the closing separator), and an unpadded value gives two pieces and raises | `Repr-Digest: sha-256=:YQ==:` hands `YQ=` to the decoder | decode the text between the first `=:` and the closing `:` (section 3 of RFC 9530) | not executed | Api.ExtractAsWrittenLosesPadding | Api.ExtractChecksumDecodesValue |
| src/datacollective/download.py:132 | `downloaded_bytes = len(chunk)` overwrites the counter with the last chunk's length | resuming from 0, chunks of 3 and 2 bytes, then an interruption: the error reports 2 bytes while 5 are in the `.part` file | report the bytes in the `.part` file, `downloaded_bytes += len(chunk)` | not executed | Download.ReportedBytesUndercount | Download.ExecuteDownloadPlan |

=== FILE: api.dfy ===
/**
  The authenticated request layer (src/datacollective/api_utils.py): the
  configuration read from the environment, the request the library builds,
  the mapping of HTTP status codes to failures, the `Repr-Digest` checksum
  extraction and the resume decision for a partial download.
 */
module Api {
  import opened Base
  import opened Text

  const DefaultApiUrl: string := "https://datacollective.mozillafoundation.org/api"

  /** The (connect, read) timeout pair, in seconds. */
  datatype Timeout = Timeout(connect: int, read: int)

  const HttpTimeout: Timeout := Timeout(10, 60)

  /** The environment variables the library reads; None where a variable is unset. */
  datatype Env = Env(
    apiKey: Option<string>,        // MDC_API_KEY
    apiUrl: Option<string>,        // MDC_API_URL
    downloadPath: Option<string>)  // MDC_DOWNLOAD_PATH

  /** An outgoing request; `body` is the JSON body or the query parameters, JNull when there are none. */
  datatype Request = Request(verb: string, url: string, headers: map<string, string>, timeout: Timeout, body: Json)

  datatype Response = Response(status: int, headers: map<string, string>, body: Json)

  /** The API base URL: the override or the default, with every trailing `/` removed. */
  function ApiUrl(env: Env): (r: string)
    ensures r == [] || r[|r| - 1] != '/'
    ensures var src := env.apiUrl.GetOr(DefaultApiUrl);
            |r| <= |src| && r == src[..|r|] && forall i | |r| <= i < |src| :: src[i] == '/'
  {
    TrimEnd(env.apiUrl.GetOr(DefaultApiUrl), {'/'})
  }

  /** The API key; an unset or empty MDC_API_KEY is a ValueError. */
  function ApiKey(env: Env): (r: Result<string>)
    ensures r.Ok? <==> TruthyStr(env.apiKey)
    ensures r.Ok? ==> r.value == env.apiKey.value
    ensures r.Err? ==> r.error == InvalidArgument("MDC_API_KEY")
  {
    match env.apiKey
    case Some(key) => if key == [] then Err(InvalidArgument("MDC_API_KEY")) else Ok(key)
    case None => Err(InvalidArgument("MDC_API_KEY"))
  }

  /**
    The default headers overlaid with the caller's: every caller header is
    kept as given, and Authorization is always present, carrying the bearer
    token unless the caller supplied their own.
   */
  function MergeHeaders(key: string, headers: Option<map<string, string>>): (m: map<string, string>)
    ensures m.Keys == headers.GetOr(map[]).Keys + {"Authorization"}
    ensures forall k | k in headers.GetOr(map[]) :: m[k] == headers.GetOr(map[])[k]
    ensures "Authorization" !in headers.GetOr(map[]) ==> m["Authorization"] == "Bearer " + key
  {
    map["Authorization" := "Bearer " + key] + headers.GetOr(map[])
  }

  /** The request `api_request` sends; it fails before sending when no API key is configured. */
  function BuildRequest(env: Env, verb: string, url: string, headers: Option<map<string, string>>,
                        timeout: Option<Timeout>, body: Json): (r: Result<Request>)
    ensures r.Ok? <==> TruthyStr(env.apiKey)
    ensures r.Ok? ==> r.value.verb == Upper(verb) && r.value.url == url && r.value.body == body
    ensures r.Ok? ==> "Authorization" in r.value.headers
    ensures r.Ok? && timeout.None? ==> r.value.timeout == HttpTimeout
    ensures r.Ok? && timeout.Some? ==> r.value.timeout == timeout.value
  {
    var key :- ApiKey(env);
    Ok(Request(Upper(verb), url, MergeHeaders(key, headers), timeout.GetOr(HttpTimeout), body))
  }

  /**
    The status check of `api_request`: with `raiseKnown`, 404, 403 and 429
    raise their own kinds, in that order, and `raise_for_status` raises for
    any other client or server error (400 to 599); without it nothing raises.
   */
  function CheckStatus(resp: Response, raiseKnown: bool): (r: Result<Response>)
    ensures r.Ok? ==> r.value == resp
    ensures !raiseKnown ==> r.Ok?
    ensures raiseKnown ==> (r.Err? <==> 400 <= resp.status < 600)
    ensures raiseKnown && resp.status == 404 ==> r == Err(NotFound)
    ensures raiseKnown && resp.status == 403 ==> r == Err(PermissionDenied)
    ensures raiseKnown && resp.status == 429 ==> r == Err(RateLimited)
    ensures raiseKnown && r.Err? && resp.status !in {403, 404, 429} ==> r == Err(HttpError(resp.status))
  {
    if !raiseKnown then Ok(resp)
    else if resp.status == 404 then Err(NotFound)
    else if resp.status == 403 then Err(PermissionDenied)
    else if resp.status == 429 then Err(RateLimited)
    else RaiseForStatus(resp)
  }

  /** `Response.raise_for_status`: any client or server error status (400 to 599) raises. */
  function RaiseForStatus(resp: Response): (r: Result<Response>)
    ensures r.Err? <==> 400 <= resp.status < 600
    ensures r.Ok? ==> r.value == resp
    ensures r.Err? ==> r.error == HttpError(resp.status)
  {
    if 400 <= resp.status < 600 then Err(HttpError(resp.status)) else Ok(resp)
  }

  /** `api_request`: build, send through the transport `send`, then check the status. */
  function ApiRequest(env: Env, verb: string, url: string, headers: Option<map<string, string>>,
                      timeout: Option<Timeout>, body: Json, raiseKnown: bool, send: Request -> Response): (r: Result<Response>)
    ensures !TruthyStr(env.apiKey) ==> r == Err(InvalidArgument("MDC_API_KEY"))
    ensures r.Ok? ==> BuildRequest(env, verb, url, headers, timeout, body).Ok?
    ensures r.Ok? ==> r.value == send(BuildRequest(env, verb, url, headers, timeout, body).value)
    ensures r.Ok? && raiseKnown ==> !(400 <= r.value.status < 600)
  {
    var req :- BuildRequest(env, verb, url, headers, timeout, body);
    CheckStatus(send(req), raiseKnown)
  }

  /** `dict(resp.json())`: the decoded body must be a JSON object. */
  function JsonObject(resp: Response): (r: Result<map<string, Json>>)
    ensures r.Ok? <==> resp.body.JObj?
    ensures r.Ok? ==> r.value == resp.body.fields
  {
    if resp.body.JObj? then Ok(resp.body.fields) else Err(Malformed("response body"))
  }

  /**
    A call of the library's JSON endpoints: `api_request` with default
    headers and timeout and the known errors raised, then the body as an
    object.
   */
  function CallJson(env: Env, verb: string, url: string, body: Json, send: Request -> Response): (r: Result<map<string, Json>>)
    ensures !TruthyStr(env.apiKey) ==> r == Err(InvalidArgument("MDC_API_KEY"))
    ensures r.Ok? ==> BuildRequest(env, verb, url, None, None, body).Ok?
    ensures r.Ok? ==> send(BuildRequest(env, verb, url, None, None, body).value).body == JObj(r.value)
  {
    var resp :- ApiRequest(env, verb, url, None, None, body, true, send);
    JsonObject(resp)
  }

  // ------------------------------------------------------------ Repr-Digest

  const DigestSep: string := "=:"

  /** Decodes the base64 digest text and renders the bytes as hex; undecodable text raises. */
  function DecodeDigest(text: string, codecs: Codecs): Result<Option<string>> {
    match codecs.b64decode(text)
    case Some(bytes) => Ok(Some(codecs.hex(bytes)))
    case None => Err(Malformed("Repr-Digest"))
  }

  /**
    `_extract_checksum_from_api_response` as written: an absent or empty
    header gives None; otherwise the header must split on `=:` into exactly
    three pieces and the middle one is decoded.
   */
  function ExtractChecksumAsWritten(reprDigest: Option<string>, codecs: Codecs): (r: Result<Option<string>>)
    ensures !TruthyStr(reprDigest) ==> r == Ok(None)
    ensures TruthyStr(reprDigest) && |Split(reprDigest.value, DigestSep)| != 3 ==> r.Err?
  {
    if !TruthyStr(reprDigest) then Ok(None)
    else
      var pieces := Split(reprDigest.value, DigestSep);
      if |pieces| != 3 then Err(InvalidArgument("Repr-Digest"))
      else DecodeDigest(pieces[1], codecs)
  }

  /**
    The checksum carried by a `Repr-Digest` header of the form
    `<algorithm>=:<base64>:` (section 3 of RFC 9530): the text between the
    first `=:` and the closing `:` is decoded. An absent or empty header
    gives None.
   */
  function ExtractChecksum(reprDigest: Option<string>, codecs: Codecs): (r: Result<Option<string>>)
    ensures !TruthyStr(reprDigest) ==> r == Ok(None)
    ensures TruthyStr(reprDigest) && !Contains(reprDigest.value, DigestSep) ==> r.Err?
  {
    if !TruthyStr(reprDigest) then Ok(None)
    else
      var h := reprDigest.value;
      match IndexOf(h, DigestSep)
      case None => Err(InvalidArgument("Repr-Digest"))
      case Some(i) =>
        var rest := h[i + |DigestSep|..];
        if rest == [] || rest[|rest| - 1] != ':' then Err(InvalidArgument("Repr-Digest"))
        else DecodeDigest(rest[..|rest| - 1], codecs)
  }

  /** A string without `:` cannot contain the separator `=:`. */
  lemma NoColonNoSep(s: string)
    requires ':' !in s
    ensures !Contains(s, DigestSep)
  {
    forall i | 0 <= i && i + 2 <= |s| ensures !OccursAt(s, DigestSep, i) {
      assert s[i..i + 2][1] == s[i + 1];
    }
  }

  /** When `a` holds no `=:`, the first `=:` of `a + "=:" + b` is the one right after `a`. */
  lemma FirstSepAfter(a: string, b: string)
    requires !Contains(a, DigestSep)
    ensures IndexOf(a + DigestSep + b, DigestSep) == Some(|a|)
  {
    var s := a + DigestSep + b;
    assert OccursAt(s, DigestSep, |a|) by {
      assert s[|a|..|a| + 2] == DigestSep;
    }
    forall j | 0 <= j < |a| ensures !OccursAt(s, DigestSep, j) {
      if j + 2 <= |a| {
        OccursInPrefix(s, DigestSep, |a|, j);
        assert s[..|a|] == a;
        assert !OccursAt(a, DigestSep, j);
      } else {
        assert s[j..j + 2][1] == s[|a|] == '=';
      }
    }
  }

  /** Splitting `a + "=:" + b` cuts off `a` first. */
  lemma SplitAfterSep(a: string, b: string)
    requires !Contains(a, DigestSep)
    ensures Split(a + DigestSep + b, DigestSep) == [a] + Split(b, DigestSep)
  {
    var s := a + DigestSep + b;
    FirstSepAfter(a, b);
    assert s[..|a|] == a;
    assert s[|a| + |DigestSep|..] == b;
  }

  /** A string without the separator splits into itself alone. */
  lemma SplitWithoutSep(s: string)
    requires !Contains(s, DigestSep)
    ensures Split(s, DigestSep) == [s]
  {
    assert IndexOf(s, DigestSep).None?;
  }

  /**
    Reading a well-formed header `<algo>=:<base64>:` whose base64 text ends
    in padding, the code as written hands the decoder the base64 text with its
    final `=` cut off: the padding character is taken as part of the second
    separator.
   */
  lemma ExtractAsWrittenLosesPadding(algo: string, b64: string, codecs: Codecs)
    requires ':' !in algo && ':' !in b64
    requires |b64| > 0 && b64[|b64| - 1] == '='
    ensures ExtractChecksumAsWritten(Some(algo + "=:" + b64 + ":"), codecs)
         == DecodeDigest(b64[..|b64| - 1], codecs)
  {
    var body := b64[..|b64| - 1];
    assert algo + "=:" + b64 + ":" == algo + DigestSep + (body + DigestSep + "");
    NoColonNoSep(algo);
    NoColonNoSep(body);
    NoColonNoSep("");
    SplitAfterSep(algo, body + DigestSep + "");
    SplitAfterSep(body, "");
    SplitWithoutSep("");
  }

  /** The concrete case: `sha-256=:YQ==:` sends `YQ=` to the decoder instead of `YQ==`. */
  lemma ExtractAsWrittenExample(codecs: Codecs)
    ensures ExtractChecksumAsWritten(Some("sha-256=:YQ==:"), codecs) == DecodeDigest("YQ=", codecs)
  {
    assert "sha-256=:YQ==:" == "sha-256" + "=:" + "YQ==" + ":";
    ExtractAsWrittenLosesPadding("sha-256", "YQ==", codecs);
    assert "YQ=="[..3] == "YQ=";
  }

  /**
    Reading a well-formed header whose base64 text has no padding, the code
    as written finds only two pieces and raises.
   */
  lemma ExtractAsWrittenRejectsUnpadded(algo: string, b64: string, codecs: Codecs)
    requires ':' !in algo && ':' !in b64
    requires b64 == [] || b64[|b64| - 1] != '='
    ensures ExtractChecksumAsWritten(Some(algo + "=:" + b64 + ":"), codecs).Err?
  {
    var tail := b64 + ":";
    assert algo + "=:" + b64 + ":" == algo + DigestSep + tail;
    NoColonNoSep(algo);
    forall i | 0 <= i && i + 2 <= |tail| ensures !OccursAt(tail, DigestSep, i) {
      assert tail[i..i + 2][0] == tail[i];
      assert tail[i..i + 2][1] == tail[i + 1];
      if i + 1 < |b64| {
        assert tail[i + 1] == b64[i + 1];
      } else {
        assert tail[i] == b64[|b64| - 1];
      }
    }
    SplitAfterSep(algo, tail);
    SplitWithoutSep(tail);
  }

  /** The corrected extraction decodes exactly the base64 text of a well-formed header. */
  lemma ExtractChecksumDecodesValue(algo: string, b64: string, codecs: Codecs)
    requires ':' !in algo && ':' !in b64
    ensures ExtractChecksum(Some(algo + "=:" + b64 + ":"), codecs) == DecodeDigest(b64, codecs)
  {
    var h := algo + "=:" + b64 + ":";
    assert h == algo + DigestSep + (b64 + ":");
    NoColonNoSep(algo);
    FirstSepAfter(algo, b64 + ":");
    assert h[|algo| + |DigestSep|..] == b64 + ":";
    assert (b64 + ":")[..|b64|] == b64;
  }

  // ------------------------------------------------------------ resume point

  /** What `_prepare_download_headers` hands back: request headers, the byte offset, and the filesystem after it ran. */
  datatype ResumePoint = ResumePoint(headers: map<string, string>, offset: nat, fs: FileSystem)

  function RangeHeader(offset: nat): string {
    "bytes=" + NatToString(offset) + "-"
  }

  /**
    `_prepare_download_headers`: with no partial file, start at 0 and touch
    nothing; with one and a truthy resume checksum, ask for the remaining
    bytes from its size on; with one and no checksum, delete it and start at 0.
   */
  function PrepareDownloadHeaders(fs: FileSystem, tmp: Path, resumeChecksum: Option<string>): (r: ResumePoint)
    ensures tmp !in fs ==> r == ResumePoint(map[], 0, fs)
    ensures tmp in fs && TruthyStr(resumeChecksum) ==>
              r.fs == fs && r.offset == |fs[tmp]| && r.headers == map["Range" := RangeHeader(|fs[tmp]|)]
    ensures tmp in fs && !TruthyStr(resumeChecksum) ==> r == ResumePoint(map[], 0, fs - {tmp})
  {
    if tmp !in fs then ResumePoint(map[], 0, fs)
    else if TruthyStr(resumeChecksum) then
      var size := |fs[tmp]|;
      ResumePoint(map["Range" := RangeHeader(size)], size, fs)
    else ResumePoint(map[], 0, fs - {tmp})
  }

  /**
    The invariant the resume decision keeps: the partial file survives exactly
    when it is resumed, the offset is then its size and is the number in the
    Range header, no Range is sent otherwise, and no other file changes.
   */
  lemma PrepareKeepsOffsetInvariant(fs: FileSystem, tmp: Path, resumeChecksum: Option<string>)
    ensures var r := PrepareDownloadHeaders(fs, tmp, resumeChecksum);
            && (tmp in r.fs <==> tmp in fs && TruthyStr(resumeChecksum))
            && r.offset == (if tmp in r.fs then |r.fs[tmp]| else 0)
            && ("Range" in r.headers <==> tmp in r.fs)
            && ("Range" in r.headers ==>
                  var v := r.headers["Range"];
                  && |v| > 7 && v[..6] == "bytes=" && v[|v| - 1] == '-'
                  && AllDigits(v[6..|v| - 1]) && ParseNat(v[6..|v| - 1]) == r.offset)
            && (forall p | p != tmp :: (p in r.fs <==> p in fs) && (p in fs ==> r.fs[p] == fs[p]))
  {
    var r := PrepareDownloadHeaders(fs, tmp, resumeChecksum);
    if "Range" in r.headers {
      var v := r.headers["Range"];
      var digits := NatToString(r.offset);
      assert v == "bytes=" + digits + "-";
      assert v[6..|v| - 1] == digits;
      ParseNatOfNatToString(r.offset);
    }
  }
}

=== FILE: base.dfy ===
/**
  Shared vocabulary of the model: optional values, decoded JSON documents,
  the closed set of failures the library raises, and the uninterpreted
  byte codecs (SHA-256, hex, base64) it relies on.
 */
module Base {

  type byte = b: int | 0 <= b < 256

  /** The conventional Some/None datatype, standing in for Python's `X | None`. */
  datatype Option<+T> = None | Some(value: T) {

    /** Returns the encapsulated value, or `default` when there is none. */
    function GetOr(default: T): T {
      match this
      case Some(v) => v
      case None => default
    }
  }

  /** A decoded JSON document, as `json.loads` or `resp.json()` produce it. */
  datatype Json =
    | JNull
    | JBool(b: bool)
    | JInt(i: int)
    | JStr(s: string)
    | JArr(items: seq<Json>)
    | JObj(fields: map<string, Json>)

  /** Python truthiness of a decoded JSON value (`if value:`). */
  predicate Truthy(j: Json) {
    match j
    case JNull => false
    case JBool(b) => b
    case JInt(i) => i != 0
    case JStr(s) => s != []
    case JArr(a) => a != []
    case JObj(m) => m != map[]
  }

  /** `payload.get(key)` is truthy. */
  predicate TruthyField(payload: map<string, Json>, key: string) {
    key in payload && Truthy(payload[key])
  }

  /** Python truthiness of an optional string: neither None nor empty. */
  predicate TruthyStr(o: Option<string>) {
    o.Some? && o.value != []
  }

  /** `payload.get(key)` on a JSON object. */
  function Get(m: map<string, Json>, key: string): Option<Json> {
    if key in m then Some(m[key]) else None
  }

  /**
    The exception kinds the library raises, one variant per Python exception
    class it uses (ValueError, FileNotFoundError, PermissionError, the rate
    limit RuntimeError, requests.HTTPError, other RuntimeErrors, and errors
    raised while decoding a document).
   */
  datatype Failure =
    | InvalidArgument(field: string)
    | NotFound
    | PermissionDenied
    | RateLimited
    | HttpError(status: int)
    | Runtime(reason: string)
    | Malformed(reason: string)

  /** Either a value or the failure that was raised instead of returning it. */
  datatype Result<+T> = Ok(value: T) | Err(error: Failure) {

    predicate IsFailure() {
      Err?
    }

    function PropagateFailure<U>(): Result<U>
      requires Err?
    {
      Err(error)
    }

    function Extract(): T
      requires Ok?
    {
      value
    }
  }

  /** A check that either passes or raises. */
  datatype Outcome = Pass | Fail(error: Failure) {

    predicate IsFailure() {
      Fail?
    }

    function PropagateFailure<U>(): Result<U>
      requires Fail?
    {
      Err(error)
    }

    function Extract(): ()
      requires Pass?
    {
      ()
    }
  }

  /** A file on the local disk: its directory and its name within it. */
  datatype Path = Path(dir: string, name: string)

  /** The local filesystem, as the contents of each existing file. */
  type FileSystem = map<Path, seq<byte>>

  /**
    The byte-level codecs the library calls into (`hashlib.sha256`,
    `bytes.hex`, `base64.b64decode`). They are left uninterpreted: the model
    only says which bytes are fed to them. `b64decode` yields None where
    Python raises `binascii.Error`.
   */
  datatype Codecs = Codecs(
    sha256: seq<byte> -> seq<byte>,
    hex: seq<byte> -> string,
    b64decode: string -> Option<seq<byte>>)
}

=== FILE: download.dfy ===
/**
  Dataset download (src/datacollective/download.py): choosing the download
  directory, turning the server's download session into a plan with a
  target path and a `.part` path next to it, and streaming the archive into
  the `.part` file, appending after any bytes a resumed download already
  holds.
 */
module Download {
  import opened Base
  import opened Text
  import Api
  import opened DownloadErrors

  const DefaultDownloadPath: string := "~/.mozdata/datasets"
  const PartSuffix: string := ".part"
  const UnexpectedFormat: string := "Unexpected response format"

  /** Everything one download needs, fixed before any byte is fetched. */
  datatype DownloadPlan = DownloadPlan(
    downloadUrl: string,
    filename: string,
    target: Path,
    tmp: Path,
    sizeBytes: int,
    checksum: Option<string>)

  // ------------------------------------------------------------ directory

  /**
    The directory text before expansion: a non-blank argument wins, then
    MDC_DOWNLOAD_PATH (even when it is set to the empty string), then the
    default under the home directory.
   */
  function SelectDownloadBase(directory: Option<string>, env: Api.Env): (r: string)
    ensures directory.Some? && !IsBlank(directory.value) ==> r == directory.value
    ensures (directory.None? || IsBlank(directory.value)) && env.downloadPath.Some? ==> r == env.downloadPath.value
    ensures (directory.None? || IsBlank(directory.value)) && env.downloadPath.None? ==> r == DefaultDownloadPath
  {
    if directory.Some? && !IsBlank(directory.value) then directory.value
    else env.downloadPath.GetOr(DefaultDownloadPath)
  }

  /** The first position at or after `from` holding `c`, or `|s|` when there is none (`s.find(c, from)`). */
  function FindFrom(s: string, c: char, from: nat): (i: nat)
    requires from <= |s|
    ensures from <= i <= |s|
    ensures forall j | from <= j < i :: s[j] != c
    ensures i < |s| ==> s[i] == c
    decreases |s| - from
  {
    if from == |s| || s[from] == c then from else FindFrom(s, c, from + 1)
  }

  /**
    `os.path.expanduser` on a POSIX system. `homeOf("")` is the current
    user's home and `homeOf(name)` that of user `name`, None when unknown.
    A leading `~` or `~name` up to the first `/` is replaced by that home
    with its trailing slashes removed; an unknown user leaves the path as
    it is.
   */
  function ExpandUser(path: string, homeOf: string -> Option<string>): (r: string)
    ensures path == [] || path[0] != '~' ==> r == path
    ensures r != path ==> r != []
  {
    if path == [] || path[0] != '~' then path
    else
      var i := FindFrom(path, '/', 1);
      match homeOf(path[1..i])
      case None => path
      case Some(home) =>
        var expanded := TrimEnd(home, {'/'}) + path[i..];
        if expanded == [] then "/" else expanded
  }

  /** The default directory lands under the current user's home. */
  lemma DefaultUnderHome(homeOf: string -> Option<string>, home: string)
    requires homeOf("") == Some(home)
    ensures ExpandUser(DefaultDownloadPath, homeOf) == TrimEnd(home, {'/'}) + "/.mozdata/datasets"
  {
    var p := DefaultDownloadPath;
    assert p[1] == '/';
    assert FindFrom(p, '/', 1) == 1;
    assert p[1..1] == "";
    assert p[1..] == "/.mozdata/datasets";
  }

  /**
    `_resolve_download_dir`: the selected directory, expanded, provided it
    can be created and written to (`writable` stands for `mkdir` followed by
    the `os.access` check); otherwise a PermissionError.
   */
  function ResolveDownloadDir(directory: Option<string>, env: Api.Env, homeOf: string -> Option<string>,
                              writable: string -> bool): (r: Result<string>)
    ensures r.Ok? <==> writable(ExpandUser(SelectDownloadBase(directory, env), homeOf))
    ensures r.Ok? ==> r.value == ExpandUser(SelectDownloadBase(directory, env), homeOf)
    ensures r.Err? ==> r.error == PermissionDenied
  {
    var p := ExpandUser(SelectDownloadBase(directory, env), homeOf);
    if writable(p) then Ok(p) else Err(PermissionDenied)
  }

  // ------------------------------------------------------------ plan

  /** The partial file of a target: the same directory, `.part` appended to the whole file name. */
  function TmpPath(target: Path): (tmp: Path)
    ensures tmp.dir == target.dir && tmp != target
    ensures |tmp.name| == |target.name| + |PartSuffix| && tmp.name[..|target.name|] == target.name
  {
    Path(target.dir, target.name + PartSuffix)
  }

  /** A `str | None` field of the session; any other JSON type is rejected. */
  function OptionalStr(payload: map<string, Json>, key: string): (r: Result<Option<string>>)
    ensures key !in payload || payload[key].JNull? ==> r == Ok(None)
    ensures key in payload && payload[key].JStr? ==> r == Ok(Some(payload[key].s))
  {
    if key !in payload || payload[key].JNull? then Ok(None)
    else if payload[key].JStr? then Ok(Some(payload[key].s))
    else Err(Malformed(key))
  }

  /**
    The plan built from the download session: `downloadUrl`, `filename` and
    `sizeBytes` must all be truthy, so a size of 0 is a format error too.
   */
  function PlanFrom(payload: map<string, Json>, baseDir: string): (r: Result<DownloadPlan>)
    ensures !TruthyField(payload, "downloadUrl") || !TruthyField(payload, "filename") || !TruthyField(payload, "sizeBytes")
            ==> r == Err(Runtime(UnexpectedFormat))
    ensures r.Ok? ==> r.value.downloadUrl != [] && r.value.filename != []
    ensures r.Ok? ==> payload["downloadUrl"] == JStr(r.value.downloadUrl) && payload["filename"] == JStr(r.value.filename)
    ensures r.Ok? ==> r.value.target == Path(baseDir, r.value.filename)
    ensures r.Ok? ==> r.value.tmp == Path(baseDir, r.value.filename + PartSuffix)
    ensures r.Ok? && payload["sizeBytes"].JInt? ==> r.value.sizeBytes == payload["sizeBytes"].i != 0
    ensures r.Ok? ==> r.value.checksum == (if "checksum" in payload && payload["checksum"].JStr? then Some(payload["checksum"].s) else None)
  {
    if !TruthyField(payload, "downloadUrl") || !TruthyField(payload, "filename") || !TruthyField(payload, "sizeBytes") then
      Err(Runtime(UnexpectedFormat))
    else if !payload["downloadUrl"].JStr? || !payload["filename"].JStr? then Err(Malformed("download session"))
    else
      var sizeBytes :- PyInt(payload["sizeBytes"]);
      var checksum :- OptionalStr(payload, "checksum");
      var filename := payload["filename"].s;
      var target := Path(baseDir, filename);
      Ok(DownloadPlan(payload["downloadUrl"].s, filename, target, TmpPath(target), sizeBytes, checksum))
  }

  /** The endpoint that opens a download session for a dataset. */
  function SessionUrl(env: Api.Env, datasetId: string): string {
    Api.ApiUrl(env) + "/datasets/" + datasetId + "/download"
  }

  /**
    `_get_download_plan`: a blank dataset id is rejected, then the directory
    is resolved, and only then is the download session requested.
   */
  function GetDownloadPlan(env: Api.Env, send: Api.Request -> Api.Response, homeOf: string -> Option<string>,
                           writable: string -> bool, datasetId: string, directory: Option<string>): (r: Result<DownloadPlan>)
    ensures IsBlank(datasetId) ==> r == Err(InvalidArgument("dataset_id"))
    ensures !IsBlank(datasetId) && ResolveDownloadDir(directory, env, homeOf, writable).Err? ==> r == Err(PermissionDenied)
    ensures r.Ok? ==> Api.CallJson(env, "POST", SessionUrl(env, datasetId), JNull, send).Ok?
    ensures r.Ok? ==>
              var dir := ExpandUser(SelectDownloadBase(directory, env), homeOf);
              && writable(dir)
              && r.value.target == Path(dir, r.value.filename)
              && r.value.tmp == TmpPath(r.value.target)
  {
    if IsBlank(datasetId) then Err(InvalidArgument("dataset_id"))
    else
      var baseDir :- ResolveDownloadDir(directory, env, homeOf, writable);
      var payload :- Api.CallJson(env, "POST", SessionUrl(env, datasetId), JNull, send);
      PlanFrom(payload, baseDir)
  }

  /** A blank id or an unusable directory is refused whatever the server would have answered. */
  lemma PlanGuardsPrecedeRequest(env: Api.Env, send1: Api.Request -> Api.Response, send2: Api.Request -> Api.Response,
                                 homeOf: string -> Option<string>, writable: string -> bool,
                                 datasetId: string, directory: Option<string>)
    requires IsBlank(datasetId) || ResolveDownloadDir(directory, env, homeOf, writable).Err?
    ensures GetDownloadPlan(env, send1, homeOf, writable, datasetId, directory)
         == GetDownloadPlan(env, send2, homeOf, writable, datasetId, directory)
    ensures GetDownloadPlan(env, send1, homeOf, writable, datasetId, directory).Err?
  {
  }

  // ------------------------------------------------------------ chunks

  /** The chunks that are written: `iter_content` may deliver empty ones, which are skipped. */
  function NonEmpty(chunks: seq<seq<byte>>): (r: seq<seq<byte>>)
    ensures |r| <= |chunks|
    ensures forall i | 0 <= i < |r| :: r[i] != []
  {
    if chunks == [] then []
    else
      var last := chunks[|chunks| - 1];
      NonEmpty(chunks[..|chunks| - 1]) + (if last == [] then [] else [last])
  }

  /** The bytes of the chunks, in order. */
  function Concat(chunks: seq<seq<byte>>): seq<byte> {
    if chunks == [] then [] else Concat(chunks[..|chunks| - 1]) + chunks[|chunks| - 1]
  }

  lemma {:induction false} ConcatAppend(a: seq<seq<byte>>, b: seq<seq<byte>>)
    ensures Concat(a + b) == Concat(a) + Concat(b)
    decreases |b|
  {
    if b == [] {
      assert a + b == a;
    } else {
      var init := b[..|b| - 1];
      assert (a + b)[..|a + b| - 1] == a + init;
      ConcatAppend(a, init);
      assert Concat(a + b) == Concat(a + init) + b[|b| - 1];
    }
  }

  /** Skipping empty chunks changes nothing in the bytes written. */
  lemma {:induction false} ConcatNonEmpty(chunks: seq<seq<byte>>)
    ensures Concat(NonEmpty(chunks)) == Concat(chunks)
    decreases |chunks|
  {
    if chunks != [] {
      var init := chunks[..|chunks| - 1];
      var last := chunks[|chunks| - 1];
      ConcatNonEmpty(init);
      ConcatAppend(NonEmpty(init), if last == [] then [] else [last]);
      assert Concat([last]) == last by {
        var one: seq<seq<byte>> := [last];
        assert one[..0] == [];
      }
    }
  }

  /** The byte count the code keeps while writing: the resume offset, then the length of each chunk written in turn. */
  function LastWrittenOr(offset: nat, chunks: seq<seq<byte>>): nat {
    var written := NonEmpty(chunks);
    if written == [] then offset else |written[|written| - 1]|
  }

  /**
    The write loop: every non-empty chunk is appended to the file opened in
    append mode, and `last` follows the variable the code reports, which
    after a write holds the length of that chunk only.
   */
  method AppendChunks(prior: seq<byte>, chunks: seq<seq<byte>>, offset: nat)
    returns (content: seq<byte>, written: seq<seq<byte>>, last: nat)
    ensures written == NonEmpty(chunks)
    ensures content == prior + Concat(chunks)
    ensures last == LastWrittenOr(offset, chunks)
  {
    content, written, last := prior, [], offset;
    var i := 0;
    while i < |chunks|
      invariant 0 <= i <= |chunks|
      invariant written == NonEmpty(chunks[..i])
      invariant content == prior + Concat(written)
      invariant last == (if written == [] then offset else |written[|written| - 1]|)
    {
      var chunk := chunks[i];
      assert chunks[..i + 1][..i] == chunks[..i];
      if chunk != [] {
        content := content + chunk;
        ConcatAppend(written, [chunk]);
        assert Concat([chunk]) == chunk by {
          var one: seq<seq<byte>> := [chunk];
          assert one[..0] == [];
        }
        written := written + [chunk];
        last := |chunk|;
      }
      i := i + 1;
    }
    assert chunks[..i] == chunks;
    ConcatNonEmpty(chunks);
  }

  // ------------------------------------------------------------ streaming

  /** The streamed body of the download: the chunks delivered in order, and whether the stream then raised (a network error or an interrupt) instead of ending. */
  datatype Body = Body(chunks: seq<seq<byte>>, interrupted: bool)

  /** How far a download got: the request raised, the checksum did not match, or the body was streamed into the partial file. */
  datatype Stage = Refused | Mismatched | Streamed(written: seq<seq<byte>>, interrupted: bool)

  datatype DownloadOutcome = Downloaded | Failed(error: DownloadError)

  /** The resume decision taken for the plan's partial file. */
  function ResumeFor(fs: FileSystem, plan: DownloadPlan, resumeChecksum: Option<string>): Api.ResumePoint {
    Api.PrepareDownloadHeaders(fs, plan.tmp, resumeChecksum)
  }

  /** The streaming GET of the download URL, with the resume headers and the default timeout. */
  function StreamRequest(env: Api.Env, plan: DownloadPlan, point: Api.ResumePoint): Result<Api.Request> {
    Api.BuildRequest(env, "GET", plan.downloadUrl, Some(point.headers), Some(Api.HttpTimeout), JNull)
  }

  function StreamResponse(env: Api.Env, head: Api.Request -> Api.Response, plan: DownloadPlan, point: Api.ResumePoint): Result<Api.Response> {
    Api.ApiRequest(env, "GET", plan.downloadUrl, Some(point.headers), Some(Api.HttpTimeout), JNull, true, head)
  }

  /** `response.headers.get(name)`. */
  function Header(headers: map<string, string>, name: string): Option<string> {
    if name in headers then Some(headers[name]) else None
  }

  /** Which reading of the `Repr-Digest` header a download uses: the code as written, or the corrected one. */
  datatype Extraction = AsWritten | Corrected

  function ExtractWith(x: Extraction, header: Option<string>, codecs: Codecs): Result<Option<string>> {
    match x
    case AsWritten => Api.ExtractChecksumAsWritten(header, codecs)
    case Corrected => Api.ExtractChecksum(header, codecs)
  }

  /**
    The plan's checksum is present, and the one read from the server's
    header differs from it; a header the extraction cannot read (an
    exception inside the `try`) rejects too.
   */
  predicate ChecksumRejected(resp: Api.Response, plan: DownloadPlan, codecs: Codecs, x: Extraction) {
    TruthyStr(plan.checksum) && ExtractWith(x, Header(resp.headers, "Repr-Digest"), codecs) != Ok(plan.checksum)
  }

  /**
    As written, a download with a checksum to check is rejected whenever the
    server's digest is a well-formed header without base64 padding: the
    split finds two pieces and raises, whatever the digest says.
   */
  lemma AsWrittenRejectsUnpaddedDigest(resp: Api.Response, plan: DownloadPlan, codecs: Codecs, algo: string, b64: string)
    requires TruthyStr(plan.checksum)
    requires ':' !in algo && ':' !in b64 && (b64 == [] || b64[|b64| - 1] != '=')
    requires Header(resp.headers, "Repr-Digest") == Some(algo + "=:" + b64 + ":")
    ensures ChecksumRejected(resp, plan, codecs, AsWritten)
  {
    Api.ExtractAsWrittenRejectsUnpadded(algo, b64, codecs);
  }

  /**
    The corrected reading accepts such a header exactly when the decoded
    digest is the plan's checksum.
   */
  lemma CorrectedAcceptsMatchingDigest(resp: Api.Response, plan: DownloadPlan, codecs: Codecs, algo: string, b64: string)
    requires TruthyStr(plan.checksum)
    requires ':' !in algo && ':' !in b64
    requires Header(resp.headers, "Repr-Digest") == Some(algo + "=:" + b64 + ":")
    ensures ChecksumRejected(resp, plan, codecs, Corrected) <==> Api.DecodeDigest(b64, codecs) != Ok(plan.checksum)
  {
    Api.ExtractChecksumDecodesValue(algo, b64, codecs);
  }

  /** The content of a file, empty when it does not exist. */
  function FileContent(fs: FileSystem, p: Path): seq<byte> {
    if p in fs then fs[p] else []
  }

  /** Every file but `p` is as it was. */
  predicate OthersUnchanged(fs: FileSystem, fs': FileSystem, p: Path) {
    fs' - {p} == fs - {p}
  }

  /** The resume decision touches no file but the partial one. */
  lemma ResumeKeepsOthers(fs: FileSystem, tmp: Path, resumeChecksum: Option<string>)
    ensures OthersUnchanged(fs, Api.PrepareDownloadHeaders(fs, tmp, resumeChecksum).fs, tmp)
  {
    var fs' := Api.PrepareDownloadHeaders(fs, tmp, resumeChecksum).fs;
    if tmp in fs && !TruthyStr(resumeChecksum) {
      assert fs' - {tmp} == fs - {tmp};
    }
  }

  /** Writing the partial file touches no other file. */
  lemma WriteKeepsOthers(fs: FileSystem, fs': FileSystem, p: Path, content: seq<byte>)
    requires OthersUnchanged(fs, fs', p)
    ensures OthersUnchanged(fs, fs'[p := content], p)
  {
    assert fs'[p := content] - {p} == fs' - {p};
  }

  /**
    The part of `_execute_download_plan` both byte counts share: the resume
    decision, the streaming request, the checksum guard, and the append
    loop. The partial file is opened only once the checksum is accepted.
   */
  method StreamToPartFile(env: Api.Env, head: Api.Request -> Api.Response, body: Api.Request -> Body, codecs: Codecs,
                          x: Extraction, plan: DownloadPlan, resumeChecksum: Option<string>, fs: FileSystem)
    returns (stage: Stage, last: nat, fs': FileSystem)
    ensures OthersUnchanged(fs, fs', plan.tmp)
    ensures var point := ResumeFor(fs, plan, resumeChecksum);
            var resp := StreamResponse(env, head, plan, point);
            && (stage.Refused? <==> resp.Err?)
            && (stage.Mismatched? <==> resp.Ok? && ChecksumRejected(resp.value, plan, codecs, x))
            && (!stage.Streamed? ==> fs' == point.fs && last == point.offset)
            && (stage.Streamed? ==>
                  && StreamRequest(env, plan, point).Ok?
                  && var b := body(StreamRequest(env, plan, point).value);
                  && stage.written == NonEmpty(b.chunks) && stage.interrupted == b.interrupted
                  && fs' == point.fs[plan.tmp := FileContent(point.fs, plan.tmp) + Concat(b.chunks)]
                  && last == LastWrittenOr(point.offset, b.chunks))
  {
    var point := ResumeFor(fs, plan, resumeChecksum);
    fs' := point.fs;
    last := point.offset;
    ResumeKeepsOthers(fs, plan.tmp, resumeChecksum);
    var resp := StreamResponse(env, head, plan, point);
    if resp.Err? {
      stage := Refused;
      return;
    }
    if ChecksumRejected(resp.value, plan, codecs, x) {
      stage := Mismatched;
      return;
    }
    var b := body(StreamRequest(env, plan, point).value);
    var content, written;
    content, written, last := AppendChunks(FileContent(fs', plan.tmp), b.chunks, point.offset);
    WriteKeepsOthers(fs, fs', plan.tmp, content);
    fs' := fs'[plan.tmp := content];
    stage := Streamed(written, b.interrupted);
  }

  /** The download succeeded exactly when the body was streamed to its end. */
  function Finish(stage: Stage, downloadedBytes: int, checksum: Option<string>): (r: DownloadOutcome)
    ensures r.Downloaded? <==> stage.Streamed? && !stage.interrupted
    ensures r.Failed? ==> r.error == DownloadError(downloadedBytes, checksum)
  {
    if stage.Streamed? && !stage.interrupted then Downloaded else Failed(DownloadError(downloadedBytes, checksum))
  }

  /**
    `_execute_download_plan` as written: the server's digest is read with
    the as-written split of `Repr-Digest`, and a failure reports the resume
    offset when nothing was written and otherwise the length of the last
    chunk written, not the bytes on disk.
   */
  method ExecuteDownloadPlanAsWritten(env: Api.Env, head: Api.Request -> Api.Response, body: Api.Request -> Body,
                                      codecs: Codecs, plan: DownloadPlan, resumeChecksum: Option<string>, fs: FileSystem)
    returns (r: DownloadOutcome, fs': FileSystem)
    ensures var point := ResumeFor(fs, plan, resumeChecksum);
            var resp := StreamResponse(env, head, plan, point);
            && (resp.Err? || ChecksumRejected(resp.value, plan, codecs, AsWritten) ==> r == Failed(DownloadError(point.offset, plan.checksum)) && fs' == point.fs)
            && (resp.Ok? && !ChecksumRejected(resp.value, plan, codecs, AsWritten) ==>
                  && StreamRequest(env, plan, point).Ok?
                  && var b := body(StreamRequest(env, plan, point).value);
                  && fs' == point.fs[plan.tmp := FileContent(point.fs, plan.tmp) + Concat(b.chunks)]
                  && (r.Downloaded? <==> !b.interrupted)
                  && (r.Failed? ==> r.error == DownloadError(LastWrittenOr(point.offset, b.chunks), plan.checksum)))
  {
    var stage, last;
    stage, last, fs' := StreamToPartFile(env, head, body, codecs, AsWritten, plan, resumeChecksum, fs);
    r := Finish(stage, last, plan.checksum);
  }

  /** The bytes the partial file holds: what the resume decision kept plus every chunk written. */
  function BytesOnDisk(fs: FileSystem, p: Path): nat {
    |FileContent(fs, p)|
  }

  /**
    `_execute_download_plan` corrected: the digest is read as section 3 of
    RFC 9530 lays it out, and a failure reports the bytes the partial file
    holds, so a retry that resumes with the reported checksum asks for
    exactly the rest.
   */
  method ExecuteDownloadPlan(env: Api.Env, head: Api.Request -> Api.Response, body: Api.Request -> Body,
                             codecs: Codecs, plan: DownloadPlan, resumeChecksum: Option<string>, fs: FileSystem)
    returns (r: DownloadOutcome, fs': FileSystem)
    ensures OthersUnchanged(fs, fs', plan.tmp)
    ensures r.Failed? ==> r.error.checksum == plan.checksum
    ensures r.Failed? ==> r.error.downloadedBytes == BytesOnDisk(fs', plan.tmp)
    ensures r.Failed? && TruthyStr(plan.checksum) ==>
              Api.PrepareDownloadHeaders(fs', plan.tmp, plan.checksum).offset == r.error.downloadedBytes
    ensures var point := ResumeFor(fs, plan, resumeChecksum);
            var resp := StreamResponse(env, head, plan, point);
            && (resp.Ok? && ChecksumRejected(resp.value, plan, codecs, Corrected) ==> r.Failed? && fs' == point.fs)
            && (r.Downloaded? <==>
                  && resp.Ok? && !ChecksumRejected(resp.value, plan, codecs, Corrected)
                  && StreamRequest(env, plan, point).Ok?
                  && !body(StreamRequest(env, plan, point).value).interrupted)
            && (r.Downloaded? ==>
                  fs' == point.fs[plan.tmp := FileContent(point.fs, plan.tmp) + Concat(body(StreamRequest(env, plan, point).value).chunks)])
  {
    var stage, last;
    stage, last, fs' := StreamToPartFile(env, head, body, codecs, Corrected, plan, resumeChecksum, fs);
    Api.PrepareKeepsOffsetInvariant(fs, plan.tmp, resumeChecksum);
    r := Finish(stage, BytesOnDisk(fs', plan.tmp), plan.checksum);
  }

  /**
    The byte count as written is not what was written: two chunks of 3 and
    2 bytes, then an interrupt, leave 5 bytes in a fresh partial file while
    the error reports 2.
   */
  lemma ReportedBytesUndercount()
    ensures var chunks: seq<seq<byte>> := [[1, 2, 3], [4, 5]];
            LastWrittenOr(0, chunks) == 2 && |Concat(chunks)| == 5
  {
    var chunks: seq<seq<byte>> := [[1, 2, 3], [4, 5]];
    assert chunks[..1] == [[1, 2, 3]];
    assert chunks[..1][..0] == [];
    assert NonEmpty(chunks) == [[1, 2, 3], [4, 5]];
    assert Concat(chunks) == [1, 2, 3, 4, 5];
  }
}

=== FILE: download_errors.dfy ===
/**
  The structured download failure (src/datacollective/errors.py): it keeps
  the byte count and checksum it was raised with, and its message tells the
  user how to resume only when there is a checksum to resume with.
 */
module DownloadErrors {
  import opened Base
  import opened Text

  datatype DownloadError = DownloadError(downloadedBytes: int, checksum: Option<string>)

  const ResumablePrefix: string := "Download failed with "
  const ResumeHint: string := "bytes written. Run again with resume_download=\""
  const ResumableSuffix: string := "\" to resume."
  const NotResumableHead: string := "Download failed."
  const NotResumableMessage: string :=
    NotResumableHead + " Unfortunately this dataset does not support resuming downloads \U{2014} please try again."

  /** `DownloadError.__str__`. */
  function Message(e: DownloadError): (r: string)
    ensures !TruthyStr(e.checksum) ==> r == NotResumableMessage
    ensures TruthyStr(e.checksum) <==> r != NotResumableMessage
  {
    if TruthyStr(e.checksum) then
      var r := ResumablePrefix + (IntToString(e.downloadedBytes) + " " + (ResumeHint + e.checksum.value + ResumableSuffix));
      assert r[15] == ResumablePrefix[15] == ' ';
      assert NotResumableMessage[15] == NotResumableHead[15] == '.';
      r
    else NotResumableMessage
  }

  /** Without a checksum the message does not depend on the byte count. */
  lemma MessageIgnoresBytesWithoutChecksum(a: DownloadError, b: DownloadError)
    requires !TruthyStr(a.checksum) && !TruthyStr(b.checksum)
    ensures Message(a) == Message(b)
  {
  }

  /** A string with no space cannot be followed by a space at two different places. */
  lemma SpaceFreePrefixUnique(x: string, y: string, u: string, v: string)
    requires ' ' !in x && ' ' !in u
    requires x + " " + y == u + " " + v
    ensures x == u && y == v
  {
    var s := x + " " + y;
    assert forall j | 0 <= j < |x| :: s[j] == x[j];
    assert forall j | 0 <= j < |u| :: s[j] == u[j];
    assert s[|x|] == ' ' && s[|u|] == ' ';
    assert |x| == |u|;
    assert x == s[..|x|] && u == s[..|u|];
    assert y == s[|x| + 1..] && v == s[|u| + 1..];
  }

  lemma IntToStringHasNoSpace(i: int)
    ensures ' ' !in IntToString(i)
  {
    var r := IntToString(i);
    if i < 0 {
      assert r[1..] == NatToString(-i);
      forall k | 0 <= k < |r| ensures r[k] != ' ' {
        if k > 0 { assert r[k] == NatToString(-i)[k - 1]; }
      }
    }
  }

  lemma CancelPrefix(p: string, x: string, y: string)
    requires p + x == p + y
    ensures x == y
  {
    assert x == (p + x)[|p|..];
    assert y == (p + y)[|p|..];
  }

  lemma CancelAround(p: string, x: string, y: string, q: string)
    requires p + x + q == p + y + q
    ensures x == y
  {
    assert x == (p + x + q)[|p|..|p| + |x|];
    assert y == (p + y + q)[|p|..|p| + |y|];
  }

  /**
    A resumable message reports the byte count and the checksum faithfully:
    two such messages are equal only when both their byte counts and their
    checksums are.
   */
  lemma ResumableMessageDeterminesError(a: DownloadError, b: DownloadError)
    requires TruthyStr(a.checksum) && TruthyStr(b.checksum)
    requires Message(a) == Message(b)
    ensures a == b
  {
    var tailA := ResumeHint + a.checksum.value + ResumableSuffix;
    var tailB := ResumeHint + b.checksum.value + ResumableSuffix;
    CancelPrefix(ResumablePrefix, IntToString(a.downloadedBytes) + " " + tailA, IntToString(b.downloadedBytes) + " " + tailB);
    IntToStringHasNoSpace(a.downloadedBytes);
    IntToStringHasNoSpace(b.downloadedBytes);
    SpaceFreePrefixUnique(IntToString(a.downloadedBytes), tailA, IntToString(b.downloadedBytes), tailB);
    IntToStringInjective(a.downloadedBytes, b.downloadedBytes);
    CancelAround(ResumeHint, a.checksum.value, b.checksum.value, ResumableSuffix);
  }
}

=== FILE: models.dfy ===
/**
  The request payload schemas (src/datacollective/models.py): a schema is a
  list of declared fields; validation rejects undeclared keys, runs the
  trim-and-reject-blank validator on every supplied value of a
  `NonEmptyStrModel`, checks each value's type and fills in defaults.
 */
module Models {
  import opened Base
  import opened Text

  /**
    `NonEmptyStrModel._non_empty_strings`, applied to every supplied field
    before type checking: None and non-string values pass through unchanged,
    strings are stripped, and a string that strips to nothing is rejected.
   */
  function NonEmptyStrings(field: string, v: Json): (r: Result<Json>)
    ensures v.JStr? ==> (r.Err? <==> IsBlank(v.s))
    ensures v.JStr? && r.Ok? ==> r.value == JStr(Strip(v.s))
    ensures !v.JStr? ==> r == Ok(v)
    ensures r.Err? ==> r.error == InvalidArgument(field)
  {
    match v
    case JStr(s) =>
      var trimmed := Strip(s);
      if trimmed == [] then Err(InvalidArgument(field)) else Ok(JStr(trimmed))
    case _ => Ok(v)
  }

  /** The declared type of a field: `str`, `str | None`, `bool`, or a one-value `Literal`. */
  datatype FieldType = StrField | OptStrField | BoolField | LiteralField(literal: string)

  datatype FieldSpec = FieldSpec(name: string, ty: FieldType, default: Option<Json>)

  predicate HasType(v: Json, ty: FieldType) {
    match ty
    case StrField => v.JStr?
    case OptStrField => v.JStr? || v.JNull?
    case BoolField => v.JBool?
    case LiteralField(lit) => v == JStr(lit)
  }

  /** One declared field: the supplied value, validated and type-checked, or else its default. */
  function ValidateField(spec: FieldSpec, payload: map<string, Json>, trim: bool): (r: Result<Json>)
    ensures r.Ok? && spec.name in payload ==> HasType(r.value, spec.ty)
    ensures r.Ok? && spec.name !in payload ==> spec.default == Some(r.value)
    ensures spec.name !in payload && spec.default.None? ==> r.Err?
    ensures trim && spec.name in payload && r.Ok? ==>
              NonEmptyStrings(spec.name, payload[spec.name]).Ok? && r.value == NonEmptyStrings(spec.name, payload[spec.name]).value
    ensures !trim && spec.name in payload && r.Ok? ==> r.value == payload[spec.name]
  {
    if spec.name in payload then
      var v := payload[spec.name];
      var w :- if trim then NonEmptyStrings(spec.name, v) else Ok(v);
      if HasType(w, spec.ty) then Ok(w) else Err(InvalidArgument(spec.name))
    else
      match spec.default
      case Some(d) => Ok(d)
      case None => Err(InvalidArgument(spec.name))
  }

  /** The declared field names. */
  function Names(specs: seq<FieldSpec>): (names: set<string>)
    ensures forall i | 0 <= i < |specs| :: specs[i].name in names
  {
    if specs == [] then {}
    else
      var init := specs[..|specs| - 1];
      assert forall i | 0 <= i < |init| :: init[i] == specs[i];
      Names(init) + {specs[|specs| - 1].name}
  }

  /** Every name in the set is declared by some field. */
  lemma {:induction false} NamesDeclared(specs: seq<FieldSpec>, n: string)
    requires n in Names(specs)
    ensures exists i | 0 <= i < |specs| :: specs[i].name == n
    decreases |specs|
  {
    var init := specs[..|specs| - 1];
    if n != specs[|specs| - 1].name {
      NamesDeclared(init, n);
      var i :| 0 <= i < |init| && init[i].name == n;
      assert specs[i] == init[i];
    }
  }

  predicate DistinctNames(specs: seq<FieldSpec>) {
    forall i, j | 0 <= i < j < |specs| :: specs[i].name != specs[j].name
  }

  /** Validates the declared fields in order, stopping at the first rejected one. */
  function ValidateFields(specs: seq<FieldSpec>, payload: map<string, Json>, trim: bool): (r: Result<map<string, Json>>)
    ensures r.Ok? ==> r.value.Keys == Names(specs)
    decreases |specs|
  {
    if specs == [] then Ok(map[])
    else
      var rest :- ValidateFields(specs[..|specs| - 1], payload, trim);
      var v :- ValidateField(specs[|specs| - 1], payload, trim);
      Ok(rest[specs[|specs| - 1].name := v])
  }

  /** The schema accepts exactly when each declared field does. */
  lemma {:induction false} ValidateFieldsOk(specs: seq<FieldSpec>, payload: map<string, Json>, trim: bool)
    ensures ValidateFields(specs, payload, trim).Ok? <==> forall i | 0 <= i < |specs| :: ValidateField(specs[i], payload, trim).Ok?
    decreases |specs|
  {
    if specs != [] {
      var init := specs[..|specs| - 1];
      assert forall i | 0 <= i < |init| :: init[i] == specs[i];
      ValidateFieldsOk(init, payload, trim);
    }
  }

  /** An accepted schema holds each field's validated value under its name. */
  lemma {:induction false} ValidateFieldsPerField(specs: seq<FieldSpec>, payload: map<string, Json>, trim: bool, i: int)
    requires DistinctNames(specs) && 0 <= i < |specs|
    requires ValidateFields(specs, payload, trim).Ok?
    ensures ValidateField(specs[i], payload, trim).Ok?
    ensures ValidateFields(specs, payload, trim).value[specs[i].name] == ValidateField(specs[i], payload, trim).value
    decreases |specs|
  {
    var init := specs[..|specs| - 1];
    var last := specs[|specs| - 1];
    var rest := ValidateFields(init, payload, trim).value;
    var v := ValidateField(last, payload, trim).value;
    assert ValidateFields(specs, payload, trim).value == rest[last.name := v];
    if i < |init| {
      assert init[i] == specs[i];
      assert specs[i].name != last.name;
      assert DistinctNames(init);
      ValidateFieldsPerField(init, payload, trim, i);
    }
  }

  /**
    `Model.model_validate(payload)`: keys the schema does not declare are
    rejected (`extra="forbid"`), then every declared field is validated.
   */
  function ValidateModel(specs: seq<FieldSpec>, payload: map<string, Json>, trim: bool): (r: Result<map<string, Json>>)
    requires DistinctNames(specs)
    ensures (exists k | k in payload :: k !in Names(specs)) ==> r.Err?
    ensures r.Ok? <==> (forall k | k in payload :: k in Names(specs))
                       && (forall i | 0 <= i < |specs| :: ValidateField(specs[i], payload, trim).Ok?)
    ensures r.Ok? ==> r.value.Keys == Names(specs)
    ensures r.Ok? ==> forall i | 0 <= i < |specs| ::
              ValidateField(specs[i], payload, trim).Ok? && r.value[specs[i].name] == ValidateField(specs[i], payload, trim).value
  {
    if exists k | k in payload :: k !in Names(specs) then Err(InvalidArgument("extra"))
    else
      ValidateFieldsOk(specs, payload, trim);
      var r := ValidateFields(specs, payload, trim);
      if r.Ok? then
        assert forall i | 0 <= i < |specs| :: ValidateField(specs[i], payload, trim).Ok? && r.value[specs[i].name] == ValidateField(specs[i], payload, trim).value by {
          forall i | 0 <= i < |specs|
            ensures ValidateField(specs[i], payload, trim).Ok? && r.value[specs[i].name] == ValidateField(specs[i], payload, trim).value
          {
            ValidateFieldsPerField(specs, payload, trim, i);
          }
        }
        r
      else r
  }

  /**
    What a `NonEmptyStrModel` promises of every string field the caller
    supplied: a blank one rejects the payload, and otherwise the stored value
    is the stripped string.
   */
  lemma ValidateModelTrimsStrings(specs: seq<FieldSpec>, payload: map<string, Json>, i: int)
    requires DistinctNames(specs)
    requires 0 <= i < |specs| && specs[i].name in payload && payload[specs[i].name].JStr?
    ensures IsBlank(payload[specs[i].name].s) ==> ValidateModel(specs, payload, true).Err?
    ensures ValidateModel(specs, payload, true).Ok? ==>
              ValidateModel(specs, payload, true).value[specs[i].name] == JStr(Strip(payload[specs[i].name].s))
  {
    if IsBlank(payload[specs[i].name].s) && !(exists k | k in payload :: k !in Names(specs)) {
      assert ValidateField(specs[i], payload, true).Err?;
    }
  }

  /** Values the validator does not touch: None and non-strings reach the type check unchanged. */
  lemma ValidatorPassesNonStrings(specs: seq<FieldSpec>, payload: map<string, Json>, i: int)
    requires DistinctNames(specs)
    requires 0 <= i < |specs| && specs[i].name in payload && !payload[specs[i].name].JStr?
    ensures ValidateModel(specs, payload, true).Ok? ==> ValidateModel(specs, payload, true).value[specs[i].name] == payload[specs[i].name]
  {
  }

  // ------------------------------------------------------------ the schemas

  /** Declared string fields, required. */
  function Required(names: seq<string>): (specs: seq<FieldSpec>)
    ensures |specs| == |names|
    ensures forall i | 0 <= i < |names| :: specs[i] == FieldSpec(names[i], StrField, None)
  {
    seq(|names|, i requires 0 <= i < |names| => FieldSpec(names[i], StrField, None))
  }

  const DraftSpecs: seq<FieldSpec> := Required(["name", "longDescription"])

  const SubmitStringFields: seq<string> := [
    "shortDescription", "longDescription", "locale", "task", "format",
    "licenseAbbreviation", "license", "licenseUrl", "other", "restrictions",
    "forbiddenUsage", "additionalConditions", "pointOfContactFullName",
    "pointOfContactEmail", "fundedByFullName", "fundedByEmail",
    "legalContactFullName", "legalContactEmail", "createdByFullName",
    "createdByEmail", "intendedUsage", "ethicalReviewProcess"
  ]

  const SubmittedStatus: string := "submitted"

  const SubmitSpecs: seq<FieldSpec> := Required(SubmitStringFields) + [
    FieldSpec("exclusivityOptOut", BoolField, None),
    FieldSpec("fileUploadId", OptStrField, Some(JNull)),
    FieldSpec("status", LiteralField(SubmittedStatus), Some(JStr(SubmittedStatus)))
  ]

  /** The names `SubmitSpecs` declares, in order. */
  const SubmitNames: seq<string> := SubmitStringFields + ["exclusivityOptOut", "fileUploadId", "status"]

  lemma SubmitNamesDistinct()
    ensures forall i, j | 0 <= i < j < |SubmitNames| :: SubmitNames[i] != SubmitNames[j]
  {
  }

  lemma SubmitSpecsDistinct()
    ensures DistinctNames(SubmitSpecs)
  {
    assert forall i | 0 <= i < |SubmitSpecs| :: SubmitSpecs[i].name == SubmitNames[i];
    SubmitNamesDistinct();
  }

  lemma DraftSpecsDistinct()
    ensures DistinctNames(DraftSpecs)
  {
  }

  /** `DatasetSubmissionDraftInput(name=..., longDescription=...)`. */
  function ValidateDraftInput(payload: map<string, Json>): (r: Result<map<string, Json>>)
    ensures r.Ok? <==> (forall k | k in payload :: k in Names(DraftSpecs))
                       && (forall i | 0 <= i < |DraftSpecs| :: ValidateField(DraftSpecs[i], payload, true).Ok?)
    ensures r.Ok? ==> r.value.Keys == {"name", "longDescription"}
  {
    DraftSpecsDistinct();
    ValidateModel(DraftSpecs, payload, true)
  }

  /** `DatasetSubmissionSubmitInput.model_validate(payload)`. */
  function ValidateSubmitInput(payload: map<string, Json>): (r: Result<map<string, Json>>)
    ensures r.Ok? <==> (forall k | k in payload :: k in Names(SubmitSpecs))
                       && (forall i | 0 <= i < |SubmitSpecs| :: ValidateField(SubmitSpecs[i], payload, true).Ok?)
    ensures r.Ok? ==> r.value.Keys == Names(SubmitSpecs)
    ensures r.Ok? ==> forall i | 0 <= i < |SubmitSpecs| :: r.value[SubmitSpecs[i].name] == ValidateField(SubmitSpecs[i], payload, true).value
  {
    SubmitSpecsDistinct();
    ValidateModel(SubmitSpecs, payload, true)
  }

  /**
    A `Literal` field whose default is its literal always ends up holding the
    literal: an accepted payload carries it, and a supplied value that is not
    the literal once stripped is rejected.
   */
  lemma LiteralFieldFixed(specs: seq<FieldSpec>, payload: map<string, Json>, i: int, lit: string)
    requires DistinctNames(specs) && 0 <= i < |specs|
    requires specs[i].ty == LiteralField(lit) && specs[i].default == Some(JStr(lit))
    ensures ValidateModel(specs, payload, true).Ok? ==> ValidateModel(specs, payload, true).value[specs[i].name] == JStr(lit)
    ensures specs[i].name in payload && !(payload[specs[i].name].JStr? && Strip(payload[specs[i].name].s) == lit)
            ==> ValidateModel(specs, payload, true).Err?
  {
    var name := specs[i].name;
    if name in payload && !(payload[name].JStr? && Strip(payload[name].s) == lit) {
      assert ValidateField(specs[i], payload, true).Err?;
    }
  }

  lemma StatusIsLast()
    ensures |SubmitSpecs| == 25
    ensures SubmitSpecs[24] == FieldSpec("status", LiteralField(SubmittedStatus), Some(JStr(SubmittedStatus)))
  {
  }

  /**
    The submission status is fixed: an accepted payload always says
    "submitted", taking it from the default when the caller left it out, and
    a supplied status that is not "submitted" once stripped is rejected.
   */
  lemma SubmitStatusIsSubmitted(payload: map<string, Json>)
    ensures ValidateSubmitInput(payload).Ok? ==> ValidateSubmitInput(payload).value["status"] == JStr(SubmittedStatus)
    ensures "status" in payload && !(payload["status"].JStr? && Strip(payload["status"].s) == SubmittedStatus)
            ==> ValidateSubmitInput(payload).Err?
  {
    SubmitSpecsDistinct();
    StatusIsLast();
    LiteralFieldFixed(SubmitSpecs, payload, 24, SubmittedStatus);
  }

  // ------------------------------------------------------------ upload parts

  /** One multipart upload part; a plain model, so `etag` is neither stripped nor required to be non-empty. */
  datatype UploadPart = UploadPart(partNumber: int, etag: string)

  /** `part.model_dump()`. */
  function DumpUploadPart(p: UploadPart): Json {
    JObj(map["partNumber" := JInt(p.partNumber), "etag" := JStr(p.etag)])
  }

  /** `UploadPart.model_validate(j)`: an object with exactly an integer `partNumber >= 1` and a string `etag`. */
  function ParseUploadPart(j: Json): (r: Result<UploadPart>)
    ensures r.Ok? ==> r.value.partNumber >= 1
    ensures r.Ok? ==> j == DumpUploadPart(r.value)
  {
    match j
    case JObj(m) =>
      if exists k | k in m :: k != "partNumber" && k != "etag" then Err(InvalidArgument("extra"))
      else if "partNumber" !in m || !m["partNumber"].JInt? || m["partNumber"].i < 1 then Err(InvalidArgument("partNumber"))
      else if "etag" !in m || !m["etag"].JStr? then Err(InvalidArgument("etag"))
      else
        var p := UploadPart(m["partNumber"].i, m["etag"].s);
        assert m == map["partNumber" := JInt(p.partNumber), "etag" := JStr(p.etag)];
        Ok(p)
    case _ => Err(InvalidArgument("UploadPart"))
  }

  /** Dumping a part and validating it back gives the part, exactly when its number is at least 1. */
  lemma UploadPartRoundTrip(p: UploadPart)
    ensures ParseUploadPart(DumpUploadPart(p)).Ok? <==> p.partNumber >= 1
    ensures p.partNumber >= 1 ==> ParseUploadPart(DumpUploadPart(p)) == Ok(p)
  {
  }
}

=== FILE: registry.dfy ===
/**
  Choosing the Common Voice loader for a dataset name
  (src/datacollective/dataset_loading_scripts/registry.py). The loaders
  themselves read CSV files into data frames and are given as parameters.
 */
module Registry {
  import opened Base
  import opened Text

  datatype Loader = Scripted | Spontaneous

  const ScriptedTag := "scripted"
  const SpontaneousTag := "spontaneous"

  /**
    The loader a name selects: `scripted` anywhere in the name wins, then
    `spontaneous`; matching is case-sensitive. Any other name is rejected
    as an invalid `dataset_name`.
   */
  function LoaderFor(datasetName: string): (r: Result<Loader>)
    ensures r.Ok? <==> Contains(datasetName, ScriptedTag) || Contains(datasetName, SpontaneousTag)
    ensures r.Err? ==> r.error == InvalidArgument("dataset_name")
    ensures r == Ok(Spontaneous) ==> !Contains(datasetName, ScriptedTag)
  {
    if Contains(datasetName, ScriptedTag) then Ok(Scripted)
    else if Contains(datasetName, SpontaneousTag) then Ok(Spontaneous)
    else Err(InvalidArgument("dataset_name"))
  }

  /** `load_dataset_from_name_as_dataframe`: runs the selected loader on the extraction directory. */
  function LoadDatasetFromName<Frame>(
    loadScripted: string -> Result<Frame>,
    loadSpontaneous: string -> Result<Frame>,
    datasetName: string,
    extractDir: string): (r: Result<Frame>)
    ensures LoaderFor(datasetName) == Ok(Scripted) ==> r == loadScripted(extractDir)
    ensures LoaderFor(datasetName) == Ok(Spontaneous) ==> r == loadSpontaneous(extractDir)
    ensures LoaderFor(datasetName).Err? ==> r == Err(InvalidArgument("dataset_name"))
  {
    var loader :- LoaderFor(datasetName);
    match loader
    case Scripted => loadScripted(extractDir)
    case Spontaneous => loadSpontaneous(extractDir)
  }

  lemma ContainsInWider(s: string, sub: string, pre: string, post: string)
    requires Contains(s, sub)
    ensures Contains(pre + s + post, sub)
  {
    var i :| OccursAt(s, sub, i);
    var w := pre + s + post;
    assert w[|pre| + i..|pre| + i + |sub|] == s[i..i + |sub|];
    assert OccursAt(w, sub, |pre| + i);
  }

  /**
    Embedding a name in longer text never changes a scripted choice, and
    never makes a supported name unsupported.
   */
  lemma LoaderStableUnderExtension(name: string, pre: string, post: string)
    ensures LoaderFor(name) == Ok(Scripted) ==> LoaderFor(pre + name + post) == Ok(Scripted)
    ensures LoaderFor(name).Ok? ==> LoaderFor(pre + name + post).Ok?
  {
    if Contains(name, ScriptedTag) {
      ContainsInWider(name, ScriptedTag, pre, post);
    }
    if Contains(name, SpontaneousTag) {
      ContainsInWider(name, SpontaneousTag, pre, post);
    }
  }

  /** The tag names select their own loader, and a name carrying both tags is loaded as scripted. */
  lemma TagsSelectLoaders()
    ensures LoaderFor(ScriptedTag) == Ok(Scripted)
    ensures LoaderFor(SpontaneousTag) == Ok(Spontaneous)
    ensures LoaderFor(SpontaneousTag + "-" + ScriptedTag) == Ok(Scripted)
  {
    assert OccursAt(ScriptedTag, ScriptedTag, 0);
    assert OccursAt(SpontaneousTag, SpontaneousTag, 0);
    assert !Contains(SpontaneousTag, ScriptedTag) by {
      forall i | 0 <= i <= |SpontaneousTag| - |ScriptedTag| ensures !OccursAt(SpontaneousTag, ScriptedTag, i) {
        assert SpontaneousTag[i..i + |ScriptedTag|][1] == SpontaneousTag[i + 1];
      }
    }
    ContainsInWider(ScriptedTag, ScriptedTag, SpontaneousTag + "-", "");
    assert SpontaneousTag + "-" + ScriptedTag + "" == SpontaneousTag + "-" + ScriptedTag;
  }

  /** Matching is case-sensitive: an upper-case tag is not recognised. */
  lemma UpperCaseRejected()
    ensures LoaderFor("SCRIPTED").Err?
  {
    var name := "SCRIPTED";
    forall i | 0 <= i <= |name| - |ScriptedTag| ensures !OccursAt(name, ScriptedTag, i) {
      assert name[i..i + |ScriptedTag|][0] == name[i];
    }
    forall i | 0 <= i < |name| ensures !OccursAt(name, SpontaneousTag, i) {
    }
  }
}

=== FILE: slugs.dfy ===
/**
  Dataset slugs: `slugify` and the slug map built from the dataset cards
  (scripts/generate_slugs.py), and the lookup that turns a slug into a
  dataset id (src/datacollective/slug_utils.py).
 */
module Slugs {
  import opened Base
  import opened Text

  // ------------------------------------------------------------ characters

  /** The class `[\s._-]` whose runs become one hyphen. */
  predicate IsSeparator(c: char) {
    c in Whitespace || c == '.' || c == '_' || c == '-'
  }

  /** What `[^\w-]+` leaves in place on ASCII text: letters, digits, `_` and `-`. */
  predicate IsKept(c: char) {
    'a' <= c <= 'z' || 'A' <= c <= 'Z' || '0' <= c <= '9' || c == '_' || c == '-'
  }

  /** The characters a slug is made of. */
  predicate IsSlugChar(c: char) {
    'a' <= c <= 'z' || '0' <= c <= '9' || c == '-'
  }

  predicate IsSlug(s: string) {
    forall i | 0 <= i < |s| :: IsSlugChar(s[i])
  }

  /** `.encode('ascii', 'ignore').decode('ascii')`: every non-ASCII character is dropped. */
  function AsciiOnly(s: string): (r: string)
    ensures |r| <= |s|
    ensures forall i | 0 <= i < |r| :: r[i] as int < 128 && r[i] in s
  {
    if s == [] then []
    else (if s[0] as int < 128 then [s[0]] else []) + AsciiOnly(s[1..])
  }

  // ------------------------------------------------------------ collapsing

  /** Drops the run of separators at the front. */
  function SkipSeparators(s: string): (r: string)
    ensures |r| <= |s| && r == s[|s| - |r|..]
    ensures r == [] || !IsSeparator(r[0])
    ensures forall i | 0 <= i < |s| - |r| :: IsSeparator(s[i])
  {
    if s != [] && IsSeparator(s[0]) then
      var r := SkipSeparators(s[1..]);
      assert s[1..][|s| - 1 - |r|..] == s[|s| - |r|..];
      assert forall i | 1 <= i < |s| - |r| :: s[i] == s[1..][i - 1];
      r
    else s
  }

  /**
    `re.sub(r'[\s._-]+', '-', s)`: scanning left to right, each maximal run
    of separators is replaced by a single hyphen and every other character
    is kept (`CollapseIsDedupedMarks`, `CollapseNoDoubleHyphen`).
   */
  function Collapse(s: string): (r: string)
    ensures r == [] <==> s == []
    ensures s != [] ==> r[0] == if IsSeparator(s[0]) then '-' else s[0]
    decreases |s|
  {
    if s == [] then []
    else if IsSeparator(s[0]) then "-" + Collapse(SkipSeparators(s[1..]))
    else [s[0]] + Collapse(s[1..])
  }

  /** The rest of the input that `Collapse` continues with after its first character. */
  function CollapseRest(s: string): (t: string)
    requires s != []
    ensures |t| < |s| && Collapse(s) == [Collapse(s)[0]] + Collapse(t)
    ensures forall c | c in t :: c in s
  {
    if IsSeparator(s[0]) then SkipSeparators(s[1..]) else s[1..]
  }

  /** Collapsing leaves no separator other than the hyphen. */
  lemma {:induction false} CollapseOnlyHyphens(s: string)
    ensures forall i | 0 <= i < |Collapse(s)| :: IsSeparator(Collapse(s)[i]) ==> Collapse(s)[i] == '-'
    decreases |s|
  {
    if s != [] {
      var t := CollapseRest(s);
      CollapseOnlyHyphens(t);
      var r := Collapse(s);
      forall i | 0 < i < |r| ensures r[i] == Collapse(t)[i - 1] {
      }
    }
  }

  /** Collapsing never leaves two hyphens in a row. */
  lemma {:induction false} CollapseNoDoubleHyphen(s: string)
    ensures forall i | 0 <= i < |Collapse(s)| - 1 :: !(Collapse(s)[i] == '-' && Collapse(s)[i + 1] == '-')
    decreases |s|
  {
    if s != [] {
      var t := CollapseRest(s);
      CollapseNoDoubleHyphen(t);
      var r := Collapse(s);
      var tail := Collapse(t);
      forall i | 0 < i < |r| ensures r[i] == tail[i - 1] {
      }
      if r[0] == '-' && tail != [] {
        assert IsSeparator(s[0]);
        assert !IsSeparator(t[0]);
        assert r[1] == tail[0] != '-';
      }
    }
  }

  /** Every character collapsing leaves is a hyphen or one of the input's. */
  lemma {:induction false} CollapseFromInput(s: string)
    ensures forall i | 0 <= i < |Collapse(s)| :: Collapse(s)[i] == '-' || Collapse(s)[i] in s
    decreases |s|
  {
    if s != [] {
      var t := CollapseRest(s);
      CollapseFromInput(t);
      var r := Collapse(s);
      forall i | 0 < i < |r| ensures r[i] == Collapse(t)[i - 1] {
      }
    }
  }

  /** Every separator marked as a hyphen, one for one. */
  function Mark(s: string): (r: string)
    ensures |r| == |s|
  {
    if s == [] then [] else [if IsSeparator(s[0]) then '-' else s[0]] + Mark(s[1..])
  }

  /** Drops every hyphen that directly follows another. */
  function Dedupe(t: string): string
    decreases |t|
  {
    if |t| <= 1 then t
    else if t[0] == '-' && t[1] == '-' then Dedupe(t[1..])
    else [t[0]] + Dedupe(t[1..])
  }

  /** A string led by a separator dedupes to one hyphen followed by the rest after its run. */
  lemma {:induction false} DedupeLeadingRun(s: string)
    requires s != [] && IsSeparator(s[0])
    ensures Dedupe(Mark(s)) == "-" + Dedupe(Mark(SkipSeparators(s[1..])))
    decreases |s|
  {
    var t := s[1..];
    if t == [] {
      assert Mark(s) == "-";
    } else if IsSeparator(t[0]) {
      assert Mark(s) == "-" + Mark(t);
      assert Mark(t)[0] == '-';
      DedupeLeadingRun(t);
      assert SkipSeparators(t) == SkipSeparators(t[1..]);
    } else {
      assert Mark(s) == "-" + Mark(t);
      assert Mark(t)[0] == t[0];
      assert SkipSeparators(t) == t;
    }
  }

  /**
    The scan agrees with a two-step reference: mark every separator as a
    hyphen, then drop each hyphen that follows another. So every maximal
    run of separators becomes exactly one hyphen.
   */
  lemma {:induction false} CollapseIsDedupedMarks(s: string)
    ensures Collapse(s) == Dedupe(Mark(s))
    decreases |s|
  {
    if s == [] {
    } else if IsSeparator(s[0]) {
      DedupeLeadingRun(s);
      CollapseIsDedupedMarks(SkipSeparators(s[1..]));
    } else {
      CollapseIsDedupedMarks(s[1..]);
      assert Mark(s) == [s[0]] + Mark(s[1..]);
      if s[1..] == [] {
        assert Mark(s) == [s[0]];
      }
    }
  }

  /** `re.sub(r'[^\w-]+', '', s)` on ASCII text. */
  function RemoveUnkept(s: string): (r: string)
    ensures forall i | 0 <= i < |r| :: IsKept(r[i]) && r[i] in s
  {
    if s == [] then []
    else (if IsKept(s[0]) then [s[0]] else []) + RemoveUnkept(s[1..])
  }

  // ------------------------------------------------------------ slugify

  /** The steps of `slugify` after the ASCII folding: lower, strip, collapse, remove. */
  function SlugOf(t: string): string {
    RemoveUnkept(Collapse(Strip(Lower(t))))
  }

  /**
    `slugify`. The NFKD normalisation is the uninterpreted `nfkd`; dropping
    what is not ASCII afterwards is modelled.
   */
  function Slugify(nfkd: string -> string, value: string): string {
    SlugOf(AsciiOnly(nfkd(value)))
  }

  lemma StripKeepsChars(s: string)
    ensures forall c | c in Strip(s) :: c in s
  {
    TrimIsInfix(s, Whitespace);
  }

  lemma LowerHasNoUpper(s: string)
    ensures forall c | c in Lower(s) :: !('A' <= c <= 'Z')
  {
    forall c | c in Lower(s) ensures !('A' <= c <= 'Z') {
      var k :| 0 <= k < |s| && Lower(s)[k] == c;
    }
  }

  lemma CollapseChars(u: string)
    ensures forall c | c in Collapse(u) :: c != '_' && (c == '-' || c in u)
  {
    var r := Collapse(u);
    CollapseOnlyHyphens(u);
    CollapseFromInput(u);
    forall c | c in r ensures c != '_' && (c == '-' || c in u) {
      var k :| 0 <= k < |r| && r[k] == c;
      assert IsSeparator(r[k]) ==> r[k] == '-';
    }
  }

  /** A slug holds only lower-case ASCII letters, digits and hyphens, whatever the input. */
  lemma SlugAlphabet(nfkd: string -> string, value: string)
    ensures IsSlug(Slugify(nfkd, value))
  {
    var lowered := Lower(AsciiOnly(nfkd(value)));
    var stripped := Strip(lowered);
    var collapsed := Collapse(stripped);
    var r := RemoveUnkept(collapsed);
    LowerHasNoUpper(AsciiOnly(nfkd(value)));
    StripKeepsChars(lowered);
    CollapseChars(stripped);
    forall i | 0 <= i < |r| ensures IsSlugChar(r[i]) {
      var c := r[i];
      assert IsKept(c) && c in collapsed;
      assert c != '_';
      if c != '-' {
        assert c in stripped;
        assert c in lowered;
      }
    }
  }

  /** Lower-casing the input first changes nothing. */
  lemma SlugIgnoresCase(t: string)
    ensures SlugOf(Lower(t)) == SlugOf(t)
  {
    LowerIdempotent(t);
  }

  /** Stripping the input first changes nothing. */
  lemma SlugIgnoresPadding(t: string)
    ensures SlugOf(Strip(t)) == SlugOf(t)
  {
    LowerStripCommute(Strip(t));
    LowerStripCommute(t);
    TrimIdempotent(t, Whitespace);
  }

  /** On ASCII text the normalisation leaves alone, `slugify` is exactly the later steps. */
  lemma SlugifyAscii(nfkd: string -> string, value: string)
    requires nfkd(value) == value
    requires forall i | 0 <= i < |value| :: value[i] as int < 128
    ensures Slugify(nfkd, value) == SlugOf(value)
  {
    var s := value;
    assert AsciiOnly(s) == s by {
      AsciiOnlyKeepsAscii(s);
    }
  }

  lemma {:induction false} AsciiOnlyKeepsAscii(s: string)
    requires forall i | 0 <= i < |s| :: s[i] as int < 128
    ensures AsciiOnly(s) == s
    decreases |s|
  {
    if s != [] {
      AsciiOnlyKeepsAscii(s[1..]);
    }
  }

  /** Text already lower-case and without padding passes the first two steps unchanged. */
  lemma LowerStripFixed(s: string)
    requires forall i | 0 <= i < |s| :: !('A' <= s[i] <= 'Z')
    requires s == [] || (!IsSpace(s[0]) && !IsSpace(s[|s| - 1]))
    ensures Strip(Lower(s)) == s
  {
    assert Lower(s) == s;
    TrimOfTrimmed(s, Whitespace);
  }

  lemma MarkOfBangRun()
    ensures Mark("a-!-b") == "a-!-b"
  {
    assert !IsSeparator('a') && !IsSeparator('!') && !IsSeparator('b');
  }

  lemma DedupeOfBangRun()
    ensures Dedupe("a-!-b") == "a-!-b"
  {
  }

  lemma MarkOfDoubleHyphen()
    ensures Mark("a--b") == "a--b"
  {
    assert !IsSeparator('a') && !IsSeparator('b');
  }

  lemma DedupeOfDoubleHyphen()
    ensures Dedupe("a--b") == "a-b"
  {
  }

  lemma RemoveUnkeptOfBangRun()
    ensures RemoveUnkept("a-!-b") == "a--b"
  {
    assert !IsKept('!');
  }

  lemma RemoveUnkeptOfHyphen()
    ensures RemoveUnkept("a-b") == "a-b"
  {
  }

  /**
    Removal after collapsing can leave two hyphens in a row, which a second
    pass collapses: `slugify` is not idempotent (see `SlugOfCollapsesAgain`).
   */
  lemma SlugLeavesDoubleHyphen()
    ensures SlugOf("a-!-b") == "a--b"
  {
    LowerStripFixed("a-!-b");
    CollapseIsDedupedMarks("a-!-b");
    MarkOfBangRun();
    DedupeOfBangRun();
    RemoveUnkeptOfBangRun();
  }

  /** Applied again to the result of `SlugLeavesDoubleHyphen`, the steps give a different slug. */
  lemma SlugOfCollapsesAgain()
    ensures SlugOf("a--b") == "a-b"
  {
    LowerStripFixed("a--b");
    CollapseIsDedupedMarks("a--b");
    MarkOfDoubleHyphen();
    DedupeOfDoubleHyphen();
    RemoveUnkeptOfHyphen();
  }

  // ------------------------------------------------------------ keys and ids

  /** The key of a dataset: its organisation's slug and its own, joined by `/`. */
  function SlugKey(orgSlug: string, datasetSlug: string): string {
    orgSlug + "/" + datasetSlug
  }

  lemma SlashFree(s: string)
    requires IsSlug(s)
    ensures !Contains(s, "/")
  {
    forall i | 0 <= i < |s| ensures !OccursAt(s, "/", i) {
      assert s[i..i + 1][0] == s[i] && IsSlugChar(s[i]);
    }
  }

  /** A key splits back into the two slugs it was made of. */
  lemma SlugKeySplits(orgSlug: string, datasetSlug: string)
    requires IsSlug(orgSlug) && IsSlug(datasetSlug)
    ensures Split(SlugKey(orgSlug, datasetSlug), "/") == [orgSlug, datasetSlug]
  {
    var k := SlugKey(orgSlug, datasetSlug);
    SlashFree(orgSlug);
    SlashFree(datasetSlug);
    assert OccursAt(k, "/", |orgSlug|) by {
      assert k[|orgSlug|..|orgSlug| + 1] == "/";
    }
    forall j | 0 <= j < |orgSlug| ensures !OccursAt(k, "/", j) {
      assert k[j..j + 1][0] == orgSlug[j];
    }
    assert IndexOf(k, "/") == Some(|orgSlug|);
    assert k[..|orgSlug|] == orgSlug;
    assert k[|orgSlug| + 1..] == datasetSlug;
    assert IndexOf(datasetSlug, "/").None?;
  }

  /** `href.split('/')[-1]`: the text after the last `/`. */
  function DatasetId(href: string): string {
    var pieces := Split(href, "/");
    pieces[|pieces| - 1]
  }

  /** A join ends with its last piece, preceded by the separator when there are several. */
  lemma {:induction false} JoinEndsWithLast(pieces: seq<string>, sep: string)
    requires |pieces| >= 1
    ensures var j := Join(pieces, sep);
            var last := pieces[|pieces| - 1];
            && |last| <= |j| && j[|j| - |last|..] == last
            && (|pieces| > 1 ==> |last| + |sep| <= |j| && j[|j| - |last| - |sep|..|j| - |last|] == sep)
    decreases |pieces|
  {
    if |pieces| > 1 {
      JoinEndsWithLast(pieces[1..], sep);
      var rest := Join(pieces[1..], sep);
      var last := pieces[|pieces| - 1];
      var j := Join(pieces, sep);
      assert j == pieces[0] + sep + rest;
      assert j[|j| - |rest|..] == rest;
      if |pieces| > 2 {
        assert j[|j| - |last| - |sep|..|j| - |last|] == rest[|rest| - |last| - |sep|..|rest| - |last|];
      } else {
        assert rest == last;
      }
    }
  }

  lemma SlashBefore(h: string, n: nat)
    requires n < |h| && h[|h| - n - 1..|h| - n] == "/"
    ensures h[|h| - n - 1] == '/'
  {
    assert h[|h| - n - 1] == h[|h| - n - 1..|h| - n][0];
  }

  /** A `/`-join ends with its last piece, with a `/` just before it unless the piece is everything. */
  lemma LastOfJoin(pieces: seq<string>, j: string)
    requires |pieces| >= 1 && j == Join(pieces, "/")
    ensures var id := pieces[|pieces| - 1];
            && |id| <= |j| && j[|j| - |id|..] == id
            && (|id| < |j| ==> j[|j| - |id| - 1] == '/')
  {
    var id := pieces[|pieces| - 1];
    JoinEndsWithLast(pieces, "/");
    if |pieces| > 1 {
      SlashBefore(j, |id|);
    } else {
      assert j == id;
    }
  }

  /** The id is the tail of the href after its last `/` (all of it when there is none). */
  lemma DatasetIdIsLastSegment(href: string)
    ensures var id := DatasetId(href);
            && |id| <= |href| && href[|href| - |id|..] == id
            && !Contains(id, "/")
            && (|id| < |href| ==> href[|href| - |id| - 1] == '/')
  {
    var pieces := Split(href, "/");
    assert !Contains(pieces[|pieces| - 1], "/");
    LastOfJoin(pieces, href);
  }

  // ------------------------------------------------------------ the slug map

  /**
    What the HTML walk finds on one dataset card: the link (None when
    absent), the text of its `h3` (None when it has none), and the text of
    the organisation `div` (None when the card title or its preceding `div`
    is missing).
   */
  datatype Card = Card(href: Option<string>, name: Option<string>, org: Option<string>)

  /** The script's `slugify`, as one function value the card walk is given. */
  function SlugFn(nfkd: string -> string): string -> string {
    value => Slugify(nfkd, value)
  }

  /**
    The (key, id) pair one card contributes: it needs a link, a name and an
    organisation, and the two slugs and the id must all be non-empty.
    `slug` is the slug function (`SlugFn` in the script).
   */
  function Entry(slug: string -> string, card: Card): (e: Option<(string, string)>)
    ensures e.Some? <==>
              && TruthyStr(card.href) && card.name.Some? && card.org.Some?
              && slug(card.org.value) != [] && slug(card.name.value) != [] && DatasetId(card.href.value) != []
    ensures e.Some? ==> e.value == (SlugKey(slug(card.org.value), slug(card.name.value)), DatasetId(card.href.value))
  {
    if !TruthyStr(card.href) then None
    else
      var datasetId := DatasetId(card.href.value);
      if card.name.None? then None
      else
        var datasetSlug := slug(card.name.value);
        if card.org.None? then None
        else
          var orgSlug := slug(card.org.value);
          if orgSlug != [] && datasetSlug != [] && datasetId != [] then Some((SlugKey(orgSlug, datasetSlug), datasetId))
          else None
  }

  /** The map after the cards, each card overwriting what an earlier one left under its key. */
  function SlugsOf(slug: string -> string, cards: seq<Card>): map<string, string>
    decreases |cards|
  {
    if cards == [] then map[]
    else
      var m := SlugsOf(slug, cards[..|cards| - 1]);
      match Entry(slug, cards[|cards| - 1])
      case Some(e) => m[e.0 := e.1]
      case None => m
  }

  /** Every entry of the map comes from some card. */
  lemma {:induction false} SlugsComeFromCards(slug: string -> string, cards: seq<Card>, key: string)
    requires key in SlugsOf(slug, cards)
    ensures exists j | 0 <= j < |cards| :: Entry(slug, cards[j]) == Some((key, SlugsOf(slug, cards)[key]))
    decreases |cards|
  {
    var init := cards[..|cards| - 1];
    var last := Entry(slug, cards[|cards| - 1]);
    if last.Some? && last.value.0 == key {
      assert Entry(slug, cards[|cards| - 1]) == Some((key, SlugsOf(slug, cards)[key]));
    } else {
      assert SlugsOf(slug, cards)[key] == SlugsOf(slug, init)[key];
      SlugsComeFromCards(slug, init, key);
      var j :| 0 <= j < |init| && Entry(slug, init[j]) == Some((key, SlugsOf(slug, init)[key]));
      assert init[j] == cards[j];
    }
  }

  /** The last card with a given key decides its id. */
  lemma {:induction false} LastCardWins(slug: string -> string, cards: seq<Card>, j: int, key: string, id: string)
    requires 0 <= j < |cards| && Entry(slug, cards[j]) == Some((key, id))
    requires forall l | j < l < |cards| :: Entry(slug, cards[l]).None? || Entry(slug, cards[l]).value.0 != key
    ensures key in SlugsOf(slug, cards) && SlugsOf(slug, cards)[key] == id
    decreases |cards|
  {
    var init := cards[..|cards| - 1];
    if j < |cards| - 1 {
      assert init[j] == cards[j];
      forall l | j < l < |init| ensures Entry(slug, init[l]).None? || Entry(slug, init[l]).value.0 != key {
        assert init[l] == cards[l];
      }
      LastCardWins(slug, init, j, key, id);
    }
  }

  /** Every key the script writes is an organisation slug and a dataset slug, both non-empty, around one `/`; every id is non-empty. */
  lemma SlugKeysWellFormed(nfkd: string -> string, cards: seq<Card>, key: string)
    requires key in SlugsOf(SlugFn(nfkd), cards)
    ensures exists o, d :: IsSlug(o) && IsSlug(d) && o != [] && d != [] && key == SlugKey(o, d) && Split(key, "/") == [o, d]
    ensures SlugsOf(SlugFn(nfkd), cards)[key] != []
  {
    var slug := SlugFn(nfkd);
    var m := SlugsOf(slug, cards);
    SlugsComeFromCards(slug, cards, key);
    var j :| 0 <= j < |cards| && Entry(slug, cards[j]) == Some((key, m[key]));
    var card := cards[j];
    var o := slug(card.org.value);
    var d := slug(card.name.value);
    SlugAlphabet(nfkd, card.org.value);
    SlugAlphabet(nfkd, card.name.value);
    SlugKeySplits(o, d);
  }

  /**
    The script: no HTML file means nothing is written; otherwise the cards
    are walked in order, and the map is written only when it is not empty.
   */
  method GenerateSlugs(nfkd: string -> string, html: Option<seq<Card>>) returns (written: Option<map<string, string>>)
    ensures html.None? ==> written.None?
    ensures html.Some? ==> written == if SlugsOf(SlugFn(nfkd), html.value) == map[] then None else Some(SlugsOf(SlugFn(nfkd), html.value))
  {
    if html.None? {
      return None;
    }
    var slug := SlugFn(nfkd);
    var cards := html.value;
    var slugs: map<string, string> := map[];
    var i := 0;
    while i < |cards|
      invariant 0 <= i <= |cards|
      invariant slugs == SlugsOf(slug, cards[..i])
    {
      assert cards[..i + 1][..i] == cards[..i];
      var entry := Entry(slug, cards[i]);
      if entry.Some? {
        slugs := slugs[entry.value.0 := entry.value.1];
      }
      i := i + 1;
    }
    assert cards[..i] == cards;
    written := if slugs == map[] then None else Some(slugs);
  }

  // ------------------------------------------------------------ lookup

  /** `_load_slugs`: a missing slugs file reads as the empty map. */
  function LoadSlugs(file: Option<map<string, string>>): (m: map<string, string>)
    ensures file.None? ==> m == map[]
    ensures file.Some? ==> m == file.value
  {
    file.GetOr(map[])
  }

  /**
    `resolve_slug_or_id`: a known slug gives its id and anything else is
    returned as it is.
   */
  function ResolveSlugOrId(file: Option<map<string, string>>, slugOrId: string): (r: string)
    ensures slugOrId in LoadSlugs(file) ==> r == LoadSlugs(file)[slugOrId]
    ensures slugOrId !in LoadSlugs(file) ==> r == slugOrId
    ensures file.None? ==> r == slugOrId
  {
    var slugs := LoadSlugs(file);
    if slugOrId in slugs then slugs[slugOrId] else slugOrId
  }

  /**
    Looking up, in the map the script wrote, the key of the last card that
    carries it gives that card's id; a string that is no key comes back
    unchanged.
   */
  lemma ResolveGeneratedSlug(nfkd: string -> string, html: seq<Card>, j: int, key: string, id: string)
    requires 0 <= j < |html| && Entry(SlugFn(nfkd), html[j]) == Some((key, id))
    requires forall l | j < l < |html| :: Entry(SlugFn(nfkd), html[l]).None? || Entry(SlugFn(nfkd), html[l]).value.0 != key
    ensures ResolveSlugOrId(Some(SlugsOf(SlugFn(nfkd), html)), key) == id
  {
    LastCardWins(SlugFn(nfkd), html, j, key, id);
  }

  /** A string that is no slug key, in particular any dataset id without a `/`, resolves to itself. */
  lemma ResolveIdUnchanged(nfkd: string -> string, html: seq<Card>, id: string)
    requires !Contains(id, "/")
    ensures ResolveSlugOrId(Some(SlugsOf(SlugFn(nfkd), html)), id) == id
  {
    if id in SlugsOf(SlugFn(nfkd), html) {
      SlugKeysWellFormed(nfkd, html, id);
      var o, d :| IsSlug(o) && IsSlug(d) && o != [] && d != [] && id == SlugKey(o, d) && Split(id, "/") == [o, d];
      assert OccursAt(id, "/", |o|) by {
        assert id[|o|..|o| + 1] == "/";
      }
    }
  }
}

=== FILE: submissions.dfy ===
/**
  Dataset submissions (src/datacollective/submissions.py): creating a draft,
  submitting it for review, and the helper that runs draft, upload and
  submit in sequence and reconciles the submitted `fileUploadId` with the
  upload that was completed.
 */
module Submissions {
  import opened Base
  import opened Text
  import opened Models
  import opened UploadRecords
  import Api
  import Upload

  const NoSubmissionId: string := "Draft creation did not return a submissionId"

  function DraftUrl(env: Api.Env): string {
    Api.ApiUrl(env) + "/datasets/submission"
  }

  function SubmitUrl(env: Api.Env, submissionId: string): string {
    Api.ApiUrl(env) + "/datasets/submission/" + submissionId + "/submit"
  }

  // ------------------------------------------------------------ draft

  function DraftPayload(name: string, longDescription: string): map<string, Json> {
    map["name" := JStr(name), "longDescription" := JStr(longDescription)]
  }

  /**
    The draft schema checks `name` before `longDescription`; each is
    stripped, and a blank one is rejected under its own name.
   */
  lemma DraftValidation(name: string, longDescription: string)
    ensures ValidateDraftInput(DraftPayload(name, longDescription))
         == if IsBlank(name) then Err(InvalidArgument("name"))
            else if IsBlank(longDescription) then Err(InvalidArgument("longDescription"))
            else Ok(DraftPayload(Strip(name), Strip(longDescription)))
  {
    var payload := DraftPayload(name, longDescription);
    var nameSpec := FieldSpec("name", StrField, None);
    var descSpec := FieldSpec("longDescription", StrField, None);
    assert DraftSpecs == [nameSpec, descSpec];
    assert DraftSpecs[..1] == [nameSpec];
    assert DraftSpecs[..1][..0] == [];
    assert Names(DraftSpecs) == {"name", "longDescription"};
    assert !exists k | k in payload :: k !in Names(DraftSpecs);
    DraftSpecsDistinct();
    assert ValidateDraftInput(payload) == ValidateFields(DraftSpecs, payload, true);
    var first := ValidateFields(DraftSpecs[..1], payload, true);
    assert first == (if IsBlank(name) then Err(InvalidArgument("name")) else Ok(map["name" := JStr(Strip(name))])) by {
      assert ValidateFields(DraftSpecs[..1][..0], payload, true) == Ok(map[]);
    }
    assert ValidateField(descSpec, payload, true)
        == (if IsBlank(longDescription) then Err(InvalidArgument("longDescription")) else Ok(JStr(Strip(longDescription))));
  }

  /**
    `create_submission_draft`: the two fields are validated, then posted;
    the response object is returned as it is.
   */
  function CreateSubmissionDraft(env: Api.Env, send: Api.Request -> Api.Response,
                                 name: string, longDescription: string): (r: Result<map<string, Json>>)
    ensures IsBlank(name) ==> r == Err(InvalidArgument("name"))
    ensures !IsBlank(name) && IsBlank(longDescription) ==> r == Err(InvalidArgument("longDescription"))
    ensures !IsBlank(name) && !IsBlank(longDescription) ==>
              r == Api.CallJson(env, "POST", DraftUrl(env), JObj(DraftPayload(Strip(name), Strip(longDescription))), send)
  {
    DraftValidation(name, longDescription);
    var payload :- ValidateDraftInput(DraftPayload(name, longDescription));
    Api.CallJson(env, "POST", DraftUrl(env), JObj(payload), send)
  }

  // ------------------------------------------------------------ submit

  /**
    The datasheet fields as the caller passes them: a model instance that
    was validated already (held as its dump), or a plain dictionary.
   */
  datatype SubmitFields = Instance(dump: map<string, Json>) | Dict(payload: map<string, Json>)

  /** `DatasetSubmissionSubmitInput.model_validate(fields)`: an instance is returned as it is, a dictionary is validated. */
  function ModelValidate(fields: SubmitFields): (r: Result<map<string, Json>>)
    ensures fields.Instance? ==> r == Ok(fields.dump)
    ensures fields.Dict? ==> r == ValidateSubmitInput(fields.payload)
  {
    match fields
    case Instance(dump) => Ok(dump)
    case Dict(payload) => ValidateSubmitInput(payload)
  }

  /** The dictionary the helper starts from: an instance's `model_dump()` or a copy of the dictionary. */
  function PayloadOf(fields: SubmitFields): map<string, Json> {
    match fields
    case Instance(dump) => dump
    case Dict(payload) => payload
  }

  /**
    `submit_submission`: a blank id is rejected before the fields are
    validated, and both before the fields are posted to the submission's
    submit endpoint.
   */
  function SubmitSubmission(env: Api.Env, send: Api.Request -> Api.Response,
                            submissionId: string, fields: SubmitFields): (r: Result<map<string, Json>>)
    ensures IsBlank(submissionId) ==> r == Err(InvalidArgument("submission_id"))
    ensures !IsBlank(submissionId) && ModelValidate(fields).Err? ==> r == Err(ModelValidate(fields).error)
    ensures !IsBlank(submissionId) && ModelValidate(fields).Ok? ==>
              r == Api.CallJson(env, "POST", SubmitUrl(env, submissionId), JObj(ModelValidate(fields).value), send)
  {
    if IsBlank(submissionId) then Err(InvalidArgument("submission_id"))
    else
      var body :- ModelValidate(fields);
      Api.CallJson(env, "POST", SubmitUrl(env, submissionId), JObj(body), send)
  }

  /** A blank id or invalid fields are refused whatever the server would have answered. */
  lemma SubmitGuardsPrecedeRequest(env: Api.Env, send1: Api.Request -> Api.Response, send2: Api.Request -> Api.Response,
                                   submissionId: string, fields: SubmitFields)
    requires IsBlank(submissionId) || ModelValidate(fields).Err?
    ensures SubmitSubmission(env, send1, submissionId, fields) == SubmitSubmission(env, send2, submissionId, fields)
    ensures SubmitSubmission(env, send1, submissionId, fields).Err?
  {
  }

  /**
    Validating an already validated instance again is the identity, so
    submitting the validated fields of a dictionary is submitting the
    dictionary.
   */
  lemma SubmitValidatedDict(env: Api.Env, send: Api.Request -> Api.Response, submissionId: string,
                            payload: map<string, Json>)
    requires ValidateSubmitInput(payload).Ok?
    ensures SubmitSubmission(env, send, submissionId, Instance(ValidateSubmitInput(payload).value))
         == SubmitSubmission(env, send, submissionId, Dict(payload))
  {
  }

  /**
    The submitted upload id is the one put into the payload, stripped like
    every string field; it is the id itself when the server issued it
    without surrounding whitespace.
   */
  lemma SubmittedUploadId(payload: map<string, Json>, fileUploadId: string)
    ensures var p := payload["fileUploadId" := JStr(fileUploadId)];
            ValidateSubmitInput(p).Ok? ==> ValidateSubmitInput(p).value["fileUploadId"] == JStr(Strip(fileUploadId))
    ensures IsBlank(fileUploadId) ==> ValidateSubmitInput(payload["fileUploadId" := JStr(fileUploadId)]).Err?
  {
    var p := payload["fileUploadId" := JStr(fileUploadId)];
    SubmitSpecsDistinct();
    assert SubmitSpecs[23] == FieldSpec("fileUploadId", OptStrField, Some(JNull));
    ValidateModelTrimsStrings(SubmitSpecs, p, 23);
  }

  // ------------------------------------------------------------ the helper

  /** `response.setdefault(key, value)`: an existing entry is kept, a missing one is added. */
  function SetDefault(m: map<string, Json>, key: string, value: Json): (r: map<string, Json>)
    ensures r.Keys == m.Keys + {key}
    ensures forall k | k in m :: r[k] == m[k]
    ensures key !in m ==> r[key] == value
  {
    if key in m then m else m[key := value]
  }

  /** The two submission endpoints the helper calls. */
  datatype Service = Service(
    draft: (string, string) -> Result<map<string, Json>>,
    submit: (string, SubmitFields) -> Result<map<string, Json>>)

  /** The library's own submission endpoints. */
  function Endpoints(env: Api.Env, send: Api.Request -> Api.Response): Service {
    Service(
      (name, longDescription) => CreateSubmissionDraft(env, send, name, longDescription),
      (submissionId, fields) => SubmitSubmission(env, send, submissionId, fields))
  }

  /**
    The upload step of the helper, `upload_dataset_file`: the state it
    completes belongs to the submission and carries the checksum of the
    whole file.
   */
  method UploadForSubmission(server: Upload.Server, codecs: Codecs, filePath: string, file: Option<Upload.LocalFile>,
                             submissionId: string, mimeType: string, filename: Option<string>,
                             loaded: Result<Option<UploadState>>, resume: bool)
    returns (r: Result<UploadState>, effects: seq<Upload.Effect>)
    requires loaded.Ok? && loaded.value.Some? ==> Usable(loaded.value.value)
    ensures IsBlank(submissionId) ==> r.Err? && effects == []
    ensures r.Ok? ==> r.value.submissionId == submissionId && file.Some? && 0 < file.value.size <= |file.value.contents|
    ensures r.Ok? ==> r.value.checksum == JStr(codecs.hex(codecs.sha256(file.value.contents[..file.value.size])))
  {
    r, effects := Upload.UploadDatasetFile(server, codecs, filePath, file, submissionId, mimeType, filename, loaded, resume);
  }

  /** The steps of `create_submission_with_upload` that completed, in order. */
  datatype Step =
    | Drafted(draft: map<string, Json>)
    | Uploaded(state: UploadState, effects: seq<Upload.Effect>)
    | Submitted(submissionId: string, payload: map<string, Json>, body: map<string, Json>, response: map<string, Json>)

  /** The caller's payload names an upload other than the completed one. */
  predicate ConflictingUploadId(payload: map<string, Json>, fileUploadId: string) {
    "fileUploadId" in payload && Truthy(payload["fileUploadId"]) && payload["fileUploadId"] != JStr(fileUploadId)
  }

  /**
    The tail of the helper once the upload completed: a payload naming
    another upload is refused, otherwise it is pointed at the completed
    upload, validated and submitted as a model instance, and the response
    gets the upload id when it lacks one.
   */
  method SubmitForUpload(service: Service, submissionId: string, fields: SubmitFields, state: UploadState)
    returns (r: Result<map<string, Json>>, sent: Option<Step>)
    ensures ConflictingUploadId(PayloadOf(fields), state.fileUploadId) ==> r == Err(InvalidArgument("fileUploadId"))
    ensures sent.Some? <==> r.Ok?
    ensures r.Ok? ==>
              && sent.value.Submitted?
              && sent.value.submissionId == submissionId
              && sent.value.payload == PayloadOf(fields)["fileUploadId" := JStr(state.fileUploadId)]
              && !ConflictingUploadId(PayloadOf(fields), state.fileUploadId)
              && ValidateSubmitInput(sent.value.payload) == Ok(sent.value.body)
              && service.submit(submissionId, Instance(sent.value.body)) == Ok(sent.value.response)
              && r.value == SetDefault(sent.value.response, "fileUploadId", JStr(state.fileUploadId))
  {
    sent := None;
    var payload := PayloadOf(fields);
    if ConflictingUploadId(payload, state.fileUploadId) {
      r := Err(InvalidArgument("fileUploadId"));
      return;
    }
    payload := payload["fileUploadId" := JStr(state.fileUploadId)];
    var validated := ValidateSubmitInput(payload);
    if validated.Err? {
      r := Err(validated.error);
      return;
    }
    var response := service.submit(submissionId, Instance(validated.value));
    if response.Err? {
      r := Err(response.error);
      return;
    }
    sent := Some(Submitted(submissionId, payload, validated.value, response.value));
    r := Ok(SetDefault(response.value, "fileUploadId", JStr(state.fileUploadId)));
  }

  /**
    `create_submission_with_upload`: create a draft, upload the file under
    the draft's submission id, reconcile `fileUploadId`, submit, and fill in
    the upload id when the response lacks one.
   */
  method CreateSubmissionWithUpload(service: Service, server: Upload.Server, codecs: Codecs, filePath: string,
                                    file: Option<Upload.LocalFile>, name: string, longDescription: string,
                                    fields: SubmitFields, mimeType: string, filename: Option<string>,
                                    loaded: Result<Option<UploadState>>, resume: bool)
    returns (r: Result<map<string, Json>>, steps: seq<Step>)
    requires loaded.Ok? && loaded.value.Some? ==> Usable(loaded.value.value)
    ensures var draft := service.draft(name, longDescription);
            && (draft.Err? ==> r == Err(draft.error) && steps == [])
            && (draft.Ok? ==> 1 <= |steps| && steps[0] == Drafted(draft.value))
            && (draft.Ok? && !TruthyField(draft.value, "submissionId") ==> r == Err(Runtime(NoSubmissionId)) && steps == [Drafted(draft.value)])
    ensures |steps| <= 3
    ensures |steps| >= 2 ==>
              && steps[0].Drafted? && "submissionId" in steps[0].draft && steps[0].draft["submissionId"].JStr?
              && steps[1].Uploaded? && steps[1].state.submissionId == steps[0].draft["submissionId"].s
              && file.Some? && 0 < file.value.size <= |file.value.contents|
              && steps[1].state.checksum == JStr(codecs.hex(codecs.sha256(file.value.contents[..file.value.size])))
    ensures |steps| >= 2 && ConflictingUploadId(PayloadOf(fields), steps[1].state.fileUploadId)
            ==> r == Err(InvalidArgument("fileUploadId")) && |steps| == 2
    ensures r.Ok? ==>
              && |steps| == 3 && steps[2].Submitted?
              && var state := steps[1].state;
              && var sent := steps[2];
              && steps[0].draft["submissionId"] == JStr(sent.submissionId)
              && !ConflictingUploadId(PayloadOf(fields), state.fileUploadId)
              && sent.payload == PayloadOf(fields)["fileUploadId" := JStr(state.fileUploadId)]
              && ValidateSubmitInput(sent.payload) == Ok(sent.body)
              && service.submit(sent.submissionId, Instance(sent.body)) == Ok(sent.response)
              && r.value == SetDefault(sent.response, "fileUploadId", JStr(state.fileUploadId))
  {
    steps := [];
    var draft := service.draft(name, longDescription);
    if draft.Err? {
      r := Err(draft.error);
      return;
    }
    steps := [Drafted(draft.value)];
    if !TruthyField(draft.value, "submissionId") {
      r := Err(Runtime(NoSubmissionId));
      return;
    }
    var idField := draft.value["submissionId"];
    if !idField.JStr? {
      r := Err(Malformed("submissionId"));
      return;
    }
    var submissionId := idField.s;
    var uploaded, effects := UploadForSubmission(server, codecs, filePath, file, submissionId, mimeType, filename, loaded, resume);
    if uploaded.Err? {
      r := Err(uploaded.error);
      return;
    }
    steps := steps + [Uploaded(uploaded.value, effects)];
    var sent;
    r, sent := SubmitForUpload(service, submissionId, fields, uploaded.value);
    if sent.Some? {
      steps := steps + [sent.value];
    }
  }
}

=== FILE: text.dfy ===
/**
  The string rules of Python's `str` that the library leans on: `strip`,
  `rstrip`, `lower`, decimal formatting and parsing, substring search and
  `split`.
 */
module Text {
  import opened Base

  /** The characters for which Python's `str.isspace()` holds; the regex class `\s` matches the same set. */
  const Whitespace: set<char> := {
    '\t', '\n', '\U{000B}', '\U{000C}', '\r',
    '\U{001C}', '\U{001D}', '\U{001E}', '\U{001F}', ' ',
    '\U{0085}', '\U{00A0}', '\U{1680}',
    '\U{2000}', '\U{2001}', '\U{2002}', '\U{2003}', '\U{2004}', '\U{2005}',
    '\U{2006}', '\U{2007}', '\U{2008}', '\U{2009}', '\U{200A}',
    '\U{2028}', '\U{2029}', '\U{202F}', '\U{205F}', '\U{3000}'
  }

  predicate IsSpace(c: char) {
    c in Whitespace
  }

  /** True of the empty string and of strings made only of whitespace (`not s.strip()`). */
  predicate IsBlank(s: string) {
    forall i | 0 <= i < |s| :: IsSpace(s[i])
  }

  /** Drops the longest prefix made of characters in `drop` (`s.lstrip(drop)`). */
  function TrimStart(s: string, drop: set<char>): (r: string)
    ensures |r| <= |s| && r == s[|s| - |r|..]
    ensures forall i | 0 <= i < |s| - |r| :: s[i] in drop
    ensures r == [] || r[0] !in drop
    decreases |s|
  {
    if |s| > 0 && s[0] in drop then TrimStart(s[1..], drop) else s
  }

  /** Drops the longest suffix made of characters in `drop` (`s.rstrip(drop)`). */
  function TrimEnd(s: string, drop: set<char>): (r: string)
    ensures |r| <= |s| && r == s[..|r|]
    ensures forall i | |r| <= i < |s| :: s[i] in drop
    ensures r == [] || r[|r| - 1] !in drop
    decreases |s|
  {
    if |s| > 0 && s[|s| - 1] in drop then TrimEnd(s[..|s| - 1], drop) else s
  }

  /** `s.strip(drop)`: the infix left once both ends are cleared of `drop`. */
  function Trim(s: string, drop: set<char>): (r: string)
    ensures |r| <= |s|
    ensures r == [] || (r[0] !in drop && r[|r| - 1] !in drop)
  {
    TrimEnd(TrimStart(s, drop), drop)
  }

  /** `r` is what is left of `s` once `i` leading and some trailing characters of `drop` are cut off. */
  ghost predicate TrimmedAt(s: string, drop: set<char>, i: int, r: string) {
    && 0 <= i <= |s| - |r|
    && r == s[i..i + |r|]
    && (forall j | 0 <= j < i :: s[j] in drop)
    && (forall j | i + |r| <= j < |s| :: s[j] in drop)
  }

  /** Trimming keeps an infix of `s` and cuts only characters of `drop` around it. */
  lemma TrimIsInfix(s: string, drop: set<char>)
    ensures exists i :: TrimmedAt(s, drop, i, Trim(s, drop))
  {
    var a := TrimStart(s, drop);
    var r := TrimEnd(a, drop);
    var i := |s| - |a|;
    assert r == Trim(s, drop);
    assert a == s[i..];
    assert r == a[..|r|];
    assert a[..|r|] == s[i..i + |r|];
    forall j | i + |r| <= j < |s| ensures s[j] in drop {
      assert s[j] == a[j - i] && |r| <= j - i < |a|;
    }
    assert forall j | 0 <= j < i :: s[j] in drop;
    assert TrimmedAt(s, drop, i, r);
  }

  /** Trimming leaves nothing exactly when every character is in `drop`. */
  lemma TrimEmpty(s: string, drop: set<char>)
    ensures Trim(s, drop) == [] <==> forall i | 0 <= i < |s| :: s[i] in drop
  {
    var a := TrimStart(s, drop);
    var i := |s| - |a|;
    assert forall j | i <= j < |s| :: s[j] == a[j - i];
  }

  /** `s.strip()`. */
  function Strip(s: string): (r: string)
    ensures r == [] <==> IsBlank(s)
    ensures r == [] || (!IsSpace(r[0]) && !IsSpace(r[|r| - 1]))
  {
    TrimEmpty(s, Whitespace);
    Trim(s, Whitespace)
  }

  /** Trimming an already trimmed string changes nothing. */
  lemma TrimIdempotent(s: string, drop: set<char>)
    ensures Trim(Trim(s, drop), drop) == Trim(s, drop)
  {
    var t := Trim(s, drop);
    assert TrimStart(t, drop) == t;
    assert TrimEnd(t, drop) == t;
  }

  function LowerChar(c: char): char {
    if 'A' <= c <= 'Z' then (c as int + 32) as char else c
  }

  function UpperChar(c: char): char {
    if 'a' <= c <= 'z' then (c as int - 32) as char else c
  }

  /** `s.lower()` on the ASCII letters, which are all it ever meets here. */
  function Lower(s: string): (r: string)
    ensures |r| == |s|
    ensures forall i | 0 <= i < |s| :: r[i] == LowerChar(s[i])
  {
    seq(|s|, i requires 0 <= i < |s| => LowerChar(s[i]))
  }

  /** `s.upper()` on the ASCII letters. */
  function Upper(s: string): (r: string)
    ensures |r| == |s|
    ensures forall i | 0 <= i < |s| :: r[i] == UpperChar(s[i])
  {
    seq(|s|, i requires 0 <= i < |s| => UpperChar(s[i]))
  }

  /** No ASCII letter is whitespace, so changing case keeps a character's whitespace status. */
  lemma CaseKeepsSpace(c: char)
    ensures LowerChar(c) in Whitespace <==> c in Whitespace
    ensures UpperChar(c) in Whitespace <==> c in Whitespace
  {
  }

  /** Lower-casing is idempotent. */
  lemma LowerIdempotent(s: string)
    ensures Lower(Lower(s)) == Lower(s)
  {
  }

  /** Lower-casing commutes with stripping whitespace, since no letter is whitespace. */
  lemma {:induction false} LowerTrimStartCommute(s: string)
    ensures TrimStart(Lower(s), Whitespace) == Lower(TrimStart(s, Whitespace))
    decreases |s|
  {
    if |s| > 0 {
      CaseKeepsSpace(s[0]);
      if s[0] in Whitespace {
        assert Lower(s)[1..] == Lower(s[1..]);
        LowerTrimStartCommute(s[1..]);
      }
    }
  }

  lemma {:induction false} LowerTrimEndCommute(s: string)
    ensures TrimEnd(Lower(s), Whitespace) == Lower(TrimEnd(s, Whitespace))
    decreases |s|
  {
    if |s| > 0 {
      CaseKeepsSpace(s[|s| - 1]);
      if s[|s| - 1] in Whitespace {
        assert Lower(s)[..|s| - 1] == Lower(s[..|s| - 1]);
        LowerTrimEndCommute(s[..|s| - 1]);
      }
    }
  }

  lemma LowerStripCommute(s: string)
    ensures Strip(Lower(s)) == Lower(Strip(s))
  {
    LowerTrimStartCommute(s);
    LowerTrimEndCommute(TrimStart(s, Whitespace));
  }

  // ---------------------------------------------------------------- decimals

  predicate IsDigit(c: char) {
    '0' <= c <= '9'
  }

  predicate AllDigits(s: string) {
    forall i | 0 <= i < |s| :: IsDigit(s[i])
  }

  function DigitChar(d: int): (c: char)
    requires 0 <= d < 10
    ensures IsDigit(c)
  {
    ('0' as int + d) as char
  }

  function DigitValue(c: char): (d: int)
    requires IsDigit(c)
    ensures 0 <= d < 10
  {
    c as int - '0' as int
  }

  /** Python's `str(n)` for a natural number. */
  function NatToString(n: nat): (r: string)
    ensures |r| >= 1 && AllDigits(r)
    decreases n
  {
    if n < 10 then [DigitChar(n)] else NatToString(n / 10) + [DigitChar(n % 10)]
  }

  /** The value of a run of decimal digits. */
  function ParseNat(s: string): nat
    requires AllDigits(s)
    decreases |s|
  {
    if s == [] then 0 else ParseNat(s[..|s| - 1]) * 10 + DigitValue(s[|s| - 1])
  }

  /** Formatting a number and reading it back gives the number. */
  lemma {:induction false} ParseNatOfNatToString(n: nat)
    ensures ParseNat(NatToString(n)) == n
    decreases n
  {
    if n >= 10 {
      var s := NatToString(n);
      assert s[..|s| - 1] == NatToString(n / 10);
      ParseNatOfNatToString(n / 10);
    }
  }

  /** Python's `str(i)` for any integer. */
  function IntToString(i: int): (r: string)
    ensures |r| >= 1
    ensures i < 0 <==> r[0] == '-'
    ensures i >= 0 ==> AllDigits(r)
  {
    if i < 0 then "-" + NatToString(-i) else NatToString(i)
  }

  /** Distinct integers print differently. */
  lemma IntToStringInjective(a: int, b: int)
    requires IntToString(a) == IntToString(b)
    ensures a == b
  {
    ParseSignedOfIntToString(a);
    ParseSignedOfIntToString(b);
  }

  // ------------------------------------------------------ substring search

  /** `sub` occurs in `s` starting at position `i`. */
  predicate OccursAt(s: string, sub: string, i: int) {
    0 <= i && i + |sub| <= |s| && s[i..i + |sub|] == sub
  }

  /** Occurrences in a suffix are occurrences in the whole string, shifted. */
  lemma OccursInSuffix(s: string, sub: string, k: nat, i: int)
    requires k <= |s|
    ensures OccursAt(s[k..], sub, i) <==> 0 <= i && OccursAt(s, sub, i + k)
  {
    if 0 <= i && i + |sub| <= |s| - k {
      assert s[k..][i..i + |sub|] == s[i + k..i + k + |sub|];
    }
  }

  /** Occurrences in a prefix that end inside it are occurrences in the whole string. */
  lemma OccursInPrefix(s: string, sub: string, k: nat, i: int)
    requires k <= |s|
    ensures OccursAt(s[..k], sub, i) <==> i + |sub| <= k && OccursAt(s, sub, i)
  {
    if 0 <= i && i + |sub| <= k {
      assert s[..k][i..i + |sub|] == s[i..i + |sub|];
    }
  }

  /** `sub in s`. */
  function Contains(s: string, sub: string): (b: bool)
    ensures b <==> exists i :: OccursAt(s, sub, i)
    decreases |s|
  {
    if OccursAt(s, sub, 0) then true
    else if |s| <= |sub| then
      assert forall i | OccursAt(s, sub, i) :: i == 0;
      false
    else
      var rest := Contains(s[1..], sub);
      assert forall i :: OccursAt(s[1..], sub, i) <==> 0 <= i && OccursAt(s, sub, i + 1) by {
        forall i { OccursInSuffix(s, sub, 1, i); }
      }
      assert forall i | OccursAt(s, sub, i) :: i == 0 || OccursAt(s[1..], sub, i - 1);
      rest
  }

  /** The position of the first occurrence of `sep` in `s` (`s.find(sep)`). */
  function IndexOf(s: string, sep: string): (r: Option<nat>)
    requires |sep| > 0
    ensures r.Some? ==> OccursAt(s, sep, r.value)
    ensures r.Some? ==> forall j | 0 <= j < r.value :: !OccursAt(s, sep, j)
    ensures r.None? ==> forall j :: !OccursAt(s, sep, j)
    decreases |s|
  {
    if |s| < |sep| then None
    else if OccursAt(s, sep, 0) then Some(0)
    else
      var t := s[1..];
      assert forall j :: OccursAt(t, sep, j) <==> 0 <= j && OccursAt(s, sep, j + 1) by {
        forall j { OccursInSuffix(s, sep, 1, j); }
      }
      assert forall j | OccursAt(s, sep, j) :: j == 0 || OccursAt(t, sep, j - 1);
      match IndexOf(t, sep)
      case None => None
      case Some(k) => Some(k + 1)
  }

  /** Joins pieces with `sep` between consecutive ones (`sep.join(pieces)`). */
  function Join(pieces: seq<string>, sep: string): string
    requires |pieces| >= 1
    decreases |pieces|
  {
    if |pieces| == 1 then pieces[0] else pieces[0] + sep + Join(pieces[1..], sep)
  }

  /** `s.split(sep)`: cuts at every non-overlapping occurrence, left to right. */
  function Split(s: string, sep: string): (r: seq<string>)
    requires |sep| > 0
    ensures |r| >= 1
    ensures Join(r, sep) == s
    ensures forall k | 0 <= k < |r| :: !Contains(r[k], sep)
    decreases |s|
  {
    match IndexOf(s, sep)
    case None =>
      assert !Contains(s, sep);
      [s]
    case Some(i) =>
      var head := s[..i];
      assert forall j :: OccursAt(head, sep, j) ==> OccursAt(s, sep, j) && j < i by {
        forall j { OccursInPrefix(s, sep, i, j); }
      }
      var tail := Split(s[i + |sep|..], sep);
      assert s == head + sep + s[i + |sep|..];
      [head] + tail
  }

  // ------------------------------------------------------ Python conversions

  /** A string whose ends are not in `drop` is left alone by trimming. */
  lemma TrimOfTrimmed(s: string, drop: set<char>)
    requires s == [] || (s[0] !in drop && s[|s| - 1] !in drop)
    ensures Trim(s, drop) == s
  {
    var a := TrimStart(s, drop);
    assert |s| - |a| > 0 ==> s[0] in drop;
    assert a == s;
  }

  /** Leading characters of `drop` in front of a string that starts outside `drop` are all cut. */
  lemma TrimStartPadded(pre: string, s: string, drop: set<char>)
    requires forall i | 0 <= i < |pre| :: pre[i] in drop
    requires s != [] && s[0] !in drop
    ensures TrimStart(pre + s, drop) == s
  {
    var x := pre + s;
    var a := TrimStart(x, drop);
    assert x[|pre|] == s[0];
    assert forall i | 0 <= i < |pre| :: x[i] in drop;
    assert a[0] == x[|x| - |a|];
    assert |x| - |a| == |pre|;
    assert a == x[|pre|..];
  }

  /** Trailing characters of `drop` after a string that ends outside `drop` are all cut. */
  lemma TrimEndPadded(s: string, post: string, drop: set<char>)
    requires forall i | 0 <= i < |post| :: post[i] in drop
    requires s != [] && s[|s| - 1] !in drop
    ensures TrimEnd(s + post, drop) == s
  {
    var x := s + post;
    var a := TrimEnd(x, drop);
    assert x[|s| - 1] == s[|s| - 1];
    assert forall i | |s| <= i < |x| :: x[i] == post[i - |s|];
    assert a[|a| - 1] == x[|a| - 1];
    assert |a| == |s|;
    assert a == x[..|s|];
  }

  /** Trimming removes exactly the padding of `drop` around a string whose ends are outside `drop`. */
  lemma TrimPadded(pre: string, s: string, post: string, drop: set<char>)
    requires forall i | 0 <= i < |pre| :: pre[i] in drop
    requires forall i | 0 <= i < |post| :: post[i] in drop
    requires s != [] && s[0] !in drop && s[|s| - 1] !in drop
    ensures Trim(pre + s + post, drop) == s
  {
    assert pre + s + post == pre + (s + post);
    TrimStartPadded(pre, s + post, drop);
    TrimEndPadded(s, post, drop);
  }

  /** An optional sign followed by at least one decimal digit. */
  function ParseSigned(t: string): Option<int> {
    if t != [] && (t[0] == '-' || t[0] == '+') then
      var digits := t[1..];
      if digits != [] && AllDigits(digits) then
        var n: int := ParseNat(digits);
        Some(if t[0] == '-' then -n else n)
      else None
    else if t != [] && AllDigits(t) then Some(ParseNat(t))
    else None
  }

  /**
    Python's `int(text)`: surrounding whitespace is ignored, then an optional
    sign and at least one decimal digit; anything else raises (None here).
   */
  function ParseIntText(s: string): Option<int> {
    ParseSigned(Strip(s))
  }

  lemma ParseSignedOfIntToString(i: int)
    ensures ParseSigned(IntToString(i)) == Some(i)
  {
    var s := IntToString(i);
    if i < 0 {
      assert s[1..] == NatToString(-i);
      ParseNatOfNatToString(-i);
    } else {
      ParseNatOfNatToString(i);
    }
  }

  lemma StripOfIntToString(i: int)
    ensures Strip(IntToString(i)) == IntToString(i)
  {
    var s := IntToString(i);
    assert !IsSpace(s[0]) && !IsSpace(s[|s| - 1]) by {
      if i < 0 {
        assert s[|s| - 1] == NatToString(-i)[|NatToString(-i)| - 1];
      }
    }
    TrimOfTrimmed(s, Whitespace);
  }

  /** Reading back a printed integer gives the integer. */
  lemma ParseIntTextOfIntToString(i: int)
    ensures ParseIntText(IntToString(i)) == Some(i)
  {
    StripOfIntToString(i);
    ParseSignedOfIntToString(i);
  }

  /** Python's `str(v)` on a decoded JSON scalar; containers are not rendered (see README). */
  function PyStr(v: Json): (r: Result<string>)
    ensures v.JStr? ==> r == Ok(v.s)
    ensures v.JInt? ==> r.Ok? && ParseIntText(r.value) == Some(v.i)
    ensures r.Err? <==> v.JArr? || v.JObj?
  {
    match v
    case JNull => Ok("None")
    case JBool(b) => Ok(if b then "True" else "False")
    case JInt(i) => ParseIntTextOfIntToString(i); Ok(IntToString(i))
    case JStr(s) => Ok(s)
    case _ => Err(Malformed("str"))
  }

  /** Python's `int(v)` on a decoded JSON value: integers, booleans and numeric text convert; the rest raise. */
  function PyInt(v: Json): (r: Result<int>)
    ensures v.JInt? ==> r == Ok(v.i)
    ensures v.JBool? ==> r == Ok(if v.b then 1 else 0)
    ensures v.JStr? ==> (r.Ok? <==> ParseIntText(v.s).Some?)
    ensures v.JNull? || v.JArr? || v.JObj? ==> r.Err?
  {
    match v
    case JInt(i) => Ok(i)
    case JBool(b) => Ok(if b then 1 else 0)
    case JStr(s) => (if ParseIntText(s).Some? then Ok(ParseIntText(s).value) else Err(Malformed("int")))
    case _ => Err(Malformed("int"))
  }

  /** `str` and `int` agree on integers: converting an integer to text and back gives it unchanged. */
  lemma PyIntOfPyStr(i: int)
    ensures PyStr(JInt(i)).Ok? && PyInt(JStr(PyStr(JInt(i)).value)) == Ok(i)
  {
  }
}

=== FILE: upload.dfy ===
/**
  The multipart upload (src/datacollective/upload.py): the argument guards
  and remote calls of the three upload endpoints, the part PUT and its ETag,
  and `upload_dataset_file`, which reuses or starts an upload state, reads
  the file part by part, hashes every part, sends only the parts not yet
  recorded, saves the state after each one, and completes the upload only
  when the byte count and the part count both match.

  Remote calls are parameters: `send` answers the library's API requests and
  `put` answers the PUT of a part to its presigned URL. Every observable step
  is returned as an `Effect`, in order.
 */
module Upload {
  import opened Base
  import opened Text
  import opened Models
  import opened UploadRecords
  import Api

  /** `_require_non_empty`: empty and whitespace-only values are rejected. */
  function RequireNonEmpty(value: string, field: string): (r: Outcome)
    ensures r.Fail? <==> IsBlank(value)
    ensures r.Fail? ==> r.error == InvalidArgument(field)
  {
    if value == [] || Strip(value) == [] then Fail(InvalidArgument(field)) else Pass
  }

  // ------------------------------------------------------------ endpoints

  function InitiatePayload(submissionId: string, filename: string, fileSize: int, mimeType: string): Json {
    JObj(map[
      "submissionId" := JStr(submissionId),
      "filename" := JStr(filename),
      "fileSize" := JInt(fileSize),
      "mimeType" := JStr(mimeType)
    ])
  }

  /** The session fields of the initiate response, each with its default. */
  function SessionFrom(data: map<string, Json>): (r: Result<UploadSession>)
    ensures r.Ok? && "partNumber" !in data ==> r.value.partNumber == 1
    ensures r.Ok? && "partSize" !in data ==> r.value.partSize == 0
  {
    var fileUploadId :- StrOr(data, "fileUploadId", "");
    var uploadId :- StrOr(data, "uploadId", "");
    var bucket :- StrOr(data, "bucket", "");
    var key :- StrOr(data, "key", "");
    var partSize :- IntOr(data, "partSize", 0);
    var partNumber :- IntOr(data, "partNumber", 1);
    var presignedUrl :- StrOr(data, "presignedUrl", "");
    var expiresAt :- StrOr(data, "expiresAt", "");
    Ok(UploadSession(fileUploadId, uploadId, bucket, key, partSize, partNumber, presignedUrl, expiresAt))
  }

  /** `initiate_upload`: the guards, then a POST to `/upload/initiate`. */
  function InitiateUpload(env: Api.Env, send: Api.Request -> Api.Response, submissionId: string,
                          filename: string, fileSize: int, mimeType: string): (r: Result<UploadSession>)
    ensures IsBlank(submissionId) ==> r == Err(InvalidArgument("submission_id"))
    ensures !IsBlank(submissionId) && IsBlank(filename) ==> r == Err(InvalidArgument("filename"))
    ensures !IsBlank(submissionId) && !IsBlank(filename) && IsBlank(mimeType) ==> r == Err(InvalidArgument("mime_type"))
    ensures !IsBlank(submissionId) && !IsBlank(filename) && !IsBlank(mimeType) && fileSize <= 0
            ==> r == Err(InvalidArgument("file_size"))
  {
    var _ :- RequireNonEmpty(submissionId, "submission_id");
    var _ :- RequireNonEmpty(filename, "filename");
    var _ :- RequireNonEmpty(mimeType, "mime_type");
    if fileSize <= 0 then Err(InvalidArgument("file_size"))
    else
      var data :- Api.CallJson(env, "POST", Api.ApiUrl(env) + "/upload/initiate",
                               InitiatePayload(submissionId, filename, fileSize, mimeType), send);
      SessionFrom(data)
  }

  /** The presigned URL fields; the part number defaults to the chunk index plus one. */
  function PresignedFrom(data: map<string, Json>, chunkIndex: int): (r: Result<PresignedPartUrl>)
    ensures r.Ok? && "partNumber" !in data ==> r.value.partNumber == chunkIndex + 1
  {
    var partNumber :- IntOr(data, "partNumber", chunkIndex + 1);
    var presignedUrl :- StrOr(data, "presignedUrl", "");
    var expiresAt :- StrOr(data, "expiresAt", "");
    Ok(PresignedPartUrl(partNumber, presignedUrl, expiresAt))
  }

  /** `get_presigned_part_url`: the guards, then a GET of `/upload/presigned-url`. */
  function GetPresignedPartUrl(env: Api.Env, send: Api.Request -> Api.Response, fileUploadId: string,
                               chunkIndex: int): (r: Result<PresignedPartUrl>)
    ensures IsBlank(fileUploadId) ==> r == Err(InvalidArgument("file_upload_id"))
    ensures !IsBlank(fileUploadId) && chunkIndex < 0 ==> r == Err(InvalidArgument("chunk_index"))
  {
    var _ :- RequireNonEmpty(fileUploadId, "file_upload_id");
    if chunkIndex < 0 then Err(InvalidArgument("chunk_index"))
    else
      var data :- Api.CallJson(env, "GET", Api.ApiUrl(env) + "/upload/presigned-url",
                               JObj(map["fileUploadId" := JStr(fileUploadId), "chunkIndex" := JInt(chunkIndex)]), send);
      PresignedFrom(data, chunkIndex)
  }

  function CompletePayload(fileUploadId: string, uploadId: string, parts: seq<UploadPart>, checksum: string): Json {
    JObj(map[
      "fileUploadId" := JStr(fileUploadId),
      "uploadId" := JStr(uploadId),
      "parts" := JArr(DumpParts(parts)),
      "checksum" := JStr(checksum)
    ])
  }

  /** `complete_upload`: the guards, then a POST to `/upload/complete` with the parts and checksum. */
  function CompleteUpload(env: Api.Env, send: Api.Request -> Api.Response, fileUploadId: string, uploadId: string,
                          parts: seq<UploadPart>, checksum: string): (r: Result<map<string, Json>>)
    ensures IsBlank(fileUploadId) ==> r == Err(InvalidArgument("file_upload_id"))
    ensures !IsBlank(fileUploadId) && IsBlank(uploadId) ==> r == Err(InvalidArgument("upload_id"))
    ensures !IsBlank(fileUploadId) && !IsBlank(uploadId) && IsBlank(checksum) ==> r == Err(InvalidArgument("checksum"))
    ensures !IsBlank(fileUploadId) && !IsBlank(uploadId) && !IsBlank(checksum) && parts == []
            ==> r == Err(InvalidArgument("parts"))
    ensures r.Ok? ==> r == Api.CallJson(env, "POST", Api.ApiUrl(env) + "/upload/complete",
                                        CompletePayload(fileUploadId, uploadId, parts, checksum), send)
  {
    var _ :- RequireNonEmpty(fileUploadId, "file_upload_id");
    var _ :- RequireNonEmpty(uploadId, "upload_id");
    var _ :- RequireNonEmpty(checksum, "checksum");
    if parts == [] then Err(InvalidArgument("parts"))
    else Api.CallJson(env, "POST", Api.ApiUrl(env) + "/upload/complete",
                      CompletePayload(fileUploadId, uploadId, parts, checksum), send)
  }

  /**
    The guards of the three endpoints decide before anything is sent: when
    one fails, the outcome is the same whatever the server would answer.
   */
  lemma GuardsPrecedeRequests(env: Api.Env, send1: Api.Request -> Api.Response, send2: Api.Request -> Api.Response,
                              id: string, name: string, size: int, mime: string, index: int,
                              uploadId: string, parts: seq<UploadPart>, checksum: string)
    ensures IsBlank(id) || IsBlank(name) || IsBlank(mime) || size <= 0 ==>
              InitiateUpload(env, send1, id, name, size, mime) == InitiateUpload(env, send2, id, name, size, mime)
    ensures IsBlank(id) || index < 0 ==>
              GetPresignedPartUrl(env, send1, id, index) == GetPresignedPartUrl(env, send2, id, index)
    ensures IsBlank(id) || IsBlank(uploadId) || IsBlank(checksum) || parts == [] ==>
              CompleteUpload(env, send1, id, uploadId, parts, checksum) == CompleteUpload(env, send2, id, uploadId, parts, checksum)
  {
  }

  // ------------------------------------------------------------ part PUT

  /** `_upload_part`: an empty URL raises; otherwise the PUT's status is checked. */
  function PutPart(put: (string, seq<byte>) -> Api.Response, url: string, chunk: seq<byte>): (r: Result<Api.Response>)
    ensures url == [] ==> r == Err(InvalidArgument("presigned_url"))
    ensures url != [] ==> (r.Err? <==> 400 <= put(url, chunk).status < 600)
    ensures r.Ok? ==> r.value == put(url, chunk)
  {
    if url == [] then Err(InvalidArgument("presigned_url"))
    else Api.RaiseForStatus(put(url, chunk))
  }

  const Quote: set<char> := {'"'}

  /** `_extract_etag`: a missing or empty ETag raises; otherwise it is stripped of whitespace, then of `"`. */
  function ExtractEtag(headers: map<string, string>): (r: Result<string>)
    ensures r.Ok? <==> "ETag" in headers && headers["ETag"] != []
    ensures r.Ok? ==> r.value == [] || (r.value[0] != '"' && r.value[|r.value| - 1] != '"')
  {
    if "ETag" !in headers || headers["ETag"] == [] then Err(Runtime("Missing ETag header in upload response"))
    else Ok(Trim(Strip(headers["ETag"]), Quote))
  }

  /** A quoted ETag, with or without surrounding whitespace, is recorded as the text between the quotes. */
  lemma ExtractEtagUnquotes(tag: string, pad: string)
    requires tag == [] || (tag[0] != '"' && tag[|tag| - 1] != '"')
    requires forall i | 0 <= i < |pad| :: IsSpace(pad[i])
    ensures ExtractEtag(map["ETag" := pad + "\"" + tag + "\"" + pad]) == Ok(tag)
  {
    var h := pad + "\"" + tag + "\"" + pad;
    StripPaddedQuotes(tag, pad);
    QuotesTrimmed(tag);
    var headers := map["ETag" := h];
    assert headers["ETag"] == h != [];
  }

  lemma StripPaddedQuotes(tag: string, pad: string)
    requires forall i | 0 <= i < |pad| :: IsSpace(pad[i])
    ensures Strip(pad + "\"" + tag + "\"" + pad) == "\"" + tag + "\""
  {
    var quoted := "\"" + tag + "\"";
    assert pad + "\"" + tag + "\"" + pad == pad + quoted + pad;
    TrimPadded(pad, quoted, pad, Whitespace);
  }

  lemma QuotesTrimmed(tag: string)
    requires tag == [] || (tag[0] != '"' && tag[|tag| - 1] != '"')
    ensures Trim("\"" + tag + "\"", Quote) == tag
  {
    if tag == [] {
      assert Trim("\"" + tag + "\"", Quote) == [];
    } else {
      TrimPadded("\"", tag, "\"", Quote);
    }
  }

  /** Sending one part: the PUT, then its ETag. */
  function SendPart(put: (string, seq<byte>) -> Api.Response, url: string, chunk: seq<byte>): (r: Result<string>)
    ensures r.Ok? ==> url != [] && !(400 <= put(url, chunk).status < 600)
    ensures r.Ok? ==> ExtractEtag(put(url, chunk).headers) == r
  {
    var resp :- PutPart(put, url, chunk);
    ExtractEtag(resp.headers)
  }

  // ------------------------------------------------------------ the upload

  /** The file on disk: its name, its size as `stat` reports it, and the bytes successive reads return. */
  datatype LocalFile = LocalFile(name: string, size: int, contents: seq<byte>)

  /** The observable steps of an upload, in order. */
  datatype Effect =
    | Initiated
    | Presigned(chunkIndex: int)
    | Put(partNumber: int, url: string, chunk: seq<byte>)
    | Saved(state: UploadState)
    | Complete(parts: seq<UploadPart>, checksum: string)

  function Min(a: int, b: int): int {
    if a <= b then a else b
  }

  /** Where the `index`-th read of `size` bytes starts, counted by repeated addition. */
  function Offset(index: nat, size: int): (r: int)
    ensures size >= 0 ==> r >= 0
  {
    if index == 0 then 0 else Offset(index - 1, size) + size
  }

  lemma {:induction false} OffsetIsProduct(index: nat, size: int)
    ensures Offset(index, size) == index * size
  {
    if index > 0 {
      OffsetIsProduct(index - 1, size);
      assert index * size == (index - 1) * size + size;
    }
  }

  /** The bytes the `index`-th read of `size` bytes returns. */
  function Chunk(contents: seq<byte>, size: int, index: int): (r: seq<byte>)
    requires size > 0 && index >= 0
    ensures |r| <= size
  {
    var from := Offset(index, size);
    assert Offset(index + 1, size) == from + size;
    contents[Min(from, |contents|)..Min(from + size, |contents|)]
  }

  /** The numbers of the parts sent. */
  function PutNumbers(effects: seq<Effect>): set<int>
    decreases |effects|
  {
    if effects == [] then {}
    else
      var e := effects[|effects| - 1];
      PutNumbers(effects[..|effects| - 1]) + (if e.Put? then {e.partNumber} else {})
  }

  /** No part already in `recorded` is sent. */
  predicate PutsSkip(effects: seq<Effect>, recorded: map<int, string>) {
    forall j | 0 <= j < |effects| && effects[j].Put? :: effects[j].partNumber !in recorded
  }

  predicate PutsWithin(effects: seq<Effect>, hi: int) {
    forall j | 0 <= j < |effects| && effects[j].Put? :: 1 <= effects[j].partNumber <= hi
  }

  /** Parts are sent in increasing order, each at most once. */
  predicate PutsIncreasing(effects: seq<Effect>) {
    forall j1, j2 | 0 <= j1 < j2 < |effects| && effects[j1].Put? && effects[j2].Put? ::
      effects[j1].partNumber < effects[j2].partNumber
  }

  /** Every part sent carries the bytes of its own read. */
  predicate PutsCarryChunks(effects: seq<Effect>, contents: seq<byte>, partSize: int)
    requires partSize > 0
  {
    forall j | 0 <= j < |effects| && effects[j].Put? ::
      effects[j].partNumber >= 1 && effects[j].chunk == Chunk(contents, partSize, effects[j].partNumber - 1)
  }

  /**
    What the part loop sees of the outside world: the URL a fetch returns for
    each chunk index, the ETag (or the error) a PUT of a chunk to a URL
    yields, and the initiate response when this run started the upload.
   */
  datatype Remote = Remote(fetch: int -> Result<string>, answer: (string, seq<byte>) -> Result<string>,
                           session: Option<UploadSession>)

  /**
    The endpoints an upload calls, as functions of their arguments: the
    initiate call, the presigned-URL fetch, the part PUT with its ETag, and
    the complete call.
   */
  datatype Server = Server(
    initiate: (string, string, int, string) -> Result<UploadSession>,
    fetch: (string, int) -> Result<string>,
    answer: (string, seq<byte>) -> Result<string>,
    complete: (string, string, seq<UploadPart>, string) -> Result<map<string, Json>>)

  /** The endpoints as the functions above define them over one API environment and transport. */
  function Endpoints(env: Api.Env, send: Api.Request -> Api.Response, put: (string, seq<byte>) -> Api.Response): Server {
    Server(
      (id, name, size, mime) => InitiateUpload(env, send, id, name, size, mime),
      (fileUploadId, index) => match GetPresignedPartUrl(env, send, fileUploadId, index)
                               case Ok(p) => Ok(p.presignedUrl)
                               case Err(e) => Err(e),
      (url, chunk) => SendPart(put, url, chunk),
      (fileUploadId, uploadId, parts, checksum) => CompleteUpload(env, send, fileUploadId, uploadId, parts, checksum))
  }

  /** What the part loop of one upload sees: the fetch for its `fileUploadId`, the PUT, and the initiate response if any. */
  function RemoteOf(server: Server, fileUploadId: string, session: Option<UploadSession>): Remote {
    Remote(index => server.fetch(fileUploadId, index), server.answer, session)
  }

  /** The initiate response's URL, when that response was for part `partNumber`. */
  predicate SessionUrl(session: Option<UploadSession>, partNumber: int, url: string) {
    session.Some? && partNumber == session.value.partNumber && session.value.presignedUrl != [] && url == session.value.presignedUrl
  }

  /**
    Part `partNumber` may go to `url` right after `effects`: it is the
    initiate response's URL for this part, or the fetch just made for the
    part returned it.
   */
  predicate UrlFor(effects: seq<Effect>, partNumber: int, url: string, remote: Remote) {
    || SessionUrl(remote.session, partNumber, url)
    || (|effects| >= 1 && effects[|effects| - 1] == Presigned(partNumber - 1) && remote.fetch(partNumber - 1) == Ok(url))
  }

  /** Every part is sent to the URL obtained for it. */
  predicate UrlsFrom(effects: seq<Effect>, remote: Remote) {
    forall j | 0 <= j < |effects| && effects[j].Put? :: UrlFor(effects[..j], effects[j].partNumber, effects[j].url, remote)
  }

  predicate EndsWith(s: UploadState, p: UploadPart) {
    s.parts != [] && s.parts[|s.parts| - 1] == p
  }

  /**
    Every part sent was accepted, its ETag is the one recorded for it, and the
    state was saved with that part appended right after: each PUT is
    immediately followed by a save.
   */
  predicate PutsSaved(effects: seq<Effect>, answer: (string, seq<byte>) -> Result<string>, recorded: map<int, string>)
    decreases |effects|
  {
    if effects == [] then true
    else
      var last := effects[|effects| - 1];
      if last.Put? then false
      else if last.Saved? && |effects| >= 2 && effects[|effects| - 2].Put? then
        var sent := effects[|effects| - 2];
        && sent.partNumber in recorded
        && answer(sent.url, sent.chunk) == Ok(recorded[sent.partNumber])
        && EndsWith(last.state, UploadPart(sent.partNumber, recorded[sent.partNumber]))
        && PutsSaved(effects[..|effects| - 2], answer, recorded)
      else PutsSaved(effects[..|effects| - 1], answer, recorded)
  }

  /** Part `k` was sent by some PUT of the trace and that PUT's ETag was `etag`. */
  predicate SentAs(effects: seq<Effect>, answer: (string, seq<byte>) -> Result<string>, k: int, etag: string) {
    exists j | 0 <= j < |effects| ::
      effects[j].Put? && effects[j].partNumber == k && answer(effects[j].url, effects[j].chunk) == Ok(etag)
  }

  /**
    The PUT at `j` was accepted, and the very next effect saves the state
    with that part and its ETag appended.
   */
  predicate SavedAfter(effects: seq<Effect>, answer: (string, seq<byte>) -> Result<string>, j: int)
    requires 0 <= j < |effects| && effects[j].Put?
  {
    var e := effects[j];
    && j + 1 < |effects| && effects[j + 1].Saved?
    && answer(e.url, e.chunk).Ok?
    && EndsWith(effects[j + 1].state, UploadPart(e.partNumber, answer(e.url, e.chunk).value))
  }

  /**
    Each PUT is immediately followed by a save of the state recording it,
    except a last PUT the store rejected, after which the run stops. So the
    state file a failed run leaves names every part it had accepted.
   */
  predicate SavedAfterPuts(effects: seq<Effect>, answer: (string, seq<byte>) -> Result<string>) {
    forall j | 0 <= j < |effects| && effects[j].Put? ::
      || SavedAfter(effects, answer, j)
      || (j == |effects| - 1 && answer(effects[j].url, effects[j].chunk).Err?)
  }

  /** `PutsSaved`, read one PUT at a time: every PUT is accepted and saved right after, so none comes last. */
  lemma {:induction false} SavedAfterOfPutsSaved(effects: seq<Effect>, answer: (string, seq<byte>) -> Result<string>,
                                                 recorded: map<int, string>)
    requires PutsSaved(effects, answer, recorded)
    ensures effects == [] || !effects[|effects| - 1].Put?
    ensures forall j | 0 <= j < |effects| && effects[j].Put? :: SavedAfter(effects, answer, j)
    decreases |effects|
  {
    if effects != [] {
      var n := |effects|;
      var last := effects[n - 1];
      if last.Saved? && n >= 2 && effects[n - 2].Put? {
        var init := effects[..n - 2];
        SavedAfterOfPutsSaved(init, answer, recorded);
        forall j | 0 <= j < n && effects[j].Put? ensures SavedAfter(effects, answer, j) {
          if j < n - 2 {
            assert effects[j] == init[j];
            assert SavedAfter(init, answer, j);
            assert effects[j + 1] == init[j + 1];
          }
        }
      } else {
        var init := effects[..n - 1];
        SavedAfterOfPutsSaved(init, answer, recorded);
        forall j | 0 <= j < n && effects[j].Put? ensures SavedAfter(effects, answer, j) {
          assert effects[j] == init[j];
          assert SavedAfter(init, answer, j);
          assert effects[j + 1] == init[j + 1];
        }
      }
    }
  }

  /** A PUT the store rejects, after a trace that saved every part, leaves a trace that saved every accepted part. */
  lemma SavedAfterRejected(before: seq<Effect>, e: Effect, answer: (string, seq<byte>) -> Result<string>,
                           recorded: map<int, string>)
    requires PutsSaved(before, answer, recorded) && e.Put? && answer(e.url, e.chunk).Err?
    ensures SavedAfterPuts(before + [e], answer)
  {
    SavedAfterOfPutsSaved(before, answer, recorded);
    var t := before + [e];
    forall j | 0 <= j < |before| && t[j].Put? ensures SavedAfter(t, answer, j) {
      assert t[j] == before[j] && SavedAfter(before, answer, j);
      assert t[j + 1] == before[j + 1];
    }
  }

  lemma PutNumbersAppend(effects: seq<Effect>, e: Effect)
    ensures PutNumbers(effects + [e]) == PutNumbers(effects) + (if e.Put? then {e.partNumber} else {})
  {
    assert (effects + [e])[..|effects|] == effects;
  }

  lemma SavedAppendOther(effects: seq<Effect>, e: Effect, answer: (string, seq<byte>) -> Result<string>, recorded: map<int, string>)
    requires PutsSaved(effects, answer, recorded)
    requires !e.Put? && !e.Saved?
    ensures PutsSaved(effects + [e], answer, recorded)
  {
    assert (effects + [e])[..|effects|] == effects;
  }

  /** Recording a part not sent before leaves the facts about the parts sent so far unchanged. */
  lemma {:induction false} SavedWiden(effects: seq<Effect>, answer: (string, seq<byte>) -> Result<string>,
                                      recorded: map<int, string>, pn: int, etag: string)
    requires PutsSaved(effects, answer, recorded) && pn !in PutNumbers(effects)
    ensures PutsSaved(effects, answer, recorded[pn := etag])
    decreases |effects|
  {
    if effects != [] && !effects[|effects| - 1].Put? {
      var last := effects[|effects| - 1];
      var init := effects[..|effects| - 1];
      assert PutNumbers(effects) == PutNumbers(init);
      if last.Saved? && |effects| >= 2 && effects[|effects| - 2].Put? {
        var before := effects[..|effects| - 2];
        assert init[..|init| - 1] == before && init[|init| - 1] == effects[|effects| - 2];
        assert PutNumbers(init) == PutNumbers(before) + {effects[|effects| - 2].partNumber};
        SavedWiden(before, answer, recorded, pn, etag);
      } else {
        SavedWiden(init, answer, recorded, pn, etag);
      }
    }
  }

  lemma SavedAppendPart(effects: seq<Effect>, pn: int, url: string, chunk: seq<byte>, saved: UploadState,
                        answer: (string, seq<byte>) -> Result<string>, recorded: map<int, string>, etag: string)
    requires PutsSaved(effects, answer, recorded) && pn !in PutNumbers(effects)
    requires answer(url, chunk) == Ok(etag)
    requires EndsWith(saved, UploadPart(pn, etag))
    ensures PutsSaved(effects + [Put(pn, url, chunk)] + [Saved(saved)], answer, recorded[pn := etag])
  {
    var t := effects + [Put(pn, url, chunk)] + [Saved(saved)];
    assert t[..|t| - 2] == effects;
    assert t[|t| - 2] == Put(pn, url, chunk);
    SavedWiden(effects, answer, recorded, pn, etag);
  }

  /** Each part the trace sent is recorded, and some PUT of it returned the recorded ETag. */
  lemma {:induction false} SavedSent(effects: seq<Effect>, answer: (string, seq<byte>) -> Result<string>,
                                     recorded: map<int, string>, k: int)
    requires PutsSaved(effects, answer, recorded) && k in PutNumbers(effects)
    ensures k in recorded && SentAs(effects, answer, k, recorded[k])
    decreases |effects|
  {
    var last := effects[|effects| - 1];
    var init := effects[..|effects| - 1];
    assert PutNumbers(effects) == PutNumbers(init);
    if last.Saved? && |effects| >= 2 && effects[|effects| - 2].Put? {
      var sent := effects[|effects| - 2];
      var before := effects[..|effects| - 2];
      assert init[..|init| - 1] == before && init[|init| - 1] == sent;
      if sent.partNumber == k {
        assert effects[|effects| - 2] == sent;
      } else {
        SavedSent(before, answer, recorded, k);
        var j :| 0 <= j < |before| && before[j].Put? && before[j].partNumber == k
                 && answer(before[j].url, before[j].chunk) == Ok(recorded[k]);
        assert effects[j] == before[j];
      }
    } else {
      SavedSent(init, answer, recorded, k);
      var j :| 0 <= j < |init| && init[j].Put? && init[j].partNumber == k
               && answer(init[j].url, init[j].chunk) == Ok(recorded[k]);
      assert effects[j] == init[j];
    }
  }

  /**
    Recording a new part keeps the loop's bookkeeping: the map still
    normalises the state's parts, the loaded entries keep their ETags, and
    every part number read so far is present.
   */
  lemma RecordPart(start: UploadState, state: UploadState, next: UploadState, m0: map<int, string>,
                   m: map<int, string>, m2: map<int, string>, i: int, etag: string)
    requires i >= 0 && i + 1 !in m
    requires state == start.(parts := state.parts) && m == NormalizeParts(state.parts)
    requires forall k | k in m0 :: k in m && m[k] == m0[k]
    requires forall k | 1 <= k <= i :: k in m
    requires next == state.(parts := state.parts + [UploadPart(i + 1, etag)]) && m2 == m[i + 1 := etag]
    ensures next == start.(parts := next.parts) && m2 == NormalizeParts(next.parts)
    ensures forall k | k in m0 :: k in m2 && m2[k] == m0[k]
    ensures forall k | 1 <= k <= i + 1 :: k in m2
    ensures m2.Keys == m.Keys + {i + 1}
    ensures EndsWith(next, UploadPart(i + 1, etag))
  {
    NormalizeAppend(state.parts, UploadPart(i + 1, etag));
  }

  /** The upload was not initiated anywhere in this stretch of the trace. */
  predicate NoInitiate(effects: seq<Effect>) {
    forall j | 0 <= j < |effects| :: !effects[j].Initiated?
  }

  /**
    The trace facts the part loop keeps while it has read `hi` parts. Read
    from the end: every PUT is of a part that was not loaded, numbered at most
    `hi` and above every earlier PUT, carries the bytes of its own read and
    goes to the URL obtained for it right before; nothing initiates the upload.
   */
  ghost predicate Sending(effects: seq<Effect>, m0: map<int, string>, hi: int, contents: seq<byte>, partSize: int,
                          remote: Remote)
    requires partSize > 0
    decreases |effects|
  {
    if effects == [] then true
    else
      var init := effects[..|effects| - 1];
      var last := effects[|effects| - 1];
      if last.Put? then
        && last.partNumber !in m0 && 1 <= last.partNumber <= hi
        && last.chunk == Chunk(contents, partSize, last.partNumber - 1)
        && UrlFor(init, last.partNumber, last.url, remote)
        && Sending(init, m0, last.partNumber - 1, contents, partSize, remote)
      else
        !last.Initiated? && Sending(init, m0, hi, contents, partSize, remote)
  }

  lemma {:induction false} SendingWiden(effects: seq<Effect>, m0: map<int, string>, lo: int, hi: int, contents: seq<byte>,
                                        partSize: int, remote: Remote)
    requires partSize > 0 && lo <= hi
    requires Sending(effects, m0, lo, contents, partSize, remote)
    ensures Sending(effects, m0, hi, contents, partSize, remote)
    decreases |effects|
  {
    if effects != [] && !effects[|effects| - 1].Put? {
      SendingWiden(effects[..|effects| - 1], m0, lo, hi, contents, partSize, remote);
    }
  }

  lemma SendingAppend(effects: seq<Effect>, e: Effect, m0: map<int, string>, lo: int, hi: int, contents: seq<byte>,
                      partSize: int, remote: Remote)
    requires partSize > 0 && 0 <= lo <= hi && !e.Initiated?
    requires Sending(effects, m0, lo, contents, partSize, remote)
    requires e.Put? ==> && e.partNumber !in m0 && lo < e.partNumber <= hi
                        && e.chunk == Chunk(contents, partSize, e.partNumber - 1)
                        && UrlFor(effects, e.partNumber, e.url, remote)
    ensures Sending(effects + [e], m0, hi, contents, partSize, remote)
    ensures PutNumbers(effects + [e]) == PutNumbers(effects) + (if e.Put? then {e.partNumber} else {})
  {
    var t := effects + [e];
    assert t[..|effects|] == effects && t[|effects|] == e;
    PutNumbersAppend(effects, e);
    if e.Put? {
      SendingWiden(effects, m0, lo, e.partNumber - 1, contents, partSize, remote);
      assert Sending(t, m0, hi, contents, partSize, remote) == (
        && e.partNumber !in m0 && 1 <= e.partNumber <= hi
        && e.chunk == Chunk(contents, partSize, e.partNumber - 1)
        && UrlFor(effects, e.partNumber, e.url, remote)
        && Sending(effects, m0, e.partNumber - 1, contents, partSize, remote));
    } else {
      SendingWiden(effects, m0, lo, hi, contents, partSize, remote);
      assert Sending(t, m0, hi, contents, partSize, remote) == Sending(effects, m0, hi, contents, partSize, remote);
    }
  }

  /** Under `Sending`, loaded parts are skipped, part numbers stay within `hi` and strictly increase, and nothing initiates. */
  lemma {:induction false} SendingOrders(effects: seq<Effect>, m0: map<int, string>, hi: int, contents: seq<byte>,
                           partSize: int, remote: Remote)
    requires partSize > 0
    requires Sending(effects, m0, hi, contents, partSize, remote)
    ensures PutsSkip(effects, m0) && PutsWithin(effects, hi) && PutsIncreasing(effects) && NoInitiate(effects)
    decreases |effects|
  {
    if effects != [] {
      var init := effects[..|effects| - 1];
      var last := effects[|effects| - 1];
      SendingOrders(init, m0, if last.Put? then last.partNumber - 1 else hi, contents, partSize, remote);
      assert forall j | 0 <= j < |init| :: effects[j] == init[j];
    }
  }

  /** Under `Sending`, every PUT carries the bytes of its own read. */
  lemma {:induction false} SendingChunks(effects: seq<Effect>, m0: map<int, string>, hi: int, contents: seq<byte>,
                           partSize: int, remote: Remote)
    requires partSize > 0
    requires Sending(effects, m0, hi, contents, partSize, remote)
    ensures PutsCarryChunks(effects, contents, partSize)
    decreases |effects|
  {
    if effects != [] {
      var init := effects[..|effects| - 1];
      var last := effects[|effects| - 1];
      SendingChunks(init, m0, if last.Put? then last.partNumber - 1 else hi, contents, partSize, remote);
      assert forall j | 0 <= j < |init| :: effects[j] == init[j];
    }
  }

  /** Under `Sending`, every part goes to the URL obtained for it. */
  lemma {:induction false} SendingUrls(effects: seq<Effect>, m0: map<int, string>, hi: int, contents: seq<byte>,
                           partSize: int, remote: Remote)
    requires partSize > 0
    requires Sending(effects, m0, hi, contents, partSize, remote)
    ensures UrlsFrom(effects, remote)
    decreases |effects|
  {
    if effects != [] {
      var init := effects[..|effects| - 1];
      var last := effects[|effects| - 1];
      SendingUrls(init, m0, if last.Put? then last.partNumber - 1 else hi, contents, partSize, remote);
      assert forall j | 0 <= j < |init| :: effects[j] == init[j] && effects[..j] == init[..j];
    }
  }

  /** Where a part goes: the initiate response's URL when that response was for this part, else a fetched one. */
  function PartUrl(remote: Remote, index: int): (r: (bool, Result<string>))
    ensures !r.0 ==> r.1.Ok? && SessionUrl(remote.session, index + 1, r.1.value)
    ensures r.0 ==> r.1 == remote.fetch(index)
  {
    var session := remote.session;
    if session.Some? && index + 1 == session.value.partNumber && session.value.presignedUrl != [] then
      (false, Ok(session.value.presignedUrl))
    else
      (true, remote.fetch(index))
  }

  /** Obtaining the URL of part `index + 1`, recording a fetch when one is made. */
  method FetchPartUrl(remote: Remote, partSize: int, contents: seq<byte>, m0: map<int, string>,
                      m: map<int, string>, effects: seq<Effect>, index: int)
    returns (url: Result<string>, out: seq<Effect>)
    requires partSize > 0 && index >= 0
    requires Sending(effects, m0, index, contents, partSize, remote)
    requires PutsSaved(effects, remote.answer, m)
    ensures Sending(out, m0, index, contents, partSize, remote)
    ensures PutsSaved(out, remote.answer, m)
    ensures PutNumbers(out) == PutNumbers(effects)
    ensures url == PartUrl(remote, index).1
    ensures url.Ok? ==> UrlFor(out, index + 1, url.value, remote)
  {
    var choice := PartUrl(remote, index);
    url := choice.1;
    out := effects;
    if choice.0 {
      var ask := Presigned(index);
      SendingAppend(effects, ask, m0, index, index, contents, partSize, remote);
      SavedAppendOther(effects, ask, remote.answer, m);
      out := effects + [ask];
      assert out[|out| - 1] == ask;
    }
  }

  /**
    Sending a part not yet recorded: fetch its URL unless the initiate
    response already gave one, PUT the chunk, take the ETag, append the part
    to the state and save it.
   */
  method SendNewPart(remote: Remote, partSize: int, contents: seq<byte>, m0: map<int, string>,
                     m: map<int, string>, state: UploadState, effects: seq<Effect>, i: int, chunk: seq<byte>)
    returns (r: Result<string>, out: seq<Effect>)
    requires partSize > 0 && i >= 0 && i + 1 !in m && chunk == Chunk(contents, partSize, i)
    requires m0.Keys <= m.Keys
    requires Sending(effects, m0, i, contents, partSize, remote)
    requires PutsSaved(effects, remote.answer, m) && PutNumbers(effects) <= m.Keys
    ensures Sending(out, m0, i + 1, contents, partSize, remote)
    ensures r.Ok? ==> PutNumbers(out) == PutNumbers(effects) + {i + 1}
    ensures r.Ok? ==> PutsSaved(out, remote.answer, m[i + 1 := r.value])
    ensures r.Ok? ==> |out| > 0 && out[|out| - 1] == Saved(state.(parts := state.parts + [UploadPart(i + 1, r.value)]))
    ensures r.Err? ==> SavedAfterPuts(out, remote.answer)
  {
    var pn := i + 1;
    var url;
    url, out := FetchPartUrl(remote, partSize, contents, m0, m, effects, i);
    if url.Err? {
      SendingWiden(out, m0, i, i + 1, contents, partSize, remote);
      SavedAfterOfPutsSaved(out, remote.answer, m);
      r := Err(url.error);
      return;
    }
    var before := out;
    var sent := Put(pn, url.value, chunk);
    SendingAppend(before, sent, m0, i, i + 1, contents, partSize, remote);
    out := before + [sent];
    var etag := remote.answer(url.value, chunk);
    if etag.Err? {
      SavedAfterRejected(before, sent, remote.answer, m);
      r := Err(etag.error);
      return;
    }
    var next := state.(parts := state.parts + [UploadPart(pn, etag.value)]);
    SavedAppendPart(before, pn, url.value, chunk, next, remote.answer, m, etag.value);
    SendingAppend(out, Saved(next), m0, i + 1, i + 1, contents, partSize, remote);
    out := out + [Saved(next)];
    r := Ok(etag.value);
  }

  /** Where the part loop stands: the state and parts map it built, how far it read, and what it hashed. */
  datatype Progress = Progress(state: UploadState, recorded: map<int, string>, partsRead: int, bytesRead: int, hashed: seq<byte>)

  /**
    The bookkeeping of the part loop after reading `p.partsRead` parts of
    `contents`: it read exactly those bytes and hashed them; the state differs
    from the start only in its parts, which the map normalises; every loaded
    ETag is kept; every part read is recorded; and the parts recorded are the
    loaded ones and those the trace sent.
   */
  ghost predicate Tally(p: Progress, effects: seq<Effect>, start: UploadState, contents: seq<byte>)
    requires start.partSize > 0
  {
    var m0 := NormalizeParts(start.parts);
    && 0 <= p.partsRead
    && p.bytesRead == Min(Offset(p.partsRead, start.partSize), |contents|)
    && p.hashed == contents[..p.bytesRead]
    && p.state == start.(parts := p.state.parts)
    && p.recorded == NormalizeParts(p.state.parts)
    && (forall k | k in m0 :: k in p.recorded && p.recorded[k] == m0[k])
    && (forall k | 1 <= k <= p.partsRead :: k in p.recorded)
    && p.recorded.Keys == m0.Keys + PutNumbers(effects)
  }

  /**
    What the part loop keeps true: its bookkeeping, and a trace that sent
    each new part once, in order, with its own chunk, and saved it.
   */
  ghost predicate Reading(p: Progress, effects: seq<Effect>, start: UploadState, contents: seq<byte>, remote: Remote)
    requires start.partSize > 0
  {
    && Tally(p, effects, start, contents)
    && Sending(effects, NormalizeParts(start.parts), p.partsRead, contents, start.partSize, remote)
    && PutsSaved(effects, remote.answer, p.recorded)
  }

  /** The next chunk continues the bytes read and hashed so far. */
  lemma NextChunk(contents: seq<byte>, ps: int, i: int, bytesRead: int, hashed: seq<byte>)
    requires ps > 0 && 0 <= i && bytesRead == Min(Offset(i, ps), |contents|) && bytesRead < |contents|
    requires hashed == contents[..bytesRead]
    ensures bytesRead <= Min(bytesRead + ps, |contents|) == Min(Offset(i + 1, ps), |contents|)
    ensures contents[bytesRead..Min(bytesRead + ps, |contents|)] == Chunk(contents, ps, i)
    ensures hashed + Chunk(contents, ps, i) == contents[..Min(bytesRead + ps, |contents|)]
  {
    var next := Min(bytesRead + ps, |contents|);
    assert contents[..next] == contents[..bytesRead] + contents[bytesRead..next];
  }

  /** Reading a part that is already recorded keeps the loop's facts without sending anything. */
  lemma ReadingSkip(p: Progress, effects: seq<Effect>, start: UploadState, contents: seq<byte>, remote: Remote)
    requires start.partSize > 0 && p.bytesRead < |contents| && p.partsRead + 1 in p.recorded
    requires Reading(p, effects, start, contents, remote)
    ensures Reading(Progress(p.state, p.recorded, p.partsRead + 1, Min(p.bytesRead + start.partSize, |contents|),
                             p.hashed + Chunk(contents, start.partSize, p.partsRead)),
                    effects, start, contents, remote)
  {
    NextChunk(contents, start.partSize, p.partsRead, p.bytesRead, p.hashed);
    SendingWiden(effects, NormalizeParts(start.parts), p.partsRead, p.partsRead + 1, contents, start.partSize, remote);
  }

  /** Recording a newly sent part keeps the loop's bookkeeping. */
  lemma TallyNew(p: Progress, effects: seq<Effect>, out: seq<Effect>, etag: string, start: UploadState, contents: seq<byte>)
    requires start.partSize > 0 && p.bytesRead < |contents| && p.partsRead + 1 !in p.recorded
    requires Tally(p, effects, start, contents)
    requires PutNumbers(out) == PutNumbers(effects) + {p.partsRead + 1}
    ensures Tally(Progress(p.state.(parts := p.state.parts + [UploadPart(p.partsRead + 1, etag)]),
                           p.recorded[p.partsRead + 1 := etag], p.partsRead + 1, Min(p.bytesRead + start.partSize, |contents|),
                           p.hashed + Chunk(contents, start.partSize, p.partsRead)),
                  out, start, contents)
  {
    NextChunk(contents, start.partSize, p.partsRead, p.bytesRead, p.hashed);
    var i := p.partsRead;
    RecordPart(start, p.state, p.state.(parts := p.state.parts + [UploadPart(i + 1, etag)]), NormalizeParts(start.parts),
               p.recorded, p.recorded[i + 1 := etag], i, etag);
  }

  /** Reading and sending a new part keeps the loop's facts, with the part recorded under its ETag. */
  lemma ReadingNew(p: Progress, effects: seq<Effect>, out: seq<Effect>, etag: string, start: UploadState,
                   contents: seq<byte>, remote: Remote)
    requires start.partSize > 0 && p.bytesRead < |contents| && p.partsRead + 1 !in p.recorded
    requires Reading(p, effects, start, contents, remote)
    requires Sending(out, NormalizeParts(start.parts), p.partsRead + 1, contents, start.partSize, remote)
    requires PutNumbers(out) == PutNumbers(effects) + {p.partsRead + 1}
    requires PutsSaved(out, remote.answer, p.recorded[p.partsRead + 1 := etag])
    ensures Reading(Progress(p.state.(parts := p.state.parts + [UploadPart(p.partsRead + 1, etag)]),
                             p.recorded[p.partsRead + 1 := etag], p.partsRead + 1, Min(p.bytesRead + start.partSize, |contents|),
                             p.hashed + Chunk(contents, start.partSize, p.partsRead)),
                    out, start, contents, remote)
  {
    TallyNew(p, effects, out, etag, start, contents);
  }

  /**
    One round of the part loop: read and hash the next chunk, and send it
    unless its part is already recorded.
   */
  method ReadNextPart(remote: Remote, start: UploadState, contents: seq<byte>, p: Progress, effects: seq<Effect>)
    returns (r: Result<Progress>, out: seq<Effect>)
    requires start.partSize > 0 && p.bytesRead < |contents|
    requires Reading(p, effects, start, contents, remote)
    ensures Sending(out, NormalizeParts(start.parts), p.partsRead + 1, contents, start.partSize, remote)
    ensures r.Ok? ==> r.value.partsRead == p.partsRead + 1 && Reading(r.value, out, start, contents, remote)
    ensures r.Err? ==> SavedAfterPuts(out, remote.answer)
  {
    var ps := start.partSize;
    var i := p.partsRead;
    NextChunk(contents, ps, i, p.bytesRead, p.hashed);
    var next := Min(p.bytesRead + ps, |contents|);
    var chunk := contents[p.bytesRead..next];
    if i + 1 !in p.recorded {
      var etag;
      etag, out := SendNewPart(remote, ps, contents, NormalizeParts(start.parts), p.recorded, p.state, effects, i, chunk);
      if etag.Err? {
        r := Err(etag.error);
        return;
      }
      ReadingNew(p, effects, out, etag.value, start, contents, remote);
      r := Ok(Progress(p.state.(parts := p.state.parts + [UploadPart(i + 1, etag.value)]), p.recorded[i + 1 := etag.value],
                       i + 1, next, p.hashed + chunk));
    } else {
      out := effects;
      ReadingSkip(p, effects, start, contents, remote);
      r := Ok(Progress(p.state, p.recorded, i + 1, next, p.hashed + chunk));
    }
  }

  /**
    The part loop of `upload_dataset_file`: read the file part by part up to
    the expected count or the end of the file, hash every part read, and send
    only the parts not yet recorded, saving the state after each.
   */
  method SendParts(remote: Remote, start: UploadState, contents: seq<byte>)
    returns (r: Result<Progress>, effects: seq<Effect>)
    requires start.fileSize > 0 && start.partSize > 0
    ensures Sending(effects, NormalizeParts(start.parts), ExpectedParts(start.fileSize, start.partSize), contents,
                    start.partSize, remote)
    ensures r.Ok? ==> && r.value.partsRead <= ExpectedParts(start.fileSize, start.partSize)
                      && (r.value.partsRead == ExpectedParts(start.fileSize, start.partSize) || r.value.bytesRead == |contents|)
                      && Tally(r.value, effects, start, contents)
                      && PutsSaved(effects, remote.answer, r.value.recorded)
    ensures r.Err? ==> SavedAfterPuts(effects, remote.answer)
  {
    var ps := start.partSize;
    var n := ExpectedParts(start.fileSize, ps);
    var m0 := NormalizeParts(start.parts);
    var p := Progress(start, m0, 0, 0, []);
    effects := [];
    while p.partsRead < n && p.bytesRead < |contents|
      invariant p.partsRead <= n
      invariant Reading(p, effects, start, contents, remote)
      decreases n - p.partsRead
    {
      var step;
      step, effects := ReadNextPart(remote, start, contents, p, effects);
      if step.Err? {
        SendingWiden(effects, m0, p.partsRead + 1, n, contents, ps, remote);
        r := Err(step.error);
        return;
      }
      p := step.value;
    }
    SendingWiden(effects, m0, p.partsRead, n, contents, ps, remote);
    r := Ok(p);
  }

  /** The part loop, with what its trace means stated one PUT at a time. */
  method PartLoop(remote: Remote, start: UploadState, contents: seq<byte>)
    returns (r: Result<Progress>, effects: seq<Effect>)
    requires start.fileSize > 0 && start.partSize > 0
    ensures PutsSkip(effects, NormalizeParts(start.parts)) && PutsIncreasing(effects) && NoInitiate(effects)
    ensures PutsWithin(effects, ExpectedParts(start.fileSize, start.partSize))
    ensures PutsCarryChunks(effects, contents, start.partSize) && UrlsFrom(effects, remote)
    ensures SavedAfterPuts(effects, remote.answer)
    ensures r.Ok? ==> && r.value.partsRead <= ExpectedParts(start.fileSize, start.partSize)
                      && Tally(r.value, effects, start, contents)
                      && PutsSaved(effects, remote.answer, r.value.recorded)
                      && (effects == [] || !effects[|effects| - 1].Put?)
  {
    var n := ExpectedParts(start.fileSize, start.partSize);
    var m0 := NormalizeParts(start.parts);
    r, effects := SendParts(remote, start, contents);
    SendingOrders(effects, m0, n, contents, start.partSize, remote);
    SendingChunks(effects, m0, n, contents, start.partSize, remote);
    SendingUrls(effects, m0, n, contents, start.partSize, remote);
    if r.Ok? {
      SavedAfterOfPutsSaved(effects, remote.answer, r.value.recorded);
    }
  }

  // ------------------------------------------------------------ upload_dataset_file

  /** `filename or path.name`. */
  function FinalFilename(filename: Option<string>, file: LocalFile): string {
    if TruthyStr(filename) then filename.value else file.name
  }

  /** A loaded state belongs to this upload when size, name and submission all agree. */
  predicate Matches(s: UploadState, fileSize: int, filename: string, submissionId: string) {
    s.fileSize == fileSize && s.filename == filename && s.submissionId == submissionId
  }

  /**
    The state an upload resumes from, given what `load_upload_state` returned:
    with `resume`, the loaded state when it belongs to this upload; otherwise
    none. A load that raised raises again, but only when resuming.
   */
  function ResumeChoice(loaded: Result<Option<UploadState>>, resume: bool, fileSize: int, filename: string,
                        submissionId: string): (r: Result<Option<UploadState>>)
    ensures !resume ==> r == Ok(None)
    ensures r.Err? <==> resume && loaded.Err?
    ensures r.Ok? && r.value.Some? ==> resume && loaded == r && Matches(r.value.value, fileSize, filename, submissionId)
    ensures resume && loaded.Ok? && loaded.value.Some? && Matches(loaded.value.value, fileSize, filename, submissionId)
            ==> r == loaded
  {
    if !resume then Ok(None)
    else
      var state :- loaded;
      if state.Some? && Matches(state.value, fileSize, filename, submissionId) then Ok(state) else Ok(None)
  }

  /** The same choice over the state file itself: `load_upload_state`, then `ResumeChoice`. */
  function ResumeState(stateFile: Option<StateFile>, resume: bool, fileSize: int, filename: string,
                       submissionId: string): (r: Result<Option<UploadState>>)
    ensures !resume ==> r == Ok(None)
    ensures r.Err? <==> resume && stateFile == Some(NotJson)
    ensures r.Ok? && r.value.Some? ==> resume && Usable(r.value.value) && Matches(r.value.value, fileSize, filename, submissionId)
    ensures r.Ok? && r.value.Some? ==> stateFile.Some? && stateFile.value.Stored? && FromDict(stateFile.value.doc) == Ok(r.value.value)
  {
    ResumeChoice(LoadUploadState(stateFile), resume, fileSize, filename, submissionId)
  }

  /** A state saved by an earlier run of the same upload is picked up again, unchanged. */
  lemma ResumeAfterSave(s: UploadState, fileSize: int, filename: string, submissionId: string)
    requires Usable(s) && ValidPartNumbers(s.parts) && Matches(s, fileSize, filename, submissionId)
    ensures ResumeState(Some(SaveUploadState(s)), true, fileSize, filename, submissionId) == Ok(Some(s))
  {
    LoadAfterSave(s);
  }

  /** A saved state of another file or submission is not resumed. */
  lemma ResumeRejectsOther(s: UploadState, fileSize: int, filename: string, submissionId: string)
    requires !Matches(s, fileSize, filename, submissionId)
    ensures ResumeState(Some(SaveUploadState(s)), true, fileSize, filename, submissionId) == Ok(None)
  {
  }

  predicate NoPuts(effects: seq<Effect>) {
    forall j | 0 <= j < |effects| :: !effects[j].Put?
  }

  /** Trace facts about the part loop's effects carry over when effects without PUTs come before and after. */
  lemma LiftTrace(pre: seq<Effect>, mid: seq<Effect>, post: seq<Effect>, recorded: map<int, string>,
                  contents: seq<byte>, partSize: int)
    requires partSize > 0 && NoPuts(pre) && NoPuts(post)
    requires PutsSkip(mid, recorded) && PutsIncreasing(mid) && PutsCarryChunks(mid, contents, partSize)
    ensures (pre + mid + post)[..|pre|] == pre
    ensures NoInitiate(pre) && NoInitiate(mid) && NoInitiate(post) ==> NoInitiate(pre + mid + post)
    ensures PutsSkip(pre + mid + post, recorded)
    ensures PutsIncreasing(pre + mid + post)
    ensures PutsCarryChunks(pre + mid + post, contents, partSize)
  {
    var t := pre + mid + post;
    assert forall j | 0 <= j < |pre| :: t[j] == pre[j];
    assert forall j | |pre| <= j < |pre| + |mid| :: t[j] == mid[j - |pre|];
    assert forall j | |pre| + |mid| <= j < |t| :: t[j] == post[j - |pre| - |mid|];
  }

  /** Effects put in front keep the last save and `complete_upload` at the end. */
  lemma EndsWithCompleteAfter(pre: seq<Effect>, post: seq<Effect>, st: UploadState)
    requires EndsWithComplete(post, st)
    ensures EndsWithComplete(pre + post, st)
  {
    var t := pre + post;
    assert t[|t| - 2] == post[|post| - 2] && t[|t| - 1] == post[|post| - 1];
  }

  /** A part that was loaded or sent by the part loop stays so when effects come before and after the loop's. */
  lemma LiftSent(pre: seq<Effect>, mid: seq<Effect>, post: seq<Effect>, answer: (string, seq<byte>) -> Result<string>,
                 parts: seq<UploadPart>, m0: map<int, string>)
    requires forall i | 0 <= i < |parts| ::
               || (parts[i].partNumber in m0 && parts[i].etag == m0[parts[i].partNumber])
               || SentAs(mid, answer, parts[i].partNumber, parts[i].etag)
    ensures forall i | 0 <= i < |parts| ::
              || (parts[i].partNumber in m0 && parts[i].etag == m0[parts[i].partNumber])
              || SentAs(pre + mid + post, answer, parts[i].partNumber, parts[i].etag)
  {
    forall i | 0 <= i < |parts| && SentAs(mid, answer, parts[i].partNumber, parts[i].etag)
      ensures SentAs(pre + mid + post, answer, parts[i].partNumber, parts[i].etag)
    {
      var j :| 0 <= j < |mid| && mid[j].Put? && mid[j].partNumber == parts[i].partNumber
               && answer(mid[j].url, mid[j].chunk) == Ok(parts[i].etag);
      assert (pre + mid + post)[|pre| + j] == mid[j];
    }
  }

  /** The saves after the loop's PUTs stay in place when effects without PUTs come before and after the loop's. */
  lemma LiftSaved(pre: seq<Effect>, mid: seq<Effect>, post: seq<Effect>, answer: (string, seq<byte>) -> Result<string>)
    requires NoPuts(pre) && NoPuts(post) && SavedAfterPuts(mid, answer)
    requires post == [] || mid == [] || !mid[|mid| - 1].Put?
    ensures SavedAfterPuts(pre + mid + post, answer)
  {
    var t := pre + mid + post;
    assert forall i | 0 <= i < |pre| :: t[i] == pre[i];
    assert forall i | |pre| + |mid| <= i < |t| :: t[i] == post[i - |pre| - |mid|];
    forall j | 0 <= j < |t| && t[j].Put?
      ensures SavedAfter(t, answer, j) || (j == |t| - 1 && answer(t[j].url, t[j].chunk).Err?)
    {
      var k := j - |pre|;
      assert t[j] == mid[k];
      if SavedAfter(mid, answer, k) {
        assert t[j + 1] == mid[k + 1];
      }
    }
  }

  /** Each PUT keeps the URL obtained for it when effects without PUTs come before and after the loop's. */
  lemma LiftUrls(pre: seq<Effect>, mid: seq<Effect>, post: seq<Effect>, remote: Remote)
    requires NoPuts(pre) && NoPuts(post) && UrlsFrom(mid, remote)
    ensures UrlsFrom(pre + mid + post, remote)
  {
    var t := pre + mid + post;
    assert forall i | 0 <= i < |pre| :: t[i] == pre[i];
    assert forall i | |pre| + |mid| <= i < |t| :: t[i] == post[i - |pre| - |mid|];
    forall j | 0 <= j < |t| && t[j].Put? ensures UrlFor(t[..j], t[j].partNumber, t[j].url, remote) {
      var k := j - |pre|;
      assert t[j] == mid[k];
      assert UrlFor(mid[..k], mid[k].partNumber, mid[k].url, remote);
      if k > 0 {
        assert t[..j][j - 1] == mid[..k][k - 1];
      }
    }
  }

  /**
    When the byte count the loop read reaches the file size, every expected
    part was read: fewer parts cannot cover the file.
   */
  lemma AllPartsRead(size: int, ps: int, partsRead: int, bytesRead: int, available: int)
    requires size > 0 && ps > 0 && 0 <= partsRead <= ExpectedParts(size, ps)
    requires bytesRead == Min(Offset(partsRead, ps), available) && bytesRead == size
    ensures partsRead == ExpectedParts(size, ps)
  {
    OffsetIsProduct(partsRead, ps);
    MulLe(partsRead, ExpectedParts(size, ps) - 1, ps);
  }

  /** `a <= b` scales by a non-negative factor. */
  lemma MulLe(a: int, b: int, c: int)
    requires c >= 0
    ensures a <= b ==> a * c <= b * c
  {
    if a <= b {
      assert b * c - a * c == (b - a) * c;
    }
  }

  /**
    The state an upload starts from: the loaded one when it is resumed;
    otherwise `initiate_upload` is called, its answer must carry both ids and a
    part size, and the fresh state is saved at once.
   */
  method StartState(server: Server, file: LocalFile, finalName: string,
                    submissionId: string, mimeType: string, loaded: Result<Option<UploadState>>, resume: bool)
    returns (r: Result<UploadState>, session: Option<UploadSession>, pre: seq<Effect>)
    requires file.size > 0
    requires loaded.Ok? && loaded.value.Some? ==> Usable(loaded.value.value)
    ensures NoPuts(pre)
    ensures r.Ok? ==> r.value.partSize > 0 && r.value.fileSize == file.size
    ensures ResumeChoice(loaded, resume, file.size, finalName, submissionId).Err? ==> r.Err? && pre == []
    ensures ResumeChoice(loaded, resume, file.size, finalName, submissionId) == Ok(None)
            && server.initiate(submissionId, finalName, file.size, mimeType).Err?
            ==> r == Err(server.initiate(submissionId, finalName, file.size, mimeType).error) && pre == [Initiated]
    ensures ResumeChoice(loaded, resume, file.size, finalName, submissionId) == Ok(None)
            && server.initiate(submissionId, finalName, file.size, mimeType).Ok?
            ==> var s := server.initiate(submissionId, finalName, file.size, mimeType).value;
                (s.fileUploadId == [] || s.uploadId == [] || s.partSize <= 0)
                ==> r == Err(Runtime("Upload initiation did not return expected fields")) && pre == [Initiated]
    ensures r.Ok? ==>
      match ResumeChoice(loaded, resume, file.size, finalName, submissionId)
      case Ok(Some(loaded)) => r.value == loaded && session.None? && pre == []
      case Ok(None) =>
        && server.initiate(submissionId, finalName, file.size, mimeType).Ok?
        && var s := server.initiate(submissionId, finalName, file.size, mimeType).value;
        && session == Some(s)
        && r.value == UploadState(submissionId, s.fileUploadId, s.uploadId, file.size, s.partSize, finalName, mimeType, [], JNull)
        && pre == [Initiated, Saved(r.value)]
      case Err(_) => false
  {
    session := None;
    pre := [];
    var choice := ResumeChoice(loaded, resume, file.size, finalName, submissionId);
    if choice.Err? {
      r := Err(choice.error);
      return;
    }
    if choice.value.Some? {
      r := Ok(choice.value.value);
      return;
    }
    pre := [Initiated];
    var initiated := server.initiate(submissionId, finalName, file.size, mimeType);
    if initiated.Err? {
      r := Err(initiated.error);
      return;
    }
    var s := initiated.value;
    if s.fileUploadId == [] || s.uploadId == [] || s.partSize <= 0 {
      r := Err(Runtime("Upload initiation did not return expected fields"));
      return;
    }
    session := Some(s);
    var start := UploadState(submissionId, s.fileUploadId, s.uploadId, file.size, s.partSize, finalName, mimeType, [], JNull);
    pre := [Initiated, Saved(start)];
    r := Ok(start);
  }

  /** Every part taken from the map was either loaded with its ETag or sent by the trace with that ETag. */
  lemma PartsProvenance(sent: seq<Effect>, answer: (string, seq<byte>) -> Result<string>, recorded: map<int, string>,
                        m0: map<int, string>, parts: seq<UploadPart>)
    requires PutsSaved(sent, answer, recorded) && recorded.Keys == m0.Keys + PutNumbers(sent)
    requires forall k | k in m0 :: k in recorded && recorded[k] == m0[k]
    requires forall i | 0 <= i < |parts| :: parts[i].partNumber in recorded && recorded[parts[i].partNumber] == parts[i].etag
    ensures forall i | 0 <= i < |parts| ::
              || (parts[i].partNumber in m0 && parts[i].etag == m0[parts[i].partNumber])
              || SentAs(sent, answer, parts[i].partNumber, parts[i].etag)
  {
    forall i | 0 <= i < |parts| && parts[i].partNumber !in m0
      ensures SentAs(sent, answer, parts[i].partNumber, parts[i].etag)
    {
      SavedSent(sent, answer, recorded, parts[i].partNumber);
    }
  }

  /**
    When the loop read the whole file and recorded as many parts as expected,
    the hash covers the file's bytes and the sorted parts are numbered 1 to
    the expected count, each loaded or sent with its ETag.
   */
  lemma ReadComplete(p: Progress, sent: seq<Effect>, start: UploadState, contents: seq<byte>,
                     answer: (string, seq<byte>) -> Result<string>)
    requires start.fileSize > 0 && start.partSize > 0
    requires p.partsRead <= ExpectedParts(start.fileSize, start.partSize)
    requires Tally(p, sent, start, contents) && PutsSaved(sent, answer, p.recorded)
    requires p.bytesRead == start.fileSize && |p.recorded| == ExpectedParts(start.fileSize, start.partSize)
    ensures |contents| >= start.fileSize && p.hashed == contents[..start.fileSize]
    ensures var parts := SortedParts(p.recorded, ExpectedParts(start.fileSize, start.partSize));
      && |parts| == ExpectedParts(start.fileSize, start.partSize)
      && (forall i | 0 <= i < |parts| :: parts[i].partNumber == i + 1)
      && forall i | 0 <= i < |parts| ::
           || (parts[i].partNumber in NormalizeParts(start.parts) && parts[i].etag == NormalizeParts(start.parts)[parts[i].partNumber])
           || SentAs(sent, answer, parts[i].partNumber, parts[i].etag)
  {
    var n := ExpectedParts(start.fileSize, start.partSize);
    AllPartsRead(start.fileSize, start.partSize, p.partsRead, p.bytesRead, |contents|);
    KeysAreRange(p.recorded, n);
    SortedPartsComplete(p.recorded, n);
    PartsProvenance(sent, answer, p.recorded, NormalizeParts(start.parts), SortedParts(p.recorded, n));
  }

  /**
    What a successful upload leaves: the start state with only its parts
    and checksum replaced, the checksum of the file's first `fileSize`
    bytes, and the parts numbered 1..n for the expected count n.
   */
  predicate Completed(st: UploadState, start: UploadState, contents: seq<byte>, codecs: Codecs) {
    && st == start.(parts := st.parts, checksum := st.checksum)
    && 0 <= start.fileSize <= |contents|
    && st.checksum == JStr(codecs.hex(codecs.sha256(contents[..start.fileSize])))
    && |st.parts| == ExpectedParts(start.fileSize, start.partSize)
    && (forall i | 0 <= i < |st.parts| :: st.parts[i].partNumber == i + 1)
  }

  /** The effects end with the last save of `st` and the `complete_upload` of its parts and checksum. */
  predicate EndsWithComplete(effects: seq<Effect>, st: UploadState) {
    && st.checksum.JStr?
    && |effects| >= 2 && effects[|effects| - 2] == Saved(st) && effects[|effects| - 1] == Complete(st.parts, st.checksum.s)
  }

  /**
    After the part loop: the byte and part count checks, then the checksum of
    the bytes read, the parts in order of their numbers, a last save and
    `complete_upload`.
   */
  method FinishUpload(server: Server, codecs: Codecs, remote: Remote,
                      start: UploadState, contents: seq<byte>, p: Progress, sent: seq<Effect>)
    returns (r: Result<UploadState>, post: seq<Effect>)
    requires start.fileSize > 0 && start.partSize > 0
    requires p.partsRead <= ExpectedParts(start.fileSize, start.partSize)
    requires Tally(p, sent, start, contents) && PutsSaved(sent, remote.answer, p.recorded)
    ensures NoPuts(post) && NoInitiate(post)
    ensures p.bytesRead != start.fileSize ==> r == Err(Runtime("Upload aborted because file size changed during upload"))
    ensures p.bytesRead == start.fileSize && |p.recorded| != ExpectedParts(start.fileSize, start.partSize)
            ==> r == Err(Runtime("Upload incomplete"))
    ensures r.Ok? ==>
      var st := r.value;
      var m0 := NormalizeParts(start.parts);
      && Completed(st, start, contents, codecs)
      && post == [Saved(st), Complete(st.parts, st.checksum.s)]
      && server.complete(st.fileUploadId, st.uploadId, st.parts, st.checksum.s).Ok?
      && forall i | 0 <= i < |st.parts| ::
           || (st.parts[i].partNumber in m0 && st.parts[i].etag == m0[st.parts[i].partNumber])
           || SentAs(sent, remote.answer, st.parts[i].partNumber, st.parts[i].etag)
  {
    post := [];
    var n := ExpectedParts(start.fileSize, start.partSize);
    if p.bytesRead != start.fileSize {
      r := Err(Runtime("Upload aborted because file size changed during upload"));
      return;
    }
    if |p.recorded| != n {
      r := Err(Runtime("Upload incomplete"));
      return;
    }
    ReadComplete(p, sent, start, contents, remote.answer);
    var parts := SortedParts(p.recorded, n);
    var checksum := codecs.hex(codecs.sha256(p.hashed));
    var final := p.state.(parts := parts, checksum := JStr(checksum));
    post := [Saved(final), Complete(parts, checksum)];
    var done := server.complete(final.fileUploadId, final.uploadId, parts, checksum);
    if done.Err? {
      r := Err(done.error);
      return;
    }
    r := Ok(final);
  }

  /** The three argument guards of `upload_dataset_file`, in their order. */
  method CheckUploadArguments(filePath: string, submissionId: string, mimeType: string) returns (o: Outcome)
    ensures IsBlank(filePath) ==> o == Fail(InvalidArgument("file_path"))
    ensures !IsBlank(filePath) && IsBlank(submissionId) ==> o == Fail(InvalidArgument("submission_id"))
    ensures !IsBlank(filePath) && !IsBlank(submissionId) && IsBlank(mimeType) ==> o == Fail(InvalidArgument("mime_type"))
    ensures o.Pass? <==> !IsBlank(filePath) && !IsBlank(submissionId) && !IsBlank(mimeType)
  {
    o := RequireNonEmpty(filePath, "file_path");
    if o.Fail? {
      return;
    }
    o := RequireNonEmpty(submissionId, "submission_id");
    if o.Fail? {
      return;
    }
    o := RequireNonEmpty(mimeType, "mime_type");
  }

  /**
    Everything after the start state is chosen: the part loop, then the
    checks, the checksum, the last save and `complete_upload`, with the
    effects of choosing the state (`pre`) kept in front.
   */
  method RunUpload(server: Server, codecs: Codecs, start: UploadState, session: Option<UploadSession>,
                   pre: seq<Effect>, contents: seq<byte>)
    returns (r: Result<UploadState>, effects: seq<Effect>)
    requires start.fileSize > 0 && start.partSize > 0 && NoPuts(pre)
    ensures PutsIncreasing(effects)
    ensures |pre| <= |effects| && effects[..|pre|] == pre
    ensures SavedAfterPuts(effects, server.answer)
    ensures UrlsFrom(effects, RemoteOf(server, start.fileUploadId, session))
    ensures r.Ok? ==>
      var st := r.value;
      var m0 := NormalizeParts(start.parts);
      && Completed(st, start, contents, codecs)
      && PutsCarryChunks(effects, contents, st.partSize)
      && PutsSkip(effects, m0)
      && (NoInitiate(pre) ==> NoInitiate(effects))
      && EndsWithComplete(effects, st)
      && server.complete(st.fileUploadId, st.uploadId, st.parts, st.checksum.s).Ok?
      && forall i | 0 <= i < |st.parts| ::
           || (st.parts[i].partNumber in m0 && st.parts[i].etag == m0[st.parts[i].partNumber])
           || SentAs(effects, server.answer, st.parts[i].partNumber, st.parts[i].etag)
  {
    var ps := start.partSize;
    var m0 := NormalizeParts(start.parts);
    var n := ExpectedParts(start.fileSize, ps);
    var remote := RemoteOf(server, start.fileUploadId, session);
    var progress, sent := PartLoop(remote, start, contents);
    var post := [];
    if progress.Ok? {
      r, post := FinishUpload(server, codecs, remote, start, contents, progress.value, sent);
    } else {
      r := Err(progress.error);
    }
    LiftTrace(pre, sent, post, m0, contents, ps);
    LiftSaved(pre, sent, post, server.answer);
    LiftUrls(pre, sent, post, remote);
    effects := pre + sent + post;
    if r.Ok? {
      EndsWithCompleteAfter(pre + sent, post, r.value);
      LiftSent(pre, sent, post, remote.answer, r.value.parts, m0);
    }
  }

  /**
    `upload_dataset_file`: the guards, then the state to resume or a fresh
    one from `initiate_upload` (saved at once), then the part loop, then the
    byte and part count checks, and finally the checksum, the parts in
    order, a last save and `complete_upload`.
   */
  method UploadDatasetFile(server: Server, codecs: Codecs, filePath: string, file: Option<LocalFile>, submissionId: string,
                           mimeType: string, filename: Option<string>, loaded: Result<Option<UploadState>>, resume: bool)
    returns (r: Result<UploadState>, effects: seq<Effect>)
    requires loaded.Ok? && loaded.value.Some? ==> Usable(loaded.value.value)
    ensures IsBlank(filePath) ==> r == Err(InvalidArgument("file_path")) && effects == []
    ensures !IsBlank(filePath) && IsBlank(submissionId) ==> r == Err(InvalidArgument("submission_id")) && effects == []
    ensures !IsBlank(filePath) && !IsBlank(submissionId) && IsBlank(mimeType)
            ==> r == Err(InvalidArgument("mime_type")) && effects == []
    ensures !IsBlank(filePath) && !IsBlank(submissionId) && !IsBlank(mimeType) && file.None?
            ==> r == Err(NotFound) && effects == []
    ensures !IsBlank(filePath) && !IsBlank(submissionId) && !IsBlank(mimeType) && file.Some? && file.value.size <= 0
            ==> r == Err(InvalidArgument("file_path")) && effects == []
    ensures PutsIncreasing(effects)
    ensures SavedAfterPuts(effects, server.answer)
    ensures r.Ok? ==> file.Some?
    ensures r.Ok? ==>
      var f := file.value;
      var st := r.value;
      && st.submissionId == submissionId && st.fileSize == f.size && st.filename == FinalFilename(filename, f)
      && st.partSize > 0 && |f.contents| >= f.size
      && st.checksum == JStr(codecs.hex(codecs.sha256(f.contents[..f.size])))
      && |st.parts| == ExpectedParts(f.size, st.partSize)
      && (forall i | 0 <= i < |st.parts| :: st.parts[i].partNumber == i + 1)
      && PutsCarryChunks(effects, f.contents, st.partSize)
      && |effects| >= 2 && effects[|effects| - 2] == Saved(st) && effects[|effects| - 1] == Complete(st.parts, st.checksum.s)
      && server.complete(st.fileUploadId, st.uploadId, st.parts, st.checksum.s).Ok?
    ensures r.Ok? ==>
      var f := file.value;
      var st := r.value;
      match ResumeChoice(loaded, resume, f.size, FinalFilename(filename, f), submissionId)
      case Ok(Some(loaded)) =>
        && NoInitiate(effects)
        && st == loaded.(parts := st.parts, checksum := st.checksum)
        && UrlsFrom(effects, RemoteOf(server, loaded.fileUploadId, None))
        && PutsSkip(effects, NormalizeParts(loaded.parts))
        && forall i | 0 <= i < |st.parts| ::
             || (st.parts[i].partNumber in NormalizeParts(loaded.parts)
                 && st.parts[i].etag == NormalizeParts(loaded.parts)[st.parts[i].partNumber])
             || SentAs(effects, server.answer, st.parts[i].partNumber, st.parts[i].etag)
      case Ok(None) =>
        && server.initiate(submissionId, FinalFilename(filename, f), f.size, mimeType).Ok?
        && var session := server.initiate(submissionId, FinalFilename(filename, f), f.size, mimeType).value;
        && effects[0] == Initiated
        && effects[1] == Saved(UploadState(submissionId, session.fileUploadId, session.uploadId, f.size, session.partSize,
                                           FinalFilename(filename, f), mimeType, [], JNull))
        && st.fileUploadId == session.fileUploadId && st.uploadId == session.uploadId && st.partSize == session.partSize
        && UrlsFrom(effects, RemoteOf(server, session.fileUploadId, Some(session)))
        && forall i | 0 <= i < |st.parts| :: SentAs(effects, server.answer, st.parts[i].partNumber, st.parts[i].etag)
      case Err(_) => false
  {
    effects := [];
    var guard := CheckUploadArguments(filePath, submissionId, mimeType);
    if guard.Fail? {
      r := Err(guard.error);
      return;
    }
    if file.None? {
      r := Err(NotFound);
      return;
    }
    var f := file.value;
    if f.size <= 0 {
      r := Err(InvalidArgument("file_path"));
      return;
    }
    var finalName := FinalFilename(filename, f);
    var started, session, pre := StartState(server, f, finalName, submissionId, mimeType, loaded, resume);
    effects := pre;
    if started.Err? {
      r := Err(started.error);
      return;
    }
    r, effects := RunUpload(server, codecs, started.value, session, pre, f.contents);
  }
}

=== FILE: upload_records.dfy ===
/**
  The records of a multipart upload (src/datacollective/upload.py): the
  session the server opens, the resumable state persisted between runs and
  its dictionary form, the rule that decides whether a persisted state is
  usable, the part count, and the two views of the recorded parts (a map
  from part number to ETag, and the sorted list sent on completion).
 */
module UploadRecords {
  import opened Base
  import opened Text
  import opened Models

  /** What `initiate_upload` returns: the server's session, with the presigned URL of one part. */
  datatype UploadSession = UploadSession(
    fileUploadId: string,
    uploadId: string,
    bucket: string,
    key: string,
    partSize: int,
    partNumber: int,
    presignedUrl: string,
    expiresAt: string)

  /** The resumable state of one upload, persisted after every part. */
  datatype UploadState = UploadState(
    submissionId: string,
    fileUploadId: string,
    uploadId: string,
    fileSize: int,
    partSize: int,
    filename: string,
    mimeType: string,
    parts: seq<UploadPart>,
    checksum: Json)

  datatype PresignedPartUrl = PresignedPartUrl(partNumber: int, presignedUrl: string, expiresAt: string)

  // ------------------------------------------------------------ dictionary form

  function DumpParts(parts: seq<UploadPart>): (r: seq<Json>)
    ensures |r| == |parts|
    ensures forall i | 0 <= i < |parts| :: r[i] == DumpUploadPart(parts[i])
  {
    seq(|parts|, i requires 0 <= i < |parts| => DumpUploadPart(parts[i]))
  }

  /** `UploadState.to_dict`. */
  function ToDict(s: UploadState): Json {
    JObj(map[
      "submissionId" := JStr(s.submissionId),
      "fileUploadId" := JStr(s.fileUploadId),
      "uploadId" := JStr(s.uploadId),
      "fileSize" := JInt(s.fileSize),
      "partSize" := JInt(s.partSize),
      "filename" := JStr(s.filename),
      "mimeType" := JStr(s.mimeType),
      "parts" := JArr(DumpParts(s.parts)),
      "checksum" := s.checksum
    ])
  }

  /** Validates every item as an `UploadPart`, keeping their order; the first invalid item raises. */
  function ParseParts(items: seq<Json>): (r: Result<seq<UploadPart>>)
    ensures r.Ok? <==> forall i | 0 <= i < |items| :: ParseUploadPart(items[i]).Ok?
    ensures r.Ok? ==> |r.value| == |items|
    ensures r.Ok? ==> forall i | 0 <= i < |items| :: ParseUploadPart(items[i]) == Ok(r.value[i])
    decreases |items|
  {
    if items == [] then Ok([])
    else
      var init := items[..|items| - 1];
      assert forall i | 0 <= i < |init| :: init[i] == items[i];
      var front :- ParseParts(init);
      var last :- ParseUploadPart(items[|items| - 1]);
      Ok(front + [last])
  }

  /**
    Iterating `payload.get("parts", [])`: a list is validated item by item;
    an absent key, an empty string and an empty object iterate over nothing;
    a non-empty string or object yields items that are not parts, and any
    other value is not iterable.
   */
  function PartsField(v: Option<Json>): (r: Result<seq<UploadPart>>)
    ensures v.None? ==> r == Ok([])
    ensures v.Some? && v.value.JArr? ==> r == ParseParts(v.value.items)
    ensures r.Ok? && r.value != [] ==> v.Some? && v.value.JArr?
  {
    match v
    case None => Ok([])
    case Some(JArr(items)) => ParseParts(items)
    case Some(JStr(s)) => if s == [] then Ok([]) else Err(InvalidArgument("parts"))
    case Some(JObj(m)) => if m == map[] then Ok([]) else Err(InvalidArgument("parts"))
    case Some(_) => Err(InvalidArgument("parts"))
  }

  /** `str(payload.get(key, default))`. */
  function StrOr(m: map<string, Json>, key: string, default: string): (r: Result<string>)
    ensures key !in m ==> r == Ok(default)
    ensures key in m && m[key].JStr? ==> r == Ok(m[key].s)
  {
    PyStr(Get(m, key).GetOr(JStr(default)))
  }

  /** `int(payload.get(key, default))`. */
  function IntOr(m: map<string, Json>, key: string, default: int): (r: Result<int>)
    ensures key !in m ==> r == Ok(default)
    ensures key in m && m[key].JInt? ==> r == Ok(m[key].i)
  {
    PyInt(Get(m, key).GetOr(JInt(default)))
  }

  /**
    `UploadState.from_dict`: each field read with its default, the parts
    validated; the dataclass keeps `checksum` as whatever JSON value the
    file holds, null when absent.
   */
  function FromDict(doc: Json): (r: Result<UploadState>)
    ensures !doc.JObj? ==> r.Err?
    ensures r.Ok? ==> r.value.checksum == (if "checksum" in doc.fields then doc.fields["checksum"] else JNull)
    ensures r.Ok? && "parts" !in doc.fields ==> r.value.parts == []
    ensures r.Ok? && "fileSize" !in doc.fields ==> r.value.fileSize == 0
    ensures r.Ok? && "fileUploadId" !in doc.fields ==> r.value.fileUploadId == []
  {
    match doc
    case JObj(m) =>
      var submissionId :- StrOr(m, "submissionId", "");
      var fileUploadId :- StrOr(m, "fileUploadId", "");
      var uploadId :- StrOr(m, "uploadId", "");
      var fileSize :- IntOr(m, "fileSize", 0);
      var partSize :- IntOr(m, "partSize", 0);
      var filename :- StrOr(m, "filename", "");
      var mimeType :- StrOr(m, "mimeType", "");
      var parts :- PartsField(Get(m, "parts"));
      var checksum := Get(m, "checksum").GetOr(JNull);
      Ok(UploadState(submissionId, fileUploadId, uploadId, fileSize, partSize, filename, mimeType, parts, checksum))
    case _ => Err(Malformed("upload state"))
  }

  predicate ValidPartNumbers(parts: seq<UploadPart>) {
    forall i | 0 <= i < |parts| :: parts[i].partNumber >= 1
  }

  lemma ParsePartsOfDump(parts: seq<UploadPart>)
    ensures ParseParts(DumpParts(parts)).Ok? <==> ValidPartNumbers(parts)
    ensures ValidPartNumbers(parts) ==> ParseParts(DumpParts(parts)) == Ok(parts)
  {
    var items := DumpParts(parts);
    forall i | 0 <= i < |parts|
      ensures ParseUploadPart(items[i]).Ok? <==> parts[i].partNumber >= 1
      ensures parts[i].partNumber >= 1 ==> ParseUploadPart(items[i]) == Ok(parts[i])
    {
      UploadPartRoundTrip(parts[i]);
    }
    if ValidPartNumbers(parts) {
      var r := ParseParts(items);
      assert |r.value| == |parts|;
      forall i | 0 <= i < |parts| ensures r.value[i] == parts[i] {
        assert ParseUploadPart(items[i]) == Ok(r.value[i]);
      }
      assert r.value == parts;
    }
  }

  /**
    Writing a state to its dictionary and reading it back reproduces every
    field, the parts in order with their ETags included, exactly when every
    part number is at least 1 (the bound `UploadPart` enforces).
   */
  lemma ToDictLookups(s: UploadState)
    ensures ToDict(s).fields["submissionId"] == JStr(s.submissionId)
    ensures ToDict(s).fields["fileUploadId"] == JStr(s.fileUploadId)
    ensures ToDict(s).fields["uploadId"] == JStr(s.uploadId)
    ensures ToDict(s).fields["fileSize"] == JInt(s.fileSize)
    ensures ToDict(s).fields["partSize"] == JInt(s.partSize)
    ensures ToDict(s).fields["filename"] == JStr(s.filename)
    ensures ToDict(s).fields["mimeType"] == JStr(s.mimeType)
    ensures ToDict(s).fields["parts"] == JArr(DumpParts(s.parts))
    ensures ToDict(s).fields["checksum"] == s.checksum
  {
  }

  /** Reading a dictionary whose fields hold the state's values, each with its own type. */
  lemma FromDictOfFields(m: map<string, Json>, s: UploadState)
    requires "submissionId" in m && m["submissionId"] == JStr(s.submissionId)
    requires "fileUploadId" in m && m["fileUploadId"] == JStr(s.fileUploadId)
    requires "uploadId" in m && m["uploadId"] == JStr(s.uploadId)
    requires "fileSize" in m && m["fileSize"] == JInt(s.fileSize)
    requires "partSize" in m && m["partSize"] == JInt(s.partSize)
    requires "filename" in m && m["filename"] == JStr(s.filename)
    requires "mimeType" in m && m["mimeType"] == JStr(s.mimeType)
    requires "parts" in m && m["parts"] == JArr(DumpParts(s.parts))
    requires "checksum" in m && m["checksum"] == s.checksum
    ensures FromDict(JObj(m)).Ok? <==> ValidPartNumbers(s.parts)
    ensures ValidPartNumbers(s.parts) ==> FromDict(JObj(m)) == Ok(s)
  {
    ParsePartsOfDump(s.parts);
  }

  lemma FromDictToDict(s: UploadState)
    ensures FromDict(ToDict(s)).Ok? <==> ValidPartNumbers(s.parts)
    ensures ValidPartNumbers(s.parts) ==> FromDict(ToDict(s)) == Ok(s)
  {
    ToDictLookups(s);
    FromDictOfFields(ToDict(s).fields, s);
  }

  // ------------------------------------------------------------ loading

  /** The state file on disk: text that is not JSON, or a decoded document. */
  datatype StateFile = NotJson | Stored(doc: Json)

  /** `save_upload_state`: the file then holds the state's dictionary. */
  function SaveUploadState(s: UploadState): StateFile {
    Stored(ToDict(s))
  }

  /** A loaded state worth resuming: both identifiers present and both sizes positive. */
  predicate Usable(s: UploadState) {
    s.fileUploadId != [] && s.uploadId != [] && s.fileSize > 0 && s.partSize > 0
  }

  /**
    `load_upload_state`: no file gives None, text that is not JSON raises,
    and a document that does not convert, or converts to an unusable state,
    gives None.
   */
  function LoadUploadState(file: Option<StateFile>): (r: Result<Option<UploadState>>)
    ensures file.None? ==> r == Ok(None)
    ensures file == Some(NotJson) <==> r.Err?
    ensures r.Ok? && r.value.Some? ==> Usable(r.value.value)
    ensures r.Ok? && r.value.Some? ==> file.Some? && file.value.Stored? && FromDict(file.value.doc) == Ok(r.value.value)
    ensures file.Some? && file.value.Stored? && FromDict(file.value.doc).Ok? && Usable(FromDict(file.value.doc).value)
            ==> r == Ok(Some(FromDict(file.value.doc).value))
  {
    match file
    case None => Ok(None)
    case Some(NotJson) => Err(Malformed("upload state file"))
    case Some(Stored(doc)) =>
      match FromDict(doc)
      case Err(_) => Ok(None)
      case Ok(s) =>
        if s.fileUploadId == [] || s.uploadId == [] then Ok(None)
        else if s.fileSize <= 0 || s.partSize <= 0 then Ok(None)
        else Ok(Some(s))
  }

  /** What is saved is what is loaded next time, when the state is usable and its part numbers valid. */
  lemma LoadAfterSave(s: UploadState)
    requires Usable(s) && ValidPartNumbers(s.parts)
    ensures LoadUploadState(Some(SaveUploadState(s))) == Ok(Some(s))
  {
    FromDictToDict(s);
  }

  /** A saved state that is not usable is ignored on the next load. */
  lemma LoadIgnoresUnusable(s: UploadState)
    requires !Usable(s)
    ensures LoadUploadState(Some(SaveUploadState(s))) == Ok(None)
  {
    FromDictToDict(s);
  }

  // ------------------------------------------------------------ part count

  /** `_expected_parts`: the number of parts of size `partSize` that cover `fileSize` bytes, or 0. */
  function ExpectedParts(fileSize: int, partSize: int): (r: int)
    ensures fileSize <= 0 || partSize <= 0 ==> r == 0
    ensures fileSize > 0 && partSize > 0 ==> r >= 1 && (r - 1) * partSize < fileSize <= r * partSize
  {
    if fileSize <= 0 || partSize <= 0 then 0
    else
      var q := (fileSize + partSize - 1) / partSize;
      var rem := (fileSize + partSize - 1) % partSize;
      assert fileSize + partSize - 1 == q * partSize + rem;
      assert (q - 1) * partSize == q * partSize - partSize;
      q
  }

  /** The part count is the ceiling of `fileSize / partSize`: the only count whose parts cover the file with the last one non-empty. */
  lemma ExpectedPartsIsCeiling(fileSize: int, partSize: int, n: int)
    requires fileSize > 0 && partSize > 0
    requires (n - 1) * partSize < fileSize <= n * partSize
    ensures n == ExpectedParts(fileSize, partSize)
  {
    var e := ExpectedParts(fileSize, partSize);
    MulCancel(e - 1, n, partSize);
    MulCancel(n - 1, e, partSize);
  }

  /** Multiplying by a positive number keeps a strict order, so the order of products tells the order of factors. */
  lemma MulCancel(a: int, b: int, c: int)
    requires c > 0
    ensures a * c < b * c ==> a < b
  {
    if a >= b {
      assert a * c - b * c == (a - b) * c;
    }
  }

  // ------------------------------------------------------------ recorded parts

  /** `_normalize_parts`: part number to ETag, in list order, skipping numbers below 1. */
  function NormalizeParts(parts: seq<UploadPart>): (m: map<int, string>)
    ensures forall k | k in m :: k >= 1
    ensures forall i | 0 <= i < |parts| && parts[i].partNumber >= 1 :: parts[i].partNumber in m
    decreases |parts|
  {
    if parts == [] then map[]
    else
      var init := parts[..|parts| - 1];
      assert forall i | 0 <= i < |init| :: init[i] == parts[i];
      var m := NormalizeParts(init);
      var p := parts[|parts| - 1];
      if p.partNumber <= 0 then m else m[p.partNumber := p.etag]
  }

  /** Every entry of the map is some part of the list. */
  lemma {:induction false} NormalizePartsFrom(parts: seq<UploadPart>, k: int)
    requires k in NormalizeParts(parts)
    ensures exists i | 0 <= i < |parts| :: parts[i] == UploadPart(k, NormalizeParts(parts)[k])
    decreases |parts|
  {
    var init := parts[..|parts| - 1];
    var p := parts[|parts| - 1];
    if p.partNumber == k {
      assert parts[|parts| - 1] == UploadPart(k, NormalizeParts(parts)[k]);
    } else {
      NormalizePartsFrom(init, k);
      var i :| 0 <= i < |init| && init[i] == UploadPart(k, NormalizeParts(init)[k]);
      assert parts[i] == init[i];
    }
  }

  /** Appending one part updates the map at its number, unless the number is below 1. */
  lemma NormalizeAppend(parts: seq<UploadPart>, p: UploadPart)
    ensures NormalizeParts(parts + [p]) ==
            if p.partNumber <= 0 then NormalizeParts(parts) else NormalizeParts(parts)[p.partNumber := p.etag]
  {
    assert (parts + [p])[..|parts|] == parts;
  }

  /** For a repeated part number the last ETag wins. */
  lemma {:induction false} NormalizeLastWins(parts: seq<UploadPart>, i: int)
    requires 0 <= i < |parts| && parts[i].partNumber >= 1
    requires forall j | i < j < |parts| :: parts[j].partNumber != parts[i].partNumber
    ensures NormalizeParts(parts)[parts[i].partNumber] == parts[i].etag
    decreases |parts|
  {
    var init := parts[..|parts| - 1];
    assert parts == init + [parts[|parts| - 1]];
    NormalizeAppend(init, parts[|parts| - 1]);
    if i < |parts| - 1 {
      assert init[i] == parts[i];
      NormalizeLastWins(init, i);
    }
  }

  /**
    `sorted(parts_by_number.items())` as parts, for a map whose part numbers
    lie in 1..`hi`: one entry per number, smallest first.
   */
  function SortedParts(m: map<int, string>, hi: int): (r: seq<UploadPart>)
    ensures forall i | 0 <= i < |r| :: 1 <= r[i].partNumber <= hi && r[i].partNumber in m && m[r[i].partNumber] == r[i].etag
    ensures forall i, j | 0 <= i < j < |r| :: r[i].partNumber < r[j].partNumber
    decreases hi
  {
    if hi <= 0 then []
    else
      var front := SortedParts(m, hi - 1);
      if hi in m then
        var r := front + [UploadPart(hi, m[hi])];
        assert forall i | 0 <= i < |front| :: r[i] == front[i];
        r
      else front
  }

  /** Every recorded number in 1..`hi` has its entry in the sorted list. */
  lemma {:induction false} SortedPartsCovers(m: map<int, string>, hi: int, k: int)
    requires k in m && 1 <= k <= hi
    ensures exists i | 0 <= i < |SortedParts(m, hi)| :: SortedParts(m, hi)[i].partNumber == k
    decreases hi
  {
    var r := SortedParts(m, hi);
    var front := SortedParts(m, hi - 1);
    if k == hi {
      assert r == front + [UploadPart(hi, m[hi])];
      assert r[|front|].partNumber == k;
    } else {
      SortedPartsCovers(m, hi - 1, k);
      var i :| 0 <= i < |front| && front[i].partNumber == k;
      assert r[..|front|] == front;
      assert r[i].partNumber == k;
    }
  }

  /** When every number 1..`n` is recorded, the sorted list is exactly parts 1 to `n` in order. */
  lemma {:induction false} SortedPartsComplete(m: map<int, string>, n: int)
    requires forall k | 1 <= k <= n :: k in m
    ensures |SortedParts(m, n)| == if n <= 0 then 0 else n
    ensures forall i | 0 <= i < |SortedParts(m, n)| :: SortedParts(m, n)[i] == UploadPart(i + 1, m[i + 1])
    decreases n
  {
    if n > 0 {
      SortedPartsComplete(m, n - 1);
      var front := SortedParts(m, n - 1);
      assert SortedParts(m, n) == front + [UploadPart(n, m[n])];
    }
  }

  /** Normalising the sorted list gives back the map it was sorted from. */
  lemma NormalizeSortedKeeps(m: map<int, string>, hi: int, k: int)
    requires k in m && 1 <= k <= hi
    ensures k in NormalizeParts(SortedParts(m, hi)) && NormalizeParts(SortedParts(m, hi))[k] == m[k]
  {
    var r := SortedParts(m, hi);
    SortedPartsCovers(m, hi, k);
    var i :| 0 <= i < |r| && r[i].partNumber == k;
    assert forall j | i < j < |r| :: r[j].partNumber != k;
    NormalizeLastWins(r, i);
  }

  lemma NormalizeSortedAdds(m: map<int, string>, hi: int, k: int)
    requires k in NormalizeParts(SortedParts(m, hi))
    ensures k in m
  {
    var r := SortedParts(m, hi);
    NormalizePartsFrom(r, k);
    var i :| 0 <= i < |r| && r[i] == UploadPart(k, NormalizeParts(r)[k]);
    assert r[i].partNumber in m;
  }

  /**
    Normalising the sorted list gives back the map it was sorted from: the
    same part numbers, each with the same ETag.
   */
  lemma NormalizeSorted(m: map<int, string>, hi: int)
    requires forall k | k in m :: 1 <= k <= hi
    ensures forall k | k in m :: k in NormalizeParts(SortedParts(m, hi)) && NormalizeParts(SortedParts(m, hi))[k] == m[k]
    ensures forall k | k in NormalizeParts(SortedParts(m, hi)) :: k in m
  {
    forall k | k in m ensures k in NormalizeParts(SortedParts(m, hi)) && NormalizeParts(SortedParts(m, hi))[k] == m[k] {
      NormalizeSortedKeeps(m, hi, k);
    }
    forall k | k in NormalizeParts(SortedParts(m, hi)) ensures k in m {
      NormalizeSortedAdds(m, hi, k);
    }
  }

  // ------------------------------------------------------------ counting parts

  /** The part numbers 1..`n`. */
  function PartRange(n: int): (s: set<int>)
    ensures forall k :: k in s <==> 1 <= k <= n
    decreases n
  {
    if n <= 0 then {} else PartRange(n - 1) + {n}
  }

  lemma {:induction false} PartRangeSize(n: nat)
    ensures |PartRange(n)| == n
  {
    if n > 0 {
      PartRangeSize(n - 1);
      var below := PartRange(n - 1);
      assert n !in below;
      assert PartRange(n) == below + {n};
      assert |below + {n}| == |below| + 1;
    }
  }

  /** A set that contains `r` and is no larger than it is `r`. */
  lemma SubsetSameSize(r: set<int>, k: set<int>)
    requires r <= k && |k| <= |r|
    ensures k == r
  {
    assert k == r + (k - r);
    assert r * (k - r) == {};
    assert |k - r| == 0;
  }

  /** `n` distinct recorded numbers that include 1..`n` are exactly 1..`n`. */
  lemma KeysAreRange(m: map<int, string>, n: nat)
    requires forall k | 1 <= k <= n :: k in m
    requires |m| == n
    ensures forall k | k in m :: 1 <= k <= n
  {
    PartRangeSize(n);
    assert PartRange(n) <= m.Keys;
    assert |m.Keys| == |m|;
    SubsetSameSize(PartRange(n), m.Keys);
  }
}
